=== FILE: README.md ===
# HackerNet rules in Dafny

HackerNet is a browser front end for people who practise on vulnerable lab
machines. Users mark machines as wanted or solved, take time-stamped notes on
them, schedule practice sessions in a calendar, and follow certification
roadmaps, trophies, a profile level and a Pomodoro timer. Most of its code
renders HTML or talks to a hosted database. This project models the rules
underneath, as immutable datatypes and pure functions:

- **DateKeys**: calendar dates and their `YYYY-MM-DD` keys. It covers
  formatting and parsing, the `Date` constructor's normalisation of day
  overflow and two-digit years, stepping one day, the Monday-first grid
  offset, and why string order on keys is date order.
- **Calendar**: the map from date key to scheduled entries. It covers the
  rebuild on load, removing one entry, the upcoming-sessions list, the
  month count and the CSV export.
- **Store**: the data gateway's local fallbacks. It covers:
  - the per-user status map (machine id → `none`/`deseada`/`resuelta`),
    with its read and write;
  - the solved/wanted counts;
  - the difficulty buckets;
  - the per-certification progress rows;
  - the page range;
  - the decision to serve demo machines;
  - appending, range-reading and deleting calendar entries.
- **Trophies**, **Profile**, **Roadmap**: the trophy catalogue and the set of
  held trophy ids, the level ladder and level progress, and roadmap progress
  with its advice tiers.
- **Pomodoro**: the timer as a state machine (start, pause, tick, complete,
  reset, custom times), the `mm:ss` display and the colour thresholds.
- **Notes**: the timestamp check, note validation, search and deletion.
- **Ui**: YouTube `t=` parsing, the bare-video-id check, the thumbnail choice,
  pagination, and the wanted/solved checkbox handlers.
- **App**: page routing, the schedule date check, the modal's note form,
  registration, and the modal's mark-solved and mark-wanted buttons.
- **Downloads**: the downloads page filter.

Supporting modules hold generic pieces:
- **Wrappers**: `Option` and `Result`.
- **Text**: digits, number printing, `parseInt` prefixes, padding, lower
  case, substring search, trim, split/join and code-point string order.
- **Seqs**: filter, first-match removal and subsequences.
- **Percent**: `Math.round((s / total) * 100)` on the exact ratio instead of
  doubles, and exact-real ratios.

Inputs from the outside world are parameters:
- the signed-in user;
- the answers of the backend or gateway, as `Result`s or success flags;
- the user's confirmation;
- fresh ids;
- the URL-parsing branch of `parseYouTube`.

## Model

| member | source | states |
|---|---|---|
| DateKeys.DaysInMonth | js/calendar.js:122-124 | Every month has 28 to 31 days; February has 29 exactly in leap years. |
| DateKeys.RollDays | js/calendar.js:122-124 | A day number is rolled into a valid date; a day inside the month stays in that month. |
| DateKeys.MakeDate | js/calendar.js:122-124 | The date arithmetic behind `new Date(y, m, d)` and `setDate`, for a year already taken as a full year (no two-digit-year rule): the result is always a valid date, and with an in-range month and day it is exactly that date. |
| DateKeys.FullYear | js/calendar.js:110-113 | The `Date` constructor reads years 0..99 as 1900..1999 and leaves other years alone. |
| DateKeys.NewDate | js/calendar.js:110-113 | `new Date(y, m, d)` is always a valid date. With an in-range month and day it is exactly that date in year y, except that years 0..99 become 1900..1999. Other years give the same date as `MakeDate`. |
| DateKeys.MakeDateOfValid | js/calendar.js:122-124 | Rebuilding a valid date from its own fields gives it back. |
| DateKeys.FirstOfMonth | js/calendar.js:89 | `new Date(y, m, 1)` is the first of month m+1 of the year the constructor reads (1900 + y for y in 0..99). |
| DateKeys.LastOfMonth | js/calendar.js:90 | `new Date(y, m + 1, 0)` is the last day of month m+1, December included, of the year the constructor reads. |
| DateKeys.NextDay | js/calendar.js:216-219 | `setDate(getDate() + 1)`: the next day, rolling over month and year ends. |
| DateKeys.PrevDay | js/calendar.js:212-215 | `setDate(getDate() - 1)`: the previous day, rolling back over month and year starts. |
| DateKeys.PrevAfterNext | js/calendar.js:212-219 | One day forward and then one back returns the original date. |
| DateKeys.NextAfterPrev | js/calendar.js:212-219 | One day back and then one forward returns the original date. |
| DateKeys.NextDayIsSuccessor | js/calendar.js:216-219 | The next day is strictly later and no date lies strictly between. |
| DateKeys.MondayOffset | js/calendar.js:138 | `(w + 6) % 7` lies in 0..6, agrees with `w === 0 ? 6 : w - 1`, and maps Monday to 0 and Sunday to 6. |
| DateKeys.MondayOffsetInjective | js/calendar.js:138 | Two weekdays get the same offset exactly when they are equal. |
| DateKeys.FourDigitYear | js/calendar.js:104-107 | Years 1000..9999 are written with exactly four digits. |
| DateKeys.TwoDigitFields | js/calendar.js:104-107 | Month and day are zero-padded to exactly two digits. |
| DateKeys.FormatDateKey | js/calendar.js:103-108 | For a four-digit year the key has ten characters, dashes at positions 4 and 7, and the three padded fields. |
| DateKeys.ParseInt | js/calendar.js:111 | `parseInt(s, 10)` reads an all-digit text as its decimal value, and the empty text as NaN. |
| DateKeys.OrOne | js/calendar.js:112 | `x \|\| 1`: a missing or zero number becomes 1, and any other number is kept. |
| DateKeys.ParseDateKey | js/calendar.js:110-113 | The parsed date is always a valid calendar date. It is `None` (JavaScript's invalid date) exactly when the year field does not parse. The `Date` range limit is left out, see below. |
| DateKeys.KeySplit | js/calendar.js:111 | Splitting a formatted key on '-' gives the year, month and day texts. |
| DateKeys.ParseFormat | js/calendar.js:103-113 | Parsing a formatted key gives back the same date, for every year of three or more digits. |
| DateKeys.ParseFormatTwoDigitYear | js/calendar.js:103-113 | The round trip fails for year 99, whose key reads back as 1999. |
| DateKeys.TailOrder | js/calendar.js:18 | Within one year, comparing the month-day part of keys as strings compares month, then day. |
| DateKeys.KeyOrder | js/calendar.js:18 | For four-digit years, string order on keys is date order, in both directions. |
| DateKeys.MonthRange | js/calendar.js:89-93 | A date's key lies between the keys of `new Date(y, m, 1)` and `new Date(y, m + 1, 0)` exactly when the date is in that month of the year the constructor reads. |
| Calendar.Lookup | js/calendar.js:240-243 | `map.get(key)` is absent exactly when no bucket has the key; otherwise it is that bucket's entries. |
| Calendar.Add | js/calendar.js:241-244 | Pushing under a key appends to its bucket (creating it if needed), keeps the map well formed and leaves other keys alone. |
| Calendar.GroupStep | js/calendar.js:239-245 | Pushing one more item keeps each bucket equal to the items with that key, in input order. |
| Calendar.Group | js/calendar.js:237-245 | Grouping gives a well-formed map whose bucket for each key is exactly the items with that key, in input order. |
| Calendar.EntryKey | js/calendar.js:240 | A ten-character date string is used as the key unchanged. |
| Calendar.Load | js/calendar.js:222-256 | Without a user or on a failed answer the map is unchanged; on success it is rebuilt from the answer alone. |
| Calendar.LoadPlacesEach | js/calendar.js:237-245 | After a load each row sits in its own key's bucket, and no other bucket holds it. |
| Calendar.DropEntry | js/calendar.js:58-64 | Each bucket loses its first entry with the id; a bucket left empty is deleted and the map stays well formed. |
| Calendar.Unschedule | js/calendar.js:51-64 | Without a user, without an id, or on a failed delete nothing changes; otherwise it acts as DropEntry. |
| Calendar.UnscheduleKeepsOthers | js/calendar.js:58-64 | A bucket with no entry carrying the id is unchanged by unscheduling. |
| Calendar.Sessions | js/calendar.js:17-21 | The flattened (key, entry) pairs are exactly the pairs the map holds, one per filed entry: their number is the sum of the bucket sizes. |
| Calendar.SessionsOfKey | js/calendar.js:17-21 | With one bucket per key, the flattened sessions of a key are that bucket's entries in stored order, and none for an absent key. |
| Calendar.InsertByKey | js/calendar.js:22 | Inserting into a key-sorted list keeps it sorted and adds exactly that element. |
| Calendar.InsertStable | js/calendar.js:22 | Insertion goes in front of equal keys, so the sessions of each key keep their order with the new one first. |
| Calendar.SortByKey | js/calendar.js:22 | The sort result is sorted by key and is a permutation of its input. It is stable: the sessions of each key keep their input order. |
| Calendar.FromToday | js/calendar.js:17-21 | Collects exactly the sessions whose key is at or after today's key. |
| Calendar.Upcoming | js/calendar.js:15-22 | The upcoming list is sorted, is a permutation of the sessions from today on, and contains exactly those. Sessions of the same day keep their map order, which decides which of them the first ten keep. |
| Calendar.Shown | js/calendar.js:27 | The list shown is the first min(10, n) upcoming sessions. |
| Calendar.SortedIsChronological | js/calendar.js:22 | In a list sorted by key, such as the upcoming list, two sessions with four-digit-year keys are in date order. |
| Calendar.MonthCount | js/calendar.js:92-94 | The month's scheduled count is the number of sessions whose key lies in the inclusive key range. |
| Calendar.UpdateMonthStats | js/calendar.js:81-100 | Completed and success are 0. Scheduled counts the sessions between the keys of the first and last day of the month. A year 0..99 is read as 1900..1999, as `new Date` does. |
| Calendar.DayKeyInMonth | js/calendar.js:89-93 | A key that spells a date lies in the month's key range exactly when it reads back as a date of that month, in the year `new Date` reads. |
| Calendar.MonthCountIsMonth | js/calendar.js:89-94 | When every key spells a date, the scheduled count is the number of sessions dated in that month of the year `new Date` reads. |
| Calendar.OrUnknown | js/calendar.js:533-535 | `x \|\| 'Unknown'`: an empty field becomes 'Unknown', and any other is kept. |
| Calendar.ExportRowOf | js/calendar.js:530-537 | An export record carries the key as its date, and 'Unknown' fields when the machine is missing. |
| Calendar.ExportRows | js/calendar.js:528-538 | There is one export record per session, in map order. |
| Calendar.RowFields | js/calendar.js:557-562 | A row has four fields, and only the machine name is wrapped in double quotes. |
| Calendar.CsvLines | js/calendar.js:555-564 | The CSV has a header line and then one line per row, each with its fields joined by ','; `Calendar.ConvertToCSV` joins these lines with '\n' (see `Calendar.CsvLineCount`). |
| Calendar.ExportSchedule | js/calendar.js:540-546 | No file for an empty schedule; otherwise the CSV of all sessions. |
| Calendar.CsvLineCount | js/calendar.js:564 | Splitting the CSV at '\n' gives back exactly the header and row lines, so there are n + 1 lines. |
| Calendar.CsvRowFields | js/calendar.js:564 | A row line splits back into its four fields when no field holds a comma. |
| Percent.RoundPercent | js/data.js:579 | The rounded share `Math.round((s / total) * 100)`, taken on the exact ratio, lies in 0..100 and is the nearest whole number to the exact share, halves rounded up. |
| Percent.RoundPercentFull | js/data.js:579 | The rounded share is 100 exactly when s == t, for totals below 200. |
| Percent.CappedPercent | js/trophies.js:277 | `Math.min(100 * c / t, 100)` lies in [0, 100], is 100 exactly when c ≥ t, and is otherwise the exact share. |
| Percent.Share | js/roadmap.js:237 | `total > 0 ? 100 * c / total : 0` lies in [0, 100], is the exact share, is 100 exactly when all are done and 0 exactly when none are. |
| Store.FindMachine | js/data.js:209-214 | `find` by id returns a listed machine with that id, and is absent exactly when no machine has it. |
| Store.StatusNameInjective | js/data.js:288 | Two statuses store the same name exactly when they are the same status. |
| Store.ReadStatus | js/data.js:236-239 | The fallback read is the stored status, and is absent exactly when the machine has no entry. |
| Store.WriteStatus | js/data.js:286-290 | The fallback write sets this user's entry for the machine, and leaves every other entry and user unchanged. |
| Store.ReadAfterWrite | js/data.js:236-239 | A read after a write returns the written status, 'none' included. |
| Store.WriteFrame | js/data.js:286-290 | A write changes no read of another user or another machine. |
| Store.WithStatus | js/data.js:497-498 | Selects exactly the machines whose stored value is the given status. |
| Store.Stats | js/data.js:494-501 | solved and wanted are the numbers of 'resuelta' and 'deseada' entries, total is their sum, and 'none' entries count toward neither. |
| Store.CountAfterWrite | js/data.js:286-290 | A write moves one entry from its old status count to its new one. |
| Store.SolvingCountsOnce | js/data.js:494-501 | Marking an unsolved machine solved raises solved by exactly one (and lowers wanted if it was wanted). |
| Store.DifficultyCounts.Bump | js/data.js:104-107 | One bump raises one bucket by one and leaves the others alone. |
| Store.TierOf | js/data.js:103-107 | Buckets are tested in the order fácil, media, difícil, insane on the lower-cased label, so 'Muy Fácil' is Facil. |
| Store.Tally | js/data.js:82-88 | Each bucket counts its machines; the buckets plus the unbucketed machines make up the whole list. |
| Store.DistinctIdsBound | js/data.js:101-102 | Machines with distinct ids all drawn from an id set are no more than the set. |
| Store.SolvedDemoMachines | js/data.js:97-102 | The solved demo machines are the demo machines whose id is marked 'resuelta', in demo order. |
| Store.FilterKeepsDistinct | js/data.js:101-102 | Filtering keeps machine ids distinct. |
| Store.SolvedDemoBound | js/data.js:97-102 | There are no more solved demo machines than solved ids. |
| Store.SolvedByDifficultyFallback | js/data.js:94-110 | The bucket sum is at most the solved count, each bucket counts solved demo machines, and no solved ids gives zeros. |
| Store.SolvedByDifficultyBackend | js/data.js:73-89 | No solved ids gives zeros without a lookup; otherwise the buckets count the machines returned. |
| Store.MachineOccurrences | js/data.js:596-600 | One (certification, solved?) pair for each certification a machine lists. |
| Store.CertOccurrences | js/data.js:595-601 | A certification occurs among the pairs exactly when some machine lists it. |
| Store.CountCert | js/data.js:598 | The total for a certification is at least 1 exactly when it occurs. |
| Store.CountSolvedCert | js/data.js:599 | The solved count for a certification never exceeds its total. |
| Store.FirstAppearances | js/data.js:602 | One row name per distinct certification, with no repeats, in the order of their first occurrence (a name listed earlier occurs first earlier). |
| Store.CertRowOf | js/data.js:602-606 | A row's total and solved are the occurrence counts of its name, and its percentage is the rounded solved share of the total. |
| Store.CertificationProgress | js/data.js:593-606 | There is exactly one row per listed certification. Its total is the number of times the machines list it, duplicates included (`Store.Listings`), and solved is the number of those on solved machines (`Store.SolvedListings`). pct is `Percent.RoundPercent(solved, total)`, in 0..100. |
| Store.OccurrenceCounts | js/data.js:593-600 | The per-name counters equal the listings of the name on all machines and on the solved ones. |
| Store.AllSolvedComplete | js/data.js:593-606 | With every machine solved, every row has solved = total and shows 100%. |
| Store.DemoCertificationProgress | js/data.js:593-606 | With only machine 1 solved, the demo catalogue gives the single row OSCP 2/1/50. |
| Store.SameNameTwice | js/data.js:597-599 | A certification listed twice gives one name with total 2. |
| Store.PageRange | js/data.js:168-170 | Page p of size s covers rows (p-1)·s to (p-1)·s+s-1: exactly s rows, none negative from page 1 on. |
| Store.PagesContiguous | js/data.js:168-170 | Page p + 1 starts right after page p ends. |
| Store.RowOnOnePage | js/data.js:168-170 | Every row index falls on exactly one page. |
| Store.GetMachines | js/data.js:173-191 | An empty result or a missing-table error serves the demo list with its length as the count; any other error is a failure. |
| Store.ClientUnavailableFails | js/data.js:145 | The gateway's own 'client unavailable' error does not look like a missing table, so it fails. |
| Store.MissingRelationServesDemo | js/data.js:184-189 | An error mentioning 42P01 is served the demo list. |
| Store.ScheduleFallback | js/data.js:413-418 | Scheduling appends exactly one entry and keeps the earlier ones. |
| Store.Attach | js/data.js:449-450 | An entry keeps its row and gets a demo machine exactly when one has its machine id: id 1 gets Injection, id 2 gets ICA_1, and any other id gets none. |
| Store.RangeFallback | js/data.js:445-452 | The range read returns exactly the entries whose date string lies between start and end, in list order. |
| Store.RangeAfterSchedule | js/data.js:413-452 | After scheduling, the range read gains the new entry exactly when its date is in range. |
| Store.DeleteFallback | js/data.js:630-637 | The result is the list without its first entry carrying the id. Nothing changes when no entry has the id, and success is reported either way. |
| Store.DeleteAfterSchedule | js/data.js:630-637 | Deleting the entry just scheduled under a fresh id gives the earlier list back. |
| Store.DeleteRestores | js/data.js:632-634 | When an entry has the id, putting one such entry back into the result at its index gives the original list. |
| Store.DeleteRemovesFirstOnly | js/data.js:632-634 | Of two entries with the same id, only the first goes. |
| Trophies.Catalogue | js/trophies.js:25-89 | The catalogue holds seven trophies, each requiring at least one machine. |
| Trophies.CatalogueIdsDistinct | js/trophies.js:25-89 | No two catalogue trophies share an id. |
| Trophies.CatalogueAscending | js/trophies.js:25-89 | Requirements strictly increase along the catalogue. |
| Trophies.UnlockFrom | js/trophies.js:137-163 | The loop adds exactly the earned ids of the trophies it visits to the held set. |
| Trophies.Unlock | js/trophies.js:131-164 | Without stats nothing changes; with stats every earned id is added and none is removed. |
| Trophies.UnlockIdempotent | js/trophies.js:131-164 | Unlocking twice with the same stats equals unlocking once. |
| Trophies.EarnedMonotone | js/trophies.js:141-142 | More solved machines never earn fewer trophies. |
| Trophies.CheckHeld | js/trophies.js:426-441 | The check adds to the held set exactly the ids it reports. |
| Trophies.CheckFound | js/trophies.js:426-441 | With distinct ids, the check reports exactly the trophies not held before that are earned, in catalogue order. |
| Trophies.CheckForNew | js/trophies.js:422-449 | The result is the not-held, earned trophies in catalogue order, and the held set gains exactly their ids. |
| Trophies.CheckHeldEarned | js/trophies.js:426-441 | The final held set is the old one plus every earned id. |
| Trophies.CheckAgreesWithUnlock | js/trophies.js:131-164 | The check leaves the same held set as a full unlock with those stats. |
| Trophies.NothingNewOnceHeld | js/trophies.js:427 | Once every earned id is held, the check finds nothing. |
| Trophies.CheckTwiceFindsNothing | js/trophies.js:427-439 | A second check with unchanged stats finds nothing. |
| Trophies.TrophyProgress | js/trophies.js:246-281 | Held gives 100 and 'Completado'; no stats gives 0; otherwise min(100·solved/req, 100) and "solved/req". |
| Trophies.ProgressAfterUnlock | js/trophies.js:246-281 | After unlocking, a catalogue trophy shows 100 exactly when solved meets its requirement. |
| Trophies.AchievedLockedPartition | js/trophies.js:170-171 | The achieved and locked lists split the catalogue: together a permutation of it, with no trophy in both. |
| Trophies.CompletionPercent | js/trophies.js:187 | The completion figure is at most 100, and is 100 exactly when all seven are held. |
| Trophies.RarityName | js/trophies.js:283-294 | A known key maps to its label; any other key comes back unchanged (inherited object members are admitted under Left out). |
| Trophies.RarityNameEmpty | js/trophies.js:283-294 | The display name is empty only for the empty key. |
| Trophies.CatalogueRarityNames | js/trophies.js:283-294 | Every catalogue rarity has a non-empty label, and 'GOD' is unmapped and shown as 'GOD'. |
| Trophies.RequirementDescription | js/trophies.js:402-405 | The text starts 'Resolver ', carries the requirement as its number, continues with ' máquina', and ends in 's' exactly when the requirement exceeds 1. |
| Profile.LevelFor | js/profile.js:70-81 | The level is the highest one whose floor (10/25/50/100/200) the solved count reaches, else Noob. |
| Profile.LevelUnique | js/profile.js:75-80 | The level of a count is the only one whose band holds it. |
| Profile.LevelMonotone | js/profile.js:75-80 | Solving more never lowers the level. |
| Profile.NextThreshold | js/profile.js:264-272 | Noob to Guru aim at the next level's floor, 10/25/50/100/200; Omniscient has none. |
| Profile.LevelProgress | js/profile.js:260-277 | 0 without stats, 100 at the top, otherwise min(100·solved/next, 100), always within [0, 100]. |
| Profile.ProgressBelowTop | js/profile.js:266-276 | While the level matches the count, progress below the top level stays under 100. |
| Profile.Remaining | js/profile.js:297 | `max(total − solved, 0)`: zero exactly when solved ≥ total, else the difference. |
| Profile.TotalMachines | js/profile.js:293 | `totalCount \|\| data.length \|\| 0`: a failed call gives 0, and a zero count falls through to the list length. |
| Profile.RecalculateLevel | js/profile.js:70-81 | Without stats the level is kept; otherwise it is the level of the solved count. |
| Profile.LoadProfile | js/profile.js:26-68 | No user gives zero stats and counts and an empty list; a user gets new stats and level on success, and zero counts on a failed difficulty load. |
| Profile.NoUserKeepsLevel | js/profile.js:28-33 | The no-user branch zeroes the stats but keeps a level computed earlier. |
| Profile.DefaultProgress | js/profile.js:28-33 | From a Noob state the no-user defaults agree with the level, and progress is 0. |
| Roadmap.SelectCertification | js/roadmap.js:79-82 | Selects the first certification with the id, or none when no certification has it. |
| Roadmap.SelectCeh | js/roadmap.js:15-48 | Picking id 2 of the mock list selects CEH, which has no machines. |
| Roadmap.CalculateProgress | js/roadmap.js:229-240 | Zeros without a selection; otherwise completed + remaining = total, and the percentage is the completed share (0 for no machines). |
| Roadmap.TierOf | js/roadmap.js:306-330 | The advice tier is 0, below 50, below 100, or 100 and above. |
| Roadmap.NextSteps | js/roadmap.js:302-332 | Nothing without a selection; otherwise three steps numbered 1 to 3, with the texts of the tier. |
| Roadmap.TierByCounts | js/roadmap.js:302-332 | The tier in machine counts: none done, under half, half or more but not all, all. |
| Roadmap.UpdateMachineProgressAsWritten | js/roadmap.js:242-261 | The toggle leaves the data unchanged, shows the old progress, and gives the notice iff that progress is 100. |
| Roadmap.ToggleNeverMovesProgress | js/roadmap.js:242-261 | Whatever is ticked, the progress after the toggle is the progress before it. |
| Roadmap.SetCompleted | js/roadmap.js:247-248 | Sets the completed flag of exactly the machines with the id. |
| Roadmap.UpdateMachineProgress | js/roadmap.js:242-261 | The corrected toggle stores the tick on the selected certification and recomputes progress; the notice fires iff it is 100. |
| Roadmap.TickAllFinishes | js/roadmap.js:234-237 | With every machine completed, all of them count as done. |
| Roadmap.OscpTick | js/roadmap.js:242-261 | On the one-machine OSCP roadmap, ticking its machine completes it under the corrected toggle and not under the code as written. |
| Pomodoro.InitialState | js/pomodoro.js:3-14 | Starts stopped on focus with 1500 s left, count 0, and durations 1500/300/900. |
| Pomodoro.Start | js/pomodoro.js:42-57 | Does nothing when already running; otherwise sets the running flag. |
| Pomodoro.Pause | js/pomodoro.js:59-66 | Does nothing when stopped; otherwise clears the running flag. |
| Pomodoro.Reset | js/pomodoro.js:68-75 | Stops and refills the current session; session and count stay. |
| Pomodoro.Complete | js/pomodoro.js:77-107 | After focus the count rises and the long break comes iff count % 4 == 0; after a break comes focus; the timer stops, full. |
| Pomodoro.Tick | js/pomodoro.js:46-52 | Only a running timer ticks: one second off, and the session completes once the time reaches 0 or less. |
| Pomodoro.SetCustomTimes | js/pomodoro.js:192-201 | Stores minutes × 60 and refills the time only when stopped. |
| Pomodoro.OperationsKeepInvariant | js/pomodoro.js:77-107 | Every operation keeps the session in step with the count: a long break only after a multiple of four. |
| Pomodoro.TicksToCompletion | js/pomodoro.js:46-52 | A running session with n seconds left completes on exactly the n-th tick. |
| Pomodoro.FourthBreakIsLong | js/pomodoro.js:91-97 | From the start, the first three breaks are short and the fourth is long. |
| Pomodoro.JsRem | js/pomodoro.js:113 | JavaScript `%` truncates: the remainder takes the sign of the dividend. |
| Pomodoro.DisplayRoundTrip | js/pomodoro.js:112-114 | Below 100 minutes the display `Pomodoro.Display` is `mm:ss`, and reading both fields back gives the seconds left. |
| Pomodoro.ColourOf | js/pomodoro.js:117-123 | Danger below 60 s, warning below 300 s, primary from 300 s on. |
| Pomodoro.ColourEscalates | js/pomodoro.js:117-123 | As time runs down the colour only moves toward danger. |
| Notes.ValidateTimestamp | js/notes.js:241-245 | Returns the input exactly when it matches `[0-5]?[0-9]:[0-5][0-9]`, otherwise null. |
| Notes.StoredTimestamp | js/notes.js:145 | The trimmed input when it validates, else '00:00'; always a valid timestamp. |
| Notes.ClockMatches | js/notes.js:243 | Every m:ss or mm:ss reading with minutes and seconds below 60 passes the check. |
| Notes.MatchIsClock | js/notes.js:243 | Everything the check accepts is such a reading of its own minutes and seconds. |
| Notes.AddNote | js/notes.js:126-158 | Stops on missing inputs, then no user, then an empty trimmed name, then an empty content; otherwise submits the trimmed fields. |
| Notes.SubmittedNoteIsClean | js/notes.js:142-158 | With the form, machine and user present and a name and content that are not all white space, the note is submitted, with a valid timestamp and no surrounding white space. |
| Notes.SearchNotes | js/notes.js:265-273 | An empty query returns every note; otherwise the notes whose lower-cased name or content contains the query, in order, each matching note as many times as the list holds it. |
| Notes.LongerQueryNarrows | js/notes.js:268-272 | Every note found for a query was found for each of its prefixes. |
| Notes.DeleteNote | js/notes.js:186-196 | Unless confirmed and successful nothing changes; otherwise exactly the notes with other ids remain, in order and with their number of copies. |
| Notes.DeleteAbsentId | js/notes.js:196 | Deleting an id no note has changes nothing. |
| Notes.DeleteIdempotent | js/notes.js:196 | Deleting twice equals deleting once. |
| Ui.ParseYouTubeTime | js/ui.js:373-389 | Empty gives 0; all digits give their value; otherwise the leading h, m and s groups are read in turn. |
| Ui.UnitGroupOf | js/ui.js:379-384 | A group reads back the number written before its unit letter. |
| Ui.HmsRoundTrip | js/ui.js:373-389 | `<h>h<m>m<s>s` parses to h·3600 + m·60 + s. |
| Ui.MinutesSecondsRoundTrip | js/ui.js:373-389 | `<m>m<s>s` parses to m·60 + s (so '1m10s' is 70). |
| Ui.SecondsRoundTrip | js/ui.js:373-389 | `<s>s` parses to s. |
| Ui.NoLeadingDigitIsZero | js/ui.js:379-387 | A value that does not start with a digit gives 0. |
| Ui.ParseYouTube | js/ui.js:345-348 | Empty gives null; a bare id gives itself with start 0; anything else goes to the URL branch. |
| Ui.UrlIsNotRawId | js/ui.js:348 | A value containing ':' or '/' (every URL) is never a bare id. |
| Ui.GetMachineImage | js/ui.js:48-57 | Prefers the machine's own image, then the thumbnail of its video id, then the placeholder; never empty. |
| Ui.DemoImages | js/ui.js:48-57 | Demo machine Injection shows its video thumbnail, and ICA_1 shows the placeholder. |
| Ui.TotalPages | js/ui.js:554 | `ceil(n / 12)` is the least page count that holds n rows. |
| Ui.UpdatePagination | js/ui.js:553-570 | Prev is disabled iff page ≤ 1, and next is disabled iff page ≥ the page count. |
| Ui.NextEnabledIffMoreRows | js/ui.js:567-569 | Next is enabled exactly when rows remain past the current page. |
| Ui.Apply | js/ui.js:485-537 | Arrows add their direction to the page; a filter change, clear or search resets it to 1 and updates the filters. |
| Ui.EnabledArrowsStayInRange | js/ui.js:553-575 | Clicking only enabled arrows keeps the page within 1 and the page count. |
| Ui.ForwardBack | js/ui.js:572-575 | Forward then back returns to the same browse state. |
| Ui.InitBoxes | js/ui.js:10-24 | Wanted is ticked iff the status is 'deseada'; solved is ticked and disabled iff it is 'resuelta'; no status leaves the boxes as drawn. |
| Ui.WantedChange | js/ui.js:190-206 | Writes 'deseada' or 'none' as ticked, whatever the current status, and reverts the box on failure. |
| Ui.SolvedChange | js/ui.js:208-257 | Only 'resuelta' is ever written, and only when ticked, confirmed and successful; an untick re-ticks the box. |
| Ui.SolvedHandlerKeepsSolved | js/ui.js:208-257 | The solved handler never takes a machine away from 'resuelta'. |
| Ui.WantedOverridesSolved | js/ui.js:197-199 | Unticking wanted on a solved machine overwrites 'resuelta' with 'none'. |
| Ui.ClickAgreesWithReload | js/ui.js:10-24 | After a successful click the boxes match what a reload would draw from the store. |
| App.CurrentPageOfPath | js/main.js:38 | The page `App.CurrentPage` (`split('/').pop()`) is the last path segment, whatever the directories. |
| App.RouteFor | js/main.js:46-89 | Unauthenticated: login shows the form, and non-public pages go to login. Authenticated on login: go to index. |
| App.RoutingGuards | js/main.js:46-58 | Without a session only the login form and the three public pages are reached, and the public pages route as when signed in. |
| App.ScheduleFromModal | js/main.js:224-241 | A date is scheduled iff a user and machine exist and the answer matches `\d{4}-\d{2}-\d{2}`; a non-empty mismatch is rejected. |
| App.FormattedKeysPass | js/main.js:230 | Every key the calendar formats for a four-digit year passes the date check. |
| App.ShapeOnly | js/main.js:230 | The check is on shape only: 2024-13-45 passes. |
| App.AddNewNote | js/main.js:245-264 | Silent without form, machine or user; rejects a blank name or content; otherwise sends the trimmed fields, with a blank timestamp defaulting to '00:00'. |
| App.NoteFormsAgree | js/main.js:255-264 | The modal form and the notes panel send the same note when the timestamp is blank or valid. |
| App.NoteFormsDiffer | js/main.js:258 | A non-blank invalid timestamp is sent as typed by the modal but as '00:00' by the notes panel. |
| App.NinetyNineExample | js/main.js:258 | '99:99' is such a timestamp. |
| App.HandleRegister | js/main.js:391-400 | `register` is called exactly when the two passwords are equal. |
| App.MarkSolvedFromModal | js/main.js:182-196 | Nothing is written without user, machine, confirmation and success; otherwise 'resuelta' is stored and the card box ticked. |
| App.MarkWantedAsWritten | js/main.js:161-180 | Writes 'deseada', then clicks the card's label, which runs the wanted handler with the box toggled. |
| App.MarkWantedTwiceClears | js/main.js:167-174 | On an already-wanted machine, the button as written leaves the status 'none' and the box ticked. |
| App.MarkWantedFromModal | js/main.js:161-180 | The corrected button writes 'deseada', ticks the box, and changes nothing else. |
| App.MarkWantedAgreesWithReload | js/main.js:161-180 | After the corrected button, the box agrees with what a reload would draw. |
| Downloads.FilterMachines | js/downloads.js:30-42 | Keeps exactly the machines whose name contains the search text case-insensitively and whose platform and OS equal the drop-downs when these are set, in list order, each kept machine as many times as the list holds it. |
| Downloads.NoFilterKeepsAll | js/downloads.js:35-39 | With every field empty the whole list is shown. |
| Downloads.NameIgnoresCase | js/downloads.js:36 | Searching 'ICA' finds ICA_1. |
| Downloads.PlatformIsExact | js/downloads.js:37 | The platform 'dockerlabs' in the wrong case matches nothing. |
| Downloads.SearchCaseIrrelevant | js/downloads.js:36 | The search text finds the same machines whatever its case. |
| Downloads.PlatformMatchIsEquality | js/downloads.js:37 | A chosen platform keeps exactly the machines whose platform equals it. |
| Downloads.NarrowingFilters | js/downloads.js:35-39 | Typing more or choosing a drop-down only narrows the result. |

## Left out

- Rendering, templates, charts, notifications, modals and `setTimeout` are left out. They are DOM effects with no rule to state.
- The hosted backend's query semantics (`.ilike`, `.contains`, `.range`, `.in`) are left out. Backend answers are parameters of type `Result`, and the waiting loop for the client is not modelled.
- Storage I/O and JSON parsing are left out. Storage is in-memory maps and sequences, and fresh ids from time and randomness are parameters.
- The notes gateway (`addNote`, `deleteNote`, `getMachineNotes` in js/data.js:297-392) is left out. Only what the notes page does with its answer is modelled.
- Store.CertificationProgress: the backend path is treated as the same aggregation over the machines it returns. The query itself is not modelled.
- Percent.RoundPercent: the source rounds the double `(s / total) * 100`; the model rounds the exact ratio, `(200s + t) div 2t`. The two differ when the double product falls just below a half: for 23 of 40 the double is 57.49999999999999, so the program shows 57 where the model gives 58 (likewise 29 of 200 and 57 of 200).
- Profile.LevelProgress, Trophies.TrophyProgress and Roadmap.CalculateProgress give exact reals rather than IEEE doubles.
- Pomodoro: the interval timer is a `Tick` event. `getProgress`, the sound and the session label are left out.
- DateKeys: time zones and daylight saving are left out. Dates are (year, month, day) triples.
- The UTC `toISOString` key used by the month view and the prompt default is left out, and so is `setMonth`'s day overflow in month navigation.
- DateKeys.ParseDateKey: the `Date` range limit is not modelled. A JavaScript date more than 8.64e15 ms from the epoch, such as the key "300000-01-01", is an invalid date, but the model still returns a date. Dates are unbounded here because the limit depends on the time zone, which is also left out. MakeDate and NewDate are unbounded for the same reason.
- Calendar.SortByKey: it compares keys by code point, but the source uses `localeCompare`, whose collation may order arbitrary text differently. The two orders agree on keys made of digits and hyphens in the same layout, which is what `formatDateKey` produces.
- DateKeys.FormatDateKey: the ten-character layout is stated for years 1000..9999 only. Other years give keys of other widths.
- Calendar.EntryKey: a date string not ten characters long is re-keyed through a parameter. That parameter stands for `formatDateKey(new Date(...))` on the JavaScript date parser, which is not modelled.
- Text.Lower: lower-casing is modelled for ASCII and Latin-1 letters only.
- Ui.ParseYouTube: the URL branch is a parameter, because it relies on the URL library. `getOriginalVideoUrl` is left out for the same reason.
- Trophies.RarityName: inherited property names of the label object, such as `toString`, `constructor` or `__proto__`, are not modelled. In the source those keys yield the inherited member rather than the key. No catalogue rarity is such a name.
- Trophies: only the machine-count type is modelled, because the catalogue holds no trophy of any other type. Filter buttons and details views are rendering.
- Notes: ids are compared as strings. `exportNotes`, `escapeHtml` and `formatDate` are left out as browser-dependent.
- Store.GetMachines: only an empty result or an error that looks like a missing table gets the demo list (js/data.js:175-191). Any other error, such as an unavailable client, is a failure.
- Profile.LoadProfile: an exception thrown midway through loading is not modelled. Each gateway answer is a `Result`.
- Async ordering between the pages' concurrent loads is left out. Each operation is one atomic step.

## Findings

| source | as written | input that shows it | evidently intended | confidence | as-written member | corrected member |
|---|---|---|---|---|---|---|
| js/roadmap.js:242-261 | The checkbox only restyles its row. Progress is recomputed from machine data the toggle never changed, so the figures do not move and the completion notice never follows a tick. | The OSCP roadmap has one machine, not completed. Ticking it keeps the progress at 0 and shows no notice. | The tick is stored on the selected certification's machine, and progress and the notice follow it. | not executed | Roadmap.UpdateMachineProgressAsWritten (shown by Roadmap.OscpTick) | Roadmap.UpdateMachineProgress |
| js/main.js:167-174 | After writing 'deseada', the modal clicks the card's label. That toggles the box and runs the wanted handler with the toggled state. | On a machine that is already wanted (box ticked), the click unticks the box and the handler writes 'none'. | The machine ends wanted and its box ticked. | not executed | App.MarkWantedAsWritten (shown by App.MarkWantedTwiceClears) | App.MarkWantedFromModal |

=== FILE: app.dfy ===
/** The page bootstrap and the machine modal's buttons: which page
    initialises (or where the browser is sent) for a path and a session,
    the date check before scheduling, the note form of the modal, the
    registration password check, and the mark-wanted and mark-solved
    buttons. */
module App {
  import opened Wrappers
  import opened Text
  import opened DateKeys
  import opened Store
  import opened Notes
  import opened Ui

  // ---------------------------------------------------------------------------
  // Routing
  // ---------------------------------------------------------------------------

  /** The last path segment, `pathname.split('/').pop()`. */
  function CurrentPage(pathname: string): string {
    var parts := Split(pathname, '/');
    parts[|parts| - 1]
  }

  /** Whatever comes before the last `/` does not change the last segment. */
  lemma {:induction false} SplitLast(a: string, t: string, sep: char)
    ensures var p := Split(a + [sep] + t, sep);
            |p| >= 2 && p[|p| - 1] == Split(t, sep)[|Split(t, sep)| - 1]
    decreases |a|
  {
    var s := a + [sep] + t;
    if |a| == 0 {
      assert s[1..] == t;
    } else {
      assert s[1..] == a[1..] + [sep] + t;
      SplitLast(a[1..], t, sep);
    }
  }

  /** The page is the file name at the end of the path, whatever the directories. */
  lemma CurrentPageOfPath(dir: string, file: string)
    requires '/' !in file
    ensures CurrentPage(dir + "/" + file) == file
  {
    SplitLast(dir, file, '/');
    SplitNoSep(file, '/');
  }

  datatype Page = Dashboard | ProfilePage | RoadmapPage | TrophiesPage | CalendarPage

  /** What `initializeApp` does for a page: show the login form, send the
      browser to the login or index page, initialise one page, or (for a
      page it does not know) only the global components. */
  datatype Route = ShowLogin | GoToLogin | GoToIndex | Show(page: Page) | GlobalOnly

  predicate IsPublicPage(page: string) {
    page == "trophies.html" || page == "roadmap.html" || page == "calendar.html"
  }

  /** `initializeApp`'s decision for the current page and session. */
  function RouteFor(page: string, authenticated: bool): (r: Route)
    ensures !authenticated && page == "login.html" ==> r == ShowLogin
    ensures !authenticated && page != "login.html" && !IsPublicPage(page) ==> r == GoToLogin
    ensures authenticated && page == "login.html" ==> r == GoToIndex
  {
    if !authenticated && page == "login.html" then ShowLogin
    else if !authenticated && !IsPublicPage(page) then GoToLogin
    else if page == "index.html" || page == "" then Show(Dashboard)
    else if page == "profile.html" then Show(ProfilePage)
    else if page == "roadmap.html" then Show(RoadmapPage)
    else if page == "trophies.html" then Show(TrophiesPage)
    else if page == "calendar.html" then Show(CalendarPage)
    else if page == "login.html" then (if authenticated then GoToIndex else ShowLogin)
    else GlobalOnly
  }

  /** The pages a visitor without a session may see. */
  predicate PublicRoute(r: Route) {
    r == ShowLogin || r == GoToLogin || r == Show(TrophiesPage) || r == Show(RoadmapPage) || r == Show(CalendarPage)
  }

  /** Without a session nothing but the login form and the three public pages
      is initialised; with one, each known page opens its own view. */
  lemma RoutingGuards(page: string)
    ensures PublicRoute(RouteFor(page, false))
    ensures IsPublicPage(page) ==> RouteFor(page, false) == RouteFor(page, true)
    ensures RouteFor("profile.html", false) == GoToLogin && RouteFor("profile.html", true) == Show(ProfilePage)
    ensures RouteFor("", true) == Show(Dashboard) && RouteFor("index.html", true) == Show(Dashboard)
  {
  }

  // ---------------------------------------------------------------------------
  // Scheduling from the modal
  // ---------------------------------------------------------------------------

  /** `/^\d{4}-\d{2}-\d{2}$/`: the shape of a date key, with no range check. */
  predicate IsDateShape(s: string) {
    |s| == 10 && s[4] == '-' && s[7] == '-'
    && AllDigits(s[..4]) && AllDigits(s[5..7]) && AllDigits(s[8..])
  }

  datatype ScheduleOutcome = NoSchedule | InvalidDate | Schedule(date: string)

  /** The schedule button after the prompt: nothing without a user, a
      machine, or an answer (`null` or empty), a rejection for a badly
      shaped date, otherwise the date goes to `scheduleMachine`. */
  function ScheduleFromModal(hasUser: bool, hasMachine: bool, answer: Option<string>): (o: ScheduleOutcome)
    ensures o.Schedule? <==> hasUser && hasMachine && answer.Some? && IsDateShape(answer.value)
    ensures o.Schedule? ==> o.date == answer.value
    ensures o == InvalidDate <==> hasUser && hasMachine && answer.Some? && answer.value != ""
                                  && !IsDateShape(answer.value)
  {
    if !hasUser || !hasMachine then NoSchedule
    else match answer
      case None => NoSchedule
      case Some(date) =>
        if date == "" then NoSchedule
        else if IsDateShape(date) then Schedule(date)
        else InvalidDate
  }

  /** Every key the calendar formats for a four-digit year passes the check. */
  lemma FormattedKeysPass(d: Date)
    requires Valid(d) && 1000 <= d.year <= 9999
    ensures IsDateShape(FormatDateKey(d))
  {
  }

  /** The check is on shape only: month 13 and day 45 pass. */
  lemma ShapeOnly()
    ensures IsDateShape("2024-13-45")
  {
  }

  // ---------------------------------------------------------------------------
  // The modal's note form
  // ---------------------------------------------------------------------------

  datatype NoteFormOutcome = Ignored | Rejected | SubmitNote(data: NoteData)

  /** `addNewNote`: silently nothing without the form, a machine or a user;
      a rejection when the trimmed name or content is empty; otherwise the
      trimmed fields, with `00:00` for an empty timestamp and no other check
      on it. */
  function AddNewNote(formPresent: bool, machineSelected: bool, userPresent: bool,
                      name: string, content: string, timestamp: string): (o: NoteFormOutcome)
    ensures o == Ignored <==> !formPresent || !machineSelected || !userPresent
    ensures o == Rejected <==> formPresent && machineSelected && userPresent && (AllSpace(name) || AllSpace(content))
    ensures o.SubmitNote? ==> o.data.name == Trim(name) && o.data.content == Trim(content)
                              && o.data.name != "" && o.data.content != ""
                              && o.data.timestamp == (if AllSpace(timestamp) then "00:00" else Trim(timestamp))
  {
    TrimEmpty(name);
    TrimEmpty(content);
    TrimEmpty(timestamp);
    if !formPresent || !machineSelected || !userPresent then Ignored
    else
      var ts := Trim(timestamp);
      var data := NoteData(Trim(name), Trim(content), if ts == "" then "00:00" else ts);
      if data.name == "" || data.content == "" then Rejected
      else SubmitNote(data)
  }

  /** The modal's form and the notes panel send the same note whenever the
      timestamp is empty or valid. */
  lemma NoteFormsAgree(name: string, content: string, timestamp: string)
    ensures var a := AddNewNote(true, true, true, name, content, timestamp);
            var b := AddNote(true, true, true, name, content, timestamp);
            (a.SubmitNote? <==> b.Submit?)
            && (a.SubmitNote? && (AllSpace(timestamp) || MatchesTimestamp(Trim(timestamp))) ==> a.data == b.data)
  {
    TrimEmpty(timestamp);
  }

  /** A non-blank timestamp the notes panel rejects is sent as typed by the
      modal's form but as `00:00` by the panel. */
  lemma NoteFormsDiffer(name: string, content: string, timestamp: string)
    requires !AllSpace(name) && !AllSpace(content)
    requires !AllSpace(timestamp) && !MatchesTimestamp(Trim(timestamp))
    ensures AddNewNote(true, true, true, name, content, timestamp)
            == SubmitNote(NoteData(Trim(name), Trim(content), Trim(timestamp)))
    ensures AddNote(true, true, true, name, content, timestamp)
            == Submit(NoteData(Trim(name), Trim(content), "00:00"))
  {
  }

  /** `99:99` is such a timestamp. */
  lemma NinetyNineExample()
    ensures Trim("99:99") == "99:99" && !AllSpace("99:99") && !MatchesTimestamp(Trim("99:99"))
  {
    Unpadded("99:99");
    NinetyNineInvalid();
  }

  lemma NinetyNineInvalid()
    ensures !MatchesTimestamp("99:99")
  {
    var t := "99:99";
    assert t[0] == '9';
  }

  /** A text with no white space at its ends trims to itself and is not blank. */
  lemma Unpadded(s: string)
    requires |s| > 0 && !IsSpace(s[0]) && !IsSpace(s[|s| - 1])
    ensures Trim(s) == s && !AllSpace(s)
  {
    TrimUnpadded(s);
  }

  // ---------------------------------------------------------------------------
  // Registration
  // ---------------------------------------------------------------------------

  datatype RegisterOutcome = PasswordMismatch | CallRegister(email: string, password: string)

  /** `handleRegister`: mismatched passwords stop before `register` is called. */
  function HandleRegister(email: string, password: string, confirmPassword: string): (o: RegisterOutcome)
    ensures o.CallRegister? <==> password == confirmPassword
    ensures o.CallRegister? ==> o == CallRegister(email, password)
  {
    if password != confirmPassword then PasswordMismatch else CallRegister(email, password)
  }

  // ---------------------------------------------------------------------------
  // The modal's status buttons
  // ---------------------------------------------------------------------------

  /** The store and the card's checkbox (absent when the card is not on the page). */
  datatype ModalResult = ModalResult(store: StatusStore, box: Option<bool>)

  /** The mark-solved button: nothing without a user or machine or without
      confirmation; otherwise `resuelta` is written and, on success, the
      card's solved box is ticked (and locked). */
  function MarkSolvedFromModal(st: StatusStore, user: Option<string>, machineId: Option<int>,
                               confirmed: bool, writeOk: bool, box: Option<bool>): (r: ModalResult)
    ensures user.None? || machineId.None? || !confirmed || !writeOk ==> r == ModalResult(st, box)
    ensures user.Some? && machineId.Some? && confirmed && writeOk ==>
              r.store == WriteStatus(st, user.value, machineId.value, Solved)
              && (box.Some? ==> r.box == Some(true)) && (box.None? ==> r.box.None?)
  {
    if user.None? || machineId.None? || !confirmed || !writeOk then ModalResult(st, box)
    else ModalResult(WriteStatus(st, user.value, machineId.value, Solved), if box.Some? then Some(true) else None)
  }

  /** The mark-wanted button as written: it writes `deseada`, then clicks the
      label of the card's wanted box, which toggles the box and runs the
      wanted handler with the toggled state; it then ticks the box if it
      ended unticked. A handler whose own write fails flips the box back. */
  function MarkWantedAsWritten(st: StatusStore, user: Option<string>, machineId: Option<int>,
                               writeOk: bool, box: Option<bool>, handlerWriteOk: bool): (r: ModalResult)
    ensures user.None? || machineId.None? || !writeOk ==> r == ModalResult(st, box)
    ensures user.Some? && machineId.Some? && writeOk && box.None? ==>
              r == ModalResult(WriteStatus(st, user.value, machineId.value, Wanted), None)
    ensures user.Some? && machineId.Some? && writeOk && box.Some? ==>
              var written := WriteStatus(st, user.value, machineId.value, Wanted);
              r.store == WantedChange(written, user, machineId.value, !box.value, handlerWriteOk).store
              && r.box == Some(handlerWriteOk || box.value)
  {
    if user.None? || machineId.None? || !writeOk then ModalResult(st, box)
    else
      var written := WriteStatus(st, user.value, machineId.value, Wanted);
      match box
      case None => ModalResult(written, None)
      case Some(ticked) =>
        var click := WantedChange(written, user, machineId.value, !ticked, handlerWriteOk);
        ModalResult(click.store, Some(if handlerWriteOk then true else click.checked))
  }

  /** On a machine already wanted (its card box ticked), the button ends with
      `none` stored while the box shows ticked. */
  lemma MarkWantedTwiceClears(st: StatusStore, u: string, id: int)
    ensures var r := MarkWantedAsWritten(st, Some(u), Some(id), true, Some(true), true);
            ReadStatus(r.store, u, id) == Some(NoStatus) && r.box == Some(true)
  {
    var written := WriteStatus(st, u, id, Wanted);
    ReadAfterWrite(written, u, id, NoStatus);
  }

  /** The mark-wanted button as evidently intended: write `deseada` and tick
      the card's box without running the box's own handler. */
  function MarkWantedFromModal(st: StatusStore, user: Option<string>, machineId: Option<int>,
                               writeOk: bool, box: Option<bool>): (r: ModalResult)
    ensures user.None? || machineId.None? || !writeOk ==> r == ModalResult(st, box)
    ensures user.Some? && machineId.Some? && writeOk ==>
              ReadStatus(r.store, user.value, machineId.value) == Some(Wanted)
              && (forall u, k :: u != user.value || k != machineId.value ==> ReadStatus(r.store, u, k) == ReadStatus(st, u, k))
              && (box.Some? ==> r.box == Some(true)) && (box.None? ==> r.box.None?)
  {
    if user.None? || machineId.None? || !writeOk then ModalResult(st, box)
    else
      var written := WriteStatus(st, user.value, machineId.value, Wanted);
      ReadAfterWrite(st, user.value, machineId.value, Wanted);
      forall u, k | u != user.value || k != machineId.value
        ensures ReadStatus(written, u, k) == ReadStatus(st, u, k)
      {
        WriteFrame(st, user.value, machineId.value, Wanted, u, k);
      }
      ModalResult(written, if box.Some? then Some(true) else None)
  }

  /** After a successful click the intended button's box agrees with what a
      reload draws from the store, whatever the box showed before. */
  lemma MarkWantedAgreesWithReload(st: StatusStore, u: string, id: int, box: bool, drawn: Boxes)
    ensures var r := MarkWantedFromModal(st, Some(u), Some(id), true, Some(box));
            r.box == Some(InitBoxes(drawn, ReadStatus(r.store, u, id)).wantedChecked)
  {
  }
}

=== FILE: calendar.dfy ===
/** The calendar view's schedule index: a map from `YYYY-MM-DD` key to the
    entries scheduled that day, kept in the insertion order of a JavaScript
    `Map`. It is rebuilt from the gateway's answer on load, shrunk on
    unscheduling, and read by the upcoming-sessions list, the month counters
    and the CSV export. */
module Calendar {
  import opened Wrappers
  import opened Text
  import opened Seqs
  import opened DateKeys
  import opened Store

  /** One map entry: a date key and the entries scheduled under it. */
  datatype Bucket = Bucket(key: string, items: seq<Entry>)

  type Index = seq<Bucket>

  predicate KeysDistinct(ix: Index) {
    forall i, j :: 0 <= i < j < |ix| ==> ix[i].key != ix[j].key
  }

  /** What the view maintains: one bucket per key, and no empty bucket. */
  predicate WellFormed(ix: Index) {
    KeysDistinct(ix) && forall i :: 0 <= i < |ix| ==> |ix[i].items| > 0
  }

  /** `map.get(key)`. */
  function Lookup(ix: Index, key: string): (r: Option<seq<Entry>>)
    ensures r.None? <==> forall i :: 0 <= i < |ix| ==> ix[i].key != key
    ensures r.Some? ==> exists i :: 0 <= i < |ix| && ix[i].key == key && ix[i].items == r.value
  {
    if |ix| == 0 then None
    else if ix[0].key == key then Some(ix[0].items)
    else
      var r := Lookup(ix[1..], key);
      assert r.Some? ==> exists i :: 0 <= i < |ix[1..]| && ix[1..][i].key == key && ix[1..][i].items == r.value;
      assert forall i :: 1 <= i < |ix| ==> ix[i] == ix[1..][i - 1];
      r
  }

  // ---------------------------------------------------------------------------
  // Rebuild on load
  // ---------------------------------------------------------------------------

  /** Looking up in a bucket followed by more buckets. */
  lemma ConsLookup(b: Bucket, rest: Index, k: string)
    ensures Lookup([b] + rest, k) == if b.key == k then Some(b.items) else Lookup(rest, k)
  {
    assert ([b] + rest)[1..] == rest;
  }

  /** A well-formed index stays well-formed without its first bucket, whose key it no longer holds. */
  lemma TailWellFormed(ix: Index)
    requires WellFormed(ix) && |ix| > 0
    ensures WellFormed(ix[1..]) && Lookup(ix[1..], ix[0].key).None?
    ensures ix == [ix[0]] + ix[1..]
  {
    forall j | 0 <= j < |ix[1..]| ensures ix[1..][j].key != ix[0].key {
      assert ix[1..][j] == ix[j + 1];
    }
  }

  /** A non-empty bucket with a new key in front of a well-formed index. */
  lemma ConsWellFormed(b: Bucket, rest: Index)
    requires WellFormed(rest) && |b.items| > 0 && Lookup(rest, b.key).None?
    ensures WellFormed([b] + rest)
  {
    var r := [b] + rest;
    forall i | 1 <= i < |r| ensures r[i] == rest[i - 1] && r[i].key != b.key {
    }
  }

  /** `if (!map.has(key)) map.set(key, []); map.get(key).push(e)`. */
  function Add(ix: Index, key: string, e: Entry): (r: Index)
    requires WellFormed(ix)
    ensures WellFormed(r)
    ensures Lookup(r, key) == Some(Lookup(ix, key).GetOr([]) + [e])
    ensures forall k :: k != key ==> Lookup(r, k) == Lookup(ix, k)
  {
    if |ix| == 0 then
      assert Lookup(ix, key).GetOr([]) + [e] == [e];
      [Bucket(key, [e])]
    else
      TailWellFormed(ix);
      if ix[0].key == key then
        var b := Bucket(key, ix[0].items + [e]);
        ConsWellFormed(b, ix[1..]);
        forall k ensures Lookup([b] + ix[1..], k) == (if k == key then Some(b.items) else Lookup(ix, k)) {
          ConsLookup(b, ix[1..], k);
          ConsLookup(ix[0], ix[1..], k);
        }
        [b] + ix[1..]
      else
        var rest := Add(ix[1..], key, e);
        ConsWellFormed(ix[0], rest);
        forall k ensures Lookup([ix[0]] + rest, k) == (if k == ix[0].key then Some(ix[0].items) else Lookup(rest, k))
                         && Lookup(ix, k) == (if k == ix[0].key then Some(ix[0].items) else Lookup(ix[1..], k)) {
          ConsLookup(ix[0], rest, k);
          ConsLookup(ix[0], ix[1..], k);
        }
        [ix[0]] + rest
  }

  /** The entries of `items` that key to `k`, in input order. */
  function Members(items: seq<Entry>, keyOf: Entry -> string, k: string): seq<Entry> {
    Filter(items, (e: Entry) => keyOf(e) == k)
  }

  /** What `map.get(k)` returns once every item has been pushed under its key. */
  function Grouped(items: seq<Entry>, keyOf: Entry -> string, k: string): Option<seq<Entry>> {
    var m := Members(items, keyOf, k);
    if m == [] then None else Some(m)
  }

  lemma GroupStep(prev: Index, init: seq<Entry>, last: Entry, keyOf: Entry -> string, k: string)
    requires WellFormed(prev)
    requires Lookup(prev, k) == Grouped(init, keyOf, k)
    ensures Lookup(Add(prev, keyOf(last), last), k) == Grouped(init + [last], keyOf, k)
  {
    var p := (e: Entry) => keyOf(e) == k;
    FilterAppend(init, [last], p);
    var a := Add(prev, keyOf(last), last);
    if keyOf(last) == k {
      assert Filter([last], p) == [last];
      assert Members(init + [last], keyOf, k) == Members(init, keyOf, k) + [last];
      assert Lookup(prev, k).GetOr([]) == Members(init, keyOf, k);
      assert Lookup(a, k) == Some(Members(init, keyOf, k) + [last]);
    } else {
      assert Filter([last], p) == [];
      assert Members(init + [last], keyOf, k) == Members(init, keyOf, k);
      assert Lookup(a, k) == Lookup(prev, k);
    }
  }

  lemma GroupSnoc(prev: Index, items: seq<Entry>, keyOf: Entry -> string)
    requires WellFormed(prev) && |items| > 0
    requires forall k :: Lookup(prev, k) == Grouped(items[..|items| - 1], keyOf, k)
    ensures forall k :: Lookup(Add(prev, keyOf(items[|items| - 1]), items[|items| - 1]), k) == Grouped(items, keyOf, k)
  {
    var init, last := items[..|items| - 1], items[|items| - 1];
    assert init + [last] == items;
    forall k ensures Lookup(Add(prev, keyOf(last), last), k) == Grouped(items, keyOf, k) {
      GroupStep(prev, init, last, keyOf, k);
    }
  }

  /** `forEach(item => push under its key)`: group the gateway's rows by day.
      Each bucket holds exactly the rows with its key, in input order. */
  function Group(items: seq<Entry>, keyOf: Entry -> string): (r: Index)
    ensures WellFormed(r)
    ensures forall k :: Lookup(r, k) == Grouped(items, keyOf, k)
  {
    if |items| == 0 then []
    else
      var prev := Group(items[..|items| - 1], keyOf);
      GroupSnoc(prev, items, keyOf);
      Add(prev, keyOf(items[|items| - 1]), items[|items| - 1])
  }

  /** The key an entry is filed under: its date when it is a ten-character
      string, otherwise the key of whatever the `Date` parser makes of it
      (`reparse`, which is not part of this model). */
  function EntryKey(reparse: string -> string, e: Entry): (k: string)
    ensures |e.row.date| == 10 ==> k == e.row.date
  {
    if |e.row.date| == 10 then e.row.date else reparse(e.row.date)
  }

  /** `loadScheduledMachines` after the gateway call: a success rebuilds the
      index from scratch, anything else (or no user) leaves it as it was. */
  function Load(ix: Index, hasUser: bool, answer: Result<seq<Entry>>, reparse: string -> string): (r: Index)
    requires WellFormed(ix)
    ensures WellFormed(r)
    ensures !hasUser || answer.Err? ==> r == ix
    ensures hasUser && answer.Ok? ==>
              forall k :: Lookup(r, k) == Grouped(answer.value, (e: Entry) => EntryKey(reparse, e), k)
  {
    if hasUser && answer.Ok? then Group(answer.value, (e: Entry) => EntryKey(reparse, e)) else ix
  }

  /** After a load every row sits in exactly the bucket of its key. */
  lemma LoadPlacesEach(ix: Index, answer: seq<Entry>, reparse: string -> string, e: Entry)
    requires WellFormed(ix) && e in answer
    ensures var r := Load(ix, true, Ok(answer), reparse);
            Lookup(r, EntryKey(reparse, e)).Some? && e in Lookup(r, EntryKey(reparse, e)).value
    ensures var r := Load(ix, true, Ok(answer), reparse);
            forall k :: k != EntryKey(reparse, e) && Lookup(r, k).Some? ==> e !in Lookup(r, k).value
  {
    var keyOf := (x: Entry) => EntryKey(reparse, x);
    assert e in Members(answer, keyOf, keyOf(e));
  }

  // ---------------------------------------------------------------------------
  // Unscheduling
  // ---------------------------------------------------------------------------

  function IdIs(entryId: string): Entry -> bool {
    (e: Entry) => e.row.id == entryId
  }

  /** What one bucket becomes: its first entry with the id removed, and the
      bucket gone when that empties it. */
  function AfterRemoval(b: Option<seq<Entry>>, entryId: string): Option<seq<Entry>> {
    match b
    case None => None
    case Some(items) =>
      var rest := RemoveFirst(items, IdIs(entryId));
      if |rest| == 0 then None else Some(rest)
  }

  /** The map update of `unscheduleMachineById`: in every bucket splice out the
      first entry whose id matches, and delete buckets left empty. */
  function DropEntry(ix: Index, entryId: string): (r: Index)
    requires WellFormed(ix)
    ensures WellFormed(r)
    ensures forall k :: Lookup(r, k) == AfterRemoval(Lookup(ix, k), entryId)
  {
    if |ix| == 0 then []
    else
      TailWellFormed(ix);
      var rest := DropEntry(ix[1..], entryId);
      var items := RemoveFirst(ix[0].items, IdIs(entryId));
      forall k ensures Lookup(ix, k) == (if k == ix[0].key then Some(ix[0].items) else Lookup(ix[1..], k)) {
        ConsLookup(ix[0], ix[1..], k);
      }
      if |items| == 0 then
        rest
      else
        var b := Bucket(ix[0].key, items);
        ConsWellFormed(b, rest);
        forall k ensures Lookup([b] + rest, k) == (if k == b.key then Some(items) else Lookup(rest, k)) {
          ConsLookup(b, rest, k);
        }
        [b] + rest
  }

  /** `unscheduleMachineById`: nothing happens without a user, without an id,
      or when the gateway refuses; otherwise the entry leaves the index. */
  function Unschedule(ix: Index, hasUser: bool, entryId: string, gatewayOk: bool): (r: Index)
    requires WellFormed(ix)
    ensures WellFormed(r)
    ensures !hasUser || entryId == "" || !gatewayOk ==> r == ix
    ensures hasUser && entryId != "" && gatewayOk ==>
              forall k :: Lookup(r, k) == AfterRemoval(Lookup(ix, k), entryId)
  {
    if !hasUser || entryId == "" || !gatewayOk then ix else DropEntry(ix, entryId)
  }

  /** A bucket without the id is untouched by unscheduling. */
  lemma UnscheduleKeepsOthers(ix: Index, entryId: string, k: string)
    requires WellFormed(ix) && entryId != ""
    requires Lookup(ix, k).Some?
    requires forall e :: e in Lookup(ix, k).value ==> e.row.id != entryId
    ensures Lookup(Unschedule(ix, true, entryId, true), k) == Lookup(ix, k)
  {
    var items := Lookup(ix, k).value;
    assert forall j :: 0 <= j < |items| ==> !IdIs(entryId)(items[j]) by {
      forall j | 0 <= j < |items| ensures !IdIs(entryId)(items[j]) {
        assert items[j] in items;
      }
    }
    assert FindIndex(items, IdIs(entryId)) == -1;
    assert exists i :: 0 <= i < |ix| && ix[i].key == k && ix[i].items == items;
  }

  // ---------------------------------------------------------------------------
  // Sessions: the index flattened in map order
  // ---------------------------------------------------------------------------

  datatype Session = Session(key: string, entry: Entry)

  function BucketSessions(b: Bucket): (ss: seq<Session>)
    ensures |ss| == |b.items|
    ensures forall i :: 0 <= i < |ss| ==> ss[i] == Session(b.key, b.items[i])
  {
    seq(|b.items|, i requires 0 <= i < |b.items| => Session(b.key, b.items[i]))
  }

  /** The index files `s.entry` under `s.key`. */
  predicate Holds(ix: Index, s: Session) {
    exists i :: 0 <= i < |ix| && s.key == ix[i].key && s.entry in ix[i].items
  }

  /** The number of entries filed in the index, bucket by bucket. */
  function EntryCount(ix: Index): nat {
    if |ix| == 0 then 0 else |ix[0].items| + EntryCount(ix[1..])
  }

  /** `map.forEach((items, key) => items.forEach(...))`: one session per filed
      entry, so a session appears as often as its entry is filed. */
  function Sessions(ix: Index): (ss: seq<Session>)
    ensures forall s :: s in ss <==> Holds(ix, s)
    ensures |ss| == EntryCount(ix)
  {
    if |ix| == 0 then []
    else
      var head, rest := BucketSessions(ix[0]), Sessions(ix[1..]);
      assert forall s: Session :: s in head <==> s.key == ix[0].key && s.entry in ix[0].items by {
        forall s: Session | s.key == ix[0].key && s.entry in ix[0].items ensures s in head {
          var j :| 0 <= j < |ix[0].items| && ix[0].items[j] == s.entry;
          assert head[j] == s;
        }
      }
      forall s: Session ensures Holds(ix, s) <==> (s.key == ix[0].key && s.entry in ix[0].items) || Holds(ix[1..], s) {
        if Holds(ix, s) {
          var i :| 0 <= i < |ix| && s.key == ix[i].key && s.entry in ix[i].items;
          if i > 0 {
            assert ix[1..][i - 1] == ix[i];
          }
        }
        if Holds(ix[1..], s) {
          var i :| 0 <= i < |ix[1..]| && s.key == ix[1..][i].key && s.entry in ix[1..][i].items;
          assert ix[i + 1] == ix[1..][i];
        }
      }
      head + rest
  }

  /** The sessions filed under key `k`. */
  function KeyIs(k: string): Session -> bool {
    (s: Session) => s.key == k
  }

  lemma KeysDistinctTail(ix: Index)
    requires KeysDistinct(ix) && |ix| > 0
    ensures KeysDistinct(ix[1..]) && Lookup(ix[1..], ix[0].key).None?
  {
    forall i, j | 0 <= i < j < |ix[1..]| ensures ix[1..][i].key != ix[1..][j].key {
      assert ix[1..][i] == ix[i + 1] && ix[1..][j] == ix[j + 1];
    }
    forall i | 0 <= i < |ix[1..]| ensures ix[1..][i].key != ix[0].key {
      assert ix[1..][i] == ix[i + 1];
    }
  }

  /** Flattening peels off the first bucket. */
  lemma SessionsCons(ix: Index)
    requires |ix| > 0
    ensures Sessions(ix) == BucketSessions(ix[0]) + Sessions(ix[1..])
  {
  }

  /** The sessions of key `k` in one bucket: all of them or none. */
  lemma BucketSessionsOfKey(b: Bucket, k: string)
    ensures Filter(BucketSessions(b), KeyIs(k)) == if b.key == k then BucketSessions(b) else []
  {
    if b.key == k {
      FilterAll(BucketSessions(b), KeyIs(k));
    } else {
      FilterNone(BucketSessions(b), KeyIs(k));
    }
  }

  /** The first bucket holds key `k`: its entries are the sessions of `k`. */
  lemma SessionsOfKeyHere(ix: Index, k: string)
    requires KeysDistinct(ix) && |ix| > 0 && ix[0].key == k
    requires Filter(Sessions(ix[1..]), KeyIs(k)) == BucketSessions(Bucket(k, Lookup(ix[1..], k).GetOr([])))
    ensures Filter(Sessions(ix), KeyIs(k)) == BucketSessions(Bucket(k, Lookup(ix, k).GetOr([])))
  {
    SessionsCons(ix);
    KeysDistinctTail(ix);
    FilterAppend(BucketSessions(ix[0]), Sessions(ix[1..]), KeyIs(k));
    BucketSessionsOfKey(ix[0], k);
    assert Bucket(k, Lookup(ix, k).GetOr([])) == ix[0];
    assert BucketSessions(Bucket(k, [])) == [];
  }

  /** The first bucket holds another key: the sessions of `k` all come later. */
  lemma SessionsOfKeyLater(ix: Index, k: string)
    requires |ix| > 0 && ix[0].key != k
    requires Filter(Sessions(ix[1..]), KeyIs(k)) == BucketSessions(Bucket(k, Lookup(ix[1..], k).GetOr([])))
    ensures Filter(Sessions(ix), KeyIs(k)) == BucketSessions(Bucket(k, Lookup(ix, k).GetOr([])))
  {
    SessionsCons(ix);
    FilterAppend(BucketSessions(ix[0]), Sessions(ix[1..]), KeyIs(k));
    BucketSessionsOfKey(ix[0], k);
    ConsLookup(ix[0], ix[1..], k);
    assert [ix[0]] + ix[1..] == ix;
  }

  /** With one bucket per key, the flattened sessions of key `k` are that
      bucket's entries in their stored order, and none when the key is absent. */
  lemma {:induction false} SessionsOfKey(ix: Index, k: string)
    requires KeysDistinct(ix)
    ensures Filter(Sessions(ix), KeyIs(k)) == BucketSessions(Bucket(k, Lookup(ix, k).GetOr([])))
    decreases |ix|
  {
    if |ix| > 0 {
      KeysDistinctTail(ix);
      SessionsOfKey(ix[1..], k);
      if ix[0].key == k {
        SessionsOfKeyHere(ix, k);
      } else {
        SessionsOfKeyLater(ix, k);
      }
    }
  }

  // ---------------------------------------------------------------------------
  // Upcoming sessions
  // ---------------------------------------------------------------------------

  predicate SortedByKey(ss: seq<Session>) {
    forall i, j :: 0 <= i < j < |ss| ==> LexLe(ss[i].key, ss[j].key)
  }

  /** Insert `x` before the first session whose key is not smaller. */
  function InsertByKey(x: Session, ss: seq<Session>): (r: seq<Session>)
    requires SortedByKey(ss)
    ensures SortedByKey(r)
    ensures multiset(r) == multiset(ss) + multiset{x}
  {
    if |ss| == 0 then [x]
    else if LexLe(x.key, ss[0].key) then
      forall j | 0 <= j < |ss| ensures LexLe(x.key, ss[j].key) {
        if j > 0 {
          LexLeTrans(x.key, ss[0].key, ss[j].key);
        }
      }
      [x] + ss
    else
      LexLeTotal(x.key, ss[0].key);
      var t := InsertByKey(x, ss[1..]);
      assert ss == [ss[0]] + ss[1..];
      forall j | 0 <= j < |t| ensures LexLe(ss[0].key, t[j].key) {
        assert t[j] in multiset(t);
        if t[j] != x {
          assert t[j] in multiset(ss[1..]);
          var k :| 0 <= k < |ss[1..]| && ss[1..][k] == t[j];
          assert ss[k + 1] == t[j];
        }
      }
      [ss[0]] + t
  }

  /** Filtering a one-element list. */
  lemma FilterSingle(x: Session, k: string)
    ensures Filter([x], KeyIs(k)) == if x.key == k then [x] else []
  {
  }

  /** Filtering two elements in front of a list, one of which the filter drops:
      their order does not matter. */
  lemma FilterSwapFront(x: Session, y: Session, rest: seq<Session>, k: string)
    requires x.key != y.key
    ensures Filter([x] + ([y] + rest), KeyIs(k)) == Filter([y] + ([x] + rest), KeyIs(k))
  {
    var p := KeyIs(k);
    assert ([x] + ([y] + rest))[1..] == [y] + rest;
    assert ([y] + ([x] + rest))[1..] == [x] + rest;
    assert ([y] + rest)[1..] == rest;
    assert ([x] + rest)[1..] == rest;
  }

  /** Past a smaller key, insertion keeps the head and inserts into the rest. */
  lemma InsertPast(x: Session, ss: seq<Session>)
    requires SortedByKey(ss) && |ss| > 0 && !LexLe(x.key, ss[0].key)
    ensures SortedByKey(ss[1..])
    ensures InsertByKey(x, ss) == [ss[0]] + InsertByKey(x, ss[1..])
  {
  }

  /** Before a key that is not smaller, insertion puts `x` in front. */
  lemma InsertFront(x: Session, ss: seq<Session>)
    requires SortedByKey(ss) && (|ss| == 0 || LexLe(x.key, ss[0].key))
    ensures InsertByKey(x, ss) == [x] + ss
  {
  }

  /** One step past a smaller key: if the rest keeps each key's order with
      `x` first, so does the whole. */
  lemma FilterPastHead(x: Session, y: Session, t: seq<Session>, rest: seq<Session>, k: string)
    requires x.key != y.key
    requires Filter(t, KeyIs(k)) == Filter([x] + rest, KeyIs(k))
    ensures Filter([y] + t, KeyIs(k)) == Filter([x] + ([y] + rest), KeyIs(k))
  {
    assert ([y] + t)[1..] == t;
    assert ([y] + ([x] + rest))[1..] == [x] + rest;
    FilterSwapFront(x, y, rest, k);
  }

  /** The tail of a sorted list is sorted. */
  lemma SortedTail(ss: seq<Session>)
    requires SortedByKey(ss) && |ss| > 0
    ensures SortedByKey(ss[1..])
  {
    forall i, j | 0 <= i < j < |ss[1..]| ensures LexLe(ss[1..][i].key, ss[1..][j].key) {
      assert ss[1..][i] == ss[i + 1] && ss[1..][j] == ss[j + 1];
    }
  }

  /** The step past a smaller head, given the result for the tail. */
  lemma InsertStablePast(x: Session, ss: seq<Session>, k: string)
    requires SortedByKey(ss) && |ss| > 0 && !LexLe(x.key, ss[0].key)
    requires Filter(InsertByKey(x, ss[1..]), KeyIs(k)) == Filter([x] + ss[1..], KeyIs(k))
    ensures Filter(InsertByKey(x, ss), KeyIs(k)) == Filter([x] + ss, KeyIs(k))
  {
    LexLeRefl(x.key);
    InsertPast(x, ss);
    FilterPastHead(x, ss[0], InsertByKey(x, ss[1..]), ss[1..], k);
    assert [ss[0]] + ss[1..] == ss;
  }

  /** Inserting goes in front of the sessions with an equal key, so the
      sessions of each key keep their order with `x` first. */
  lemma {:induction false} InsertStable(x: Session, ss: seq<Session>, k: string)
    requires SortedByKey(ss)
    ensures Filter(InsertByKey(x, ss), KeyIs(k)) == Filter([x] + ss, KeyIs(k))
    decreases |ss|
  {
    if |ss| == 0 || LexLe(x.key, ss[0].key) {
      InsertFront(x, ss);
    } else {
      SortedTail(ss);
      InsertStable(x, ss[1..], k);
      InsertStablePast(x, ss, k);
    }
  }

  /** `sort((a, b) => a.dateKey.localeCompare(b.dateKey))`, an insertion sort by
      key. It is stable: the sessions of each key keep their input order. */
  function SortByKey(ss: seq<Session>): (r: seq<Session>)
    ensures SortedByKey(r)
    ensures multiset(r) == multiset(ss)
    ensures forall k :: Filter(r, KeyIs(k)) == Filter(ss, KeyIs(k))
  {
    if |ss| == 0 then []
    else
      assert ss == [ss[0]] + ss[1..];
      var t := SortByKey(ss[1..]);
      forall k ensures Filter(InsertByKey(ss[0], t), KeyIs(k)) == Filter(ss, KeyIs(k)) {
        InsertStable(ss[0], t, k);
        FilterAppend([ss[0]], t, KeyIs(k));
        FilterAppend([ss[0]], ss[1..], KeyIs(k));
      }
      InsertByKey(ss[0], t)
  }

  /** The sessions on or after today's key, in map order. */
  function FromToday(ix: Index, todayKey: string): (r: seq<Session>)
    ensures forall s :: s in r <==> Holds(ix, s) && LexLe(todayKey, s.key)
  {
    Filter(Sessions(ix), (s: Session) => LexLe(todayKey, s.key))
  }

  /** `renderUpcomingSessions`: every session keyed today or later, sorted by key. */
  function Upcoming(ix: Index, todayKey: string): (r: seq<Session>)
    ensures SortedByKey(r)
    ensures multiset(r) == multiset(FromToday(ix, todayKey))
    ensures forall s :: s in r <==> Holds(ix, s) && LexLe(todayKey, s.key)
    ensures forall k :: Filter(r, KeyIs(k)) == Filter(FromToday(ix, todayKey), KeyIs(k))
  {
    var f := FromToday(ix, todayKey);
    var r := SortByKey(f);
    forall s ensures s in r <==> s in f {
      assert s in r <==> s in multiset(r);
      assert s in f <==> s in multiset(f);
    }
    r
  }

  /** The list actually rendered: the first ten upcoming sessions. */
  function Shown(ix: Index, todayKey: string): (r: seq<Session>)
    ensures |r| <= 10
    ensures |r| == if |Upcoming(ix, todayKey)| < 10 then |Upcoming(ix, todayKey)| else 10
    ensures r == Upcoming(ix, todayKey)[..|r|]
  {
    var u := Upcoming(ix, todayKey);
    if |u| <= 10 then u else u[..10]
  }

  /** With date keys, "sorted by key" is chronological. */
  lemma SortedIsChronological(ss: seq<Session>, i: int, j: int, a: Date, b: Date)
    requires SortedByKey(ss) && 0 <= i < j < |ss|
    requires Valid(a) && Valid(b) && 1000 <= a.year <= 9999 && 1000 <= b.year <= 9999
    requires ss[i].key == FormatDateKey(a) && ss[j].key == FormatDateKey(b)
    ensures DateLe(a, b)
  {
    KeyOrder(a, b);
  }

  // ---------------------------------------------------------------------------
  // Month counters
  // ---------------------------------------------------------------------------

  predicate KeyInRange(startKey: string, endKey: string, key: string) {
    LexLe(startKey, key) && LexLe(key, endKey)
  }

  function InRange(startKey: string, endKey: string): Session -> bool {
    (s: Session) => KeyInRange(startKey, endKey, s.key)
  }

  /** `scheduledCount`: bucket sizes summed over keys in [startKey, endKey].
      It counts exactly the sessions whose key is in range. */
  function MonthCount(ix: Index, startKey: string, endKey: string): (n: nat)
    ensures n == |Filter(Sessions(ix), InRange(startKey, endKey))|
  {
    if |ix| == 0 then 0
    else
      var p := InRange(startKey, endKey);
      var head := BucketSessions(ix[0]);
      FilterAppend(head, Sessions(ix[1..]), p);
      if KeyInRange(startKey, endKey, ix[0].key) then
        FilterAll(head, p);
        |ix[0].items| + MonthCount(ix[1..], startKey, endKey)
      else
        FilterNone(head, p);
        MonthCount(ix[1..], startKey, endKey)
  }

  datatype MonthStats = MonthStats(scheduled: nat, completed: nat, successPct: nat)

  /** `updateMonthStats` for the month `monthIndex` (0-based) of `year`: the
      range runs from `new Date(year, m, 1)` to `new Date(year, m + 1, 0)`, so a
      year 0..99 is read as 1900..1999; completed sessions are not tracked, so
      completed and the success rate stay 0. */
  function UpdateMonthStats(ix: Index, year: int, monthIndex: int): (r: MonthStats)
    requires 0 <= monthIndex <= 11
    ensures r.completed == 0 && r.successPct == 0
    ensures r.scheduled == |Filter(Sessions(ix), InRange(FormatDateKey(Date(FullYear(year), monthIndex + 1, 1)),
                                                       FormatDateKey(Date(FullYear(year), monthIndex + 1,
                                                                          DaysInMonth(FullYear(year), monthIndex + 1)))))|
  {
    FirstOfMonth(year, monthIndex);
    LastOfMonth(year, monthIndex);
    var startKey := FormatDateKey(NewDate(year, monthIndex, 1));
    var endKey := FormatDateKey(NewDate(year, monthIndex + 1, 0));
    MonthStats(MonthCount(ix, startKey, endKey), 0, 0)
  }

  /** A key spells a date with a four-digit year. */
  predicate IsDayKey(key: string, d: Date) {
    Valid(d) && 1000 <= d.year <= 9999 && key == FormatDateKey(d)
  }

  /** For a key that spells a date, being in the month's key range is being in the month. */
  lemma DayKeyInMonth(key: string, d: Date, year: int, monthIndex: int)
    requires 1000 <= FullYear(year) <= 9999 && 0 <= monthIndex <= 11
    requires IsDayKey(key, d)
    ensures KeyInRange(FormatDateKey(NewDate(year, monthIndex, 1)), FormatDateKey(NewDate(year, monthIndex + 1, 0)), key)
            == InMonth(key, FullYear(year), monthIndex + 1)
  {
    MonthRange(year, monthIndex, d);
    ParseFormat(d);
  }

  /** When every key spells a date of a four-digit year, the month count is the
      number of sessions dated in that month of the year `new Date` reads
      (1900..1999 for a two-digit year). */
  lemma MonthCountIsMonth(ix: Index, year: int, monthIndex: int)
    requires 1000 <= FullYear(year) <= 9999 && 0 <= monthIndex <= 11
    requires forall s :: s in Sessions(ix) ==> exists d :: IsDayKey(s.key, d)
    ensures UpdateMonthStats(ix, year, monthIndex).scheduled
            == |Filter(Sessions(ix), InMonthOf(FullYear(year), monthIndex + 1))|
  {
    FirstOfMonth(year, monthIndex);
    LastOfMonth(year, monthIndex);
    var p := InRange(FormatDateKey(NewDate(year, monthIndex, 1)), FormatDateKey(NewDate(year, monthIndex + 1, 0)));
    var q := InMonthOf(FullYear(year), monthIndex + 1);
    forall s | s in Sessions(ix)
      ensures p(s) == q(s)
    {
      var d :| IsDayKey(s.key, d);
      DayKeyInMonth(s.key, d, year, monthIndex);
    }
    FilterCongruent(Sessions(ix), p, q);
  }

  function InMonthOf(year: int, month: int): Session -> bool {
    (s: Session) => InMonth(s.key, year, month)
  }

  /** The key reads back as a date of month `month` (1..12) of `year`. */
  predicate InMonth(key: string, year: int, month: int) {
    var d := ParseDateKey(key);
    d.Some? && d.value.year == year && d.value.month == month
  }

  // ---------------------------------------------------------------------------
  // CSV export
  // ---------------------------------------------------------------------------

  datatype ExportRow = ExportRow(date: string, machine: string, difficulty: string, os: string)

  /** `x || 'Unknown'` on a string field. */
  function OrUnknown(s: string): (r: string)
    ensures s != "" ==> r == s
    ensures s == "" ==> r == "Unknown"
  {
    if s == "" then "Unknown" else s
  }

  /** The export record of one session; a missing machine reads as 'Unknown' throughout. */
  function ExportRowOf(s: Session): (r: ExportRow)
    ensures r.date == s.key
    ensures s.entry.machine.None? ==> r == ExportRow(s.key, "Unknown", "Unknown", "Unknown")
    ensures s.entry.machine.Some? ==>
              r.machine == OrUnknown(s.entry.machine.value.name)
              && r.difficulty == OrUnknown(s.entry.machine.value.difficulty)
              && r.os == OrUnknown(s.entry.machine.value.os)
  {
    match s.entry.machine
    case None => ExportRow(s.key, "Unknown", "Unknown", "Unknown")
    case Some(m) => ExportRow(s.key, OrUnknown(m.name), OrUnknown(m.difficulty), OrUnknown(m.os))
  }

  function ExportRows(ix: Index): (rows: seq<ExportRow>)
    ensures |rows| == |Sessions(ix)|
    ensures forall i :: 0 <= i < |rows| ==> rows[i] == ExportRowOf(Sessions(ix)[i])
  {
    var ss := Sessions(ix);
    seq(|ss|, i requires 0 <= i < |ss| => ExportRowOf(ss[i]))
  }

  const CsvHeader: seq<string> := ["Fecha", "M\U{00E1}quina", "Dificultad", "Sistema Operativo"]

  /** The four fields of a row; the machine name is wrapped in double quotes. */
  function RowFields(r: ExportRow): (fs: seq<string>)
    ensures |fs| == 4 && fs[0] == r.date && fs[1] == "\"" + r.machine + "\""
    ensures fs[2] == r.difficulty && fs[3] == r.os
  {
    [r.date, "\"" + r.machine + "\"", r.difficulty, r.os]
  }

  function CsvLines(rows: seq<ExportRow>): (lines: seq<string>)
    ensures |lines| == |rows| + 1
    ensures lines[0] == Join(CsvHeader, ',')
    ensures forall i :: 0 <= i < |rows| ==> lines[i + 1] == Join(RowFields(rows[i]), ',')
  {
    [Join(CsvHeader, ',')] + seq(|rows|, i requires 0 <= i < |rows| => Join(RowFields(rows[i]), ','))
  }

  /** `convertToCSV`: header and rows, fields joined by ',' and lines by '\n'. */
  function ConvertToCSV(rows: seq<ExportRow>): string {
    Join(CsvLines(rows), '\n')
  }

  /** `exportSchedule`: no file for an empty schedule, otherwise the CSV of
      every session in map order. */
  function ExportSchedule(ix: Index): (r: Option<string>)
    ensures r.None? <==> |Sessions(ix)| == 0
    ensures r.Some? ==> r.value == ConvertToCSV(ExportRows(ix))
  {
    var rows := ExportRows(ix);
    if |rows| == 0 then None else Some(ConvertToCSV(rows))
  }

  predicate NoNewline(r: ExportRow) {
    '\n' !in r.date && '\n' !in r.machine && '\n' !in r.difficulty && '\n' !in r.os
  }

  lemma {:induction false} JoinNoSep(parts: seq<string>, sep: char, other: char)
    requires sep != other
    requires forall i :: 0 <= i < |parts| ==> other !in parts[i]
    ensures other !in Join(parts, sep)
    decreases |parts|
  {
    if |parts| > 1 {
      JoinNoSep(parts[1..], sep, other);
    }
  }

  /** Splitting the CSV at line breaks gives back the header line and one line
      per row, when no field holds a line break. */
  lemma CsvLineCount(rows: seq<ExportRow>)
    requires forall i :: 0 <= i < |rows| ==> NoNewline(rows[i])
    ensures Split(ConvertToCSV(rows), '\n') == CsvLines(rows)
    ensures |Split(ConvertToCSV(rows), '\n')| == |rows| + 1
  {
    var lines := CsvLines(rows);
    forall i | 0 <= i < |lines| ensures '\n' !in lines[i] {
      if i == 0 {
        HeaderLine();
      } else {
        RowLine(rows[i - 1]);
      }
    }
    SplitJoin(lines, '\n');
  }

  lemma HeaderLine()
    ensures '\n' !in Join(CsvHeader, ',')
  {
    JoinNoSep(CsvHeader, ',', '\n');
  }

  lemma RowLine(r: ExportRow)
    requires NoNewline(r)
    ensures '\n' !in Join(RowFields(r), ',')
  {
    var fs := RowFields(r);
    assert '\n' !in fs[1];
    JoinNoSep(fs, ',', '\n');
  }

  /** Each row line splits back into its four fields when no field holds a comma. */
  lemma CsvRowFields(r: ExportRow)
    requires ',' !in r.date && ',' !in r.machine && ',' !in r.difficulty && ',' !in r.os
    ensures Split(Join(RowFields(r), ','), ',') == RowFields(r)
  {
    var fs := RowFields(r);
    assert forall j :: 0 <= j < |fs| ==> ',' !in fs[j];
    SplitJoin(fs, ',');
  }
}

=== FILE: datekeys.dfy ===
/** Local calendar dates and their `YYYY-MM-DD` keys, as the calendar view builds
    them with `new Date(y, monthIndex, day)`, `formatDateKey` and `parseDateKey`.
    A date is the triple the view reads back with `getFullYear()`,
    `getMonth() + 1` and `getDate()`; time of day and time zone play no part. */
module DateKeys {
  import opened Wrappers
  import opened Text

  datatype Date = Date(year: int, month: int, day: int)

  // ---------------------------------------------------------------------------
  // The proleptic Gregorian calendar
  // ---------------------------------------------------------------------------

  predicate IsLeap(y: int) {
    (y % 4 == 0 && y % 100 != 0) || y % 400 == 0
  }

  function DaysInMonth(y: int, m: int): (n: int)
    requires 1 <= m <= 12
    ensures 28 <= n <= 31
    ensures m == 2 ==> (n == 29 <==> IsLeap(y))
  {
    if m == 2 then (if IsLeap(y) then 29 else 28)
    else if m == 4 || m == 6 || m == 9 || m == 11 then 30
    else 31
  }

  /** A date a JavaScript `Date` object can report: month 1..12, day within the month. */
  predicate Valid(d: Date) {
    1 <= d.month <= 12 && 1 <= d.day <= DaysInMonth(d.year, d.month)
  }

  /** Chronological order. */
  predicate DateLe(a: Date, b: Date) {
    a.year < b.year
    || (a.year == b.year && a.month < b.month)
    || (a.year == b.year && a.month == b.month && a.day <= b.day)
  }

  // ---------------------------------------------------------------------------
  // new Date(year, monthIndex, day): out-of-range fields roll over
  // ---------------------------------------------------------------------------

  /** Day `day` counted from the first of month `m` of year `y`: day 0 is the last
      day of the previous month, day 32 of January is the first of February. */
  function RollDays(y: int, m: int, day: int): (r: Date)
    requires 1 <= m <= 12
    ensures Valid(r)
    ensures 1 <= day <= DaysInMonth(y, m) ==> r == Date(y, m, day)
    decreases if day < 1 then 1 - day else 0, if day < 1 then 0 else day
  {
    if day < 1 then
      var py := if m == 1 then y - 1 else y;
      var pm := if m == 1 then 12 else m - 1;
      RollDays(py, pm, day + DaysInMonth(py, pm))
    else if day <= DaysInMonth(y, m) then
      Date(y, m, day)
    else
      var ny := if m == 12 then y + 1 else y;
      var nm := if m == 12 then 1 else m + 1;
      RollDays(ny, nm, day - DaysInMonth(y, m))
  }

  /** The date `MakeDay` computes from a full year, a month index and a day, as
      `new Date` does after its year rule and `setDate` does on an existing
      date: the month index rolls into the year first, then the day rolls
      across months. No two-digit-year rule applies here. */
  function MakeDate(year: int, monthIndex: int, day: int): (r: Date)
    ensures Valid(r)
    ensures 0 <= monthIndex <= 11 && 1 <= day <= DaysInMonth(year, monthIndex + 1) ==>
              r == Date(year, monthIndex + 1, day)
  {
    RollDays(year + monthIndex / 12, monthIndex % 12 + 1, day)
  }

  /** The `Date` constructor's two-digit-year rule: years 0..99 mean 1900..1999. */
  function FullYear(y: int): (r: int)
    ensures 0 <= y <= 99 ==> r == 1900 + y
    ensures !(0 <= y <= 99) ==> r == y
  {
    if 0 <= y <= 99 then 1900 + y else y
  }

  /** `new Date(y, monthIndex, day)` with the constructor's year rule: in-range
      fields give exactly that date, with years 0..99 read as 1900..1999. */
  function NewDate(y: int, monthIndex: int, day: int): (r: Date)
    ensures Valid(r)
    ensures 0 <= monthIndex <= 11 && 1 <= day <= DaysInMonth(FullYear(y), monthIndex + 1) ==>
              r == Date(FullYear(y), monthIndex + 1, day)
    ensures 0 <= monthIndex <= 11 && 1 <= day <= DaysInMonth(FullYear(y), monthIndex + 1) && 0 <= y <= 99 ==>
              1900 <= r.year <= 1999
    ensures !(0 <= y <= 99) ==> r == MakeDate(y, monthIndex, day)
  {
    MakeDate(FullYear(y), monthIndex, day)
  }

  /** Every valid date is rebuilt unchanged from its own fields. */
  lemma MakeDateOfValid(d: Date)
    requires Valid(d)
    ensures MakeDate(d.year, d.month - 1, d.day) == d
  {
  }

  /** `new Date(y, m, 1)`: the first of the month, in the year the constructor reads. */
  lemma FirstOfMonth(y: int, monthIndex: int)
    requires 0 <= monthIndex <= 11
    ensures NewDate(y, monthIndex, 1) == Date(FullYear(y), monthIndex + 1, 1)
  {
  }

  /** `new Date(y, m + 1, 0)`: the last day of month `m`, December included,
      in the year the constructor reads. */
  lemma {:induction false} LastOfMonth(y: int, monthIndex: int)
    requires 0 <= monthIndex <= 11
    ensures NewDate(y, monthIndex + 1, 0) == Date(FullYear(y), monthIndex + 1, DaysInMonth(FullYear(y), monthIndex + 1))
  {
    var fy := FullYear(y);
    assert NewDate(y, monthIndex + 1, 0) == MakeDate(fy, monthIndex + 1, 0);
    if monthIndex == 11 {
      assert (monthIndex + 1) / 12 == 1 && (monthIndex + 1) % 12 == 0;
      assert RollDays(fy + 1, 1, 0) == RollDays(fy, 12, DaysInMonth(fy, 12));
    } else {
      assert (monthIndex + 1) / 12 == 0 && (monthIndex + 1) % 12 == monthIndex + 1;
      assert RollDays(fy, monthIndex + 2, 0) == RollDays(fy, monthIndex + 1, DaysInMonth(fy, monthIndex + 1));
    }
  }

  // ---------------------------------------------------------------------------
  // Day stepping: setDate(getDate() + 1) and setDate(getDate() - 1)
  // ---------------------------------------------------------------------------

  /** The next calendar day, as `setDate(getDate() + 1)` produces it. */
  function NextDay(d: Date): (r: Date)
    requires Valid(d)
    ensures Valid(r)
    ensures d.day < DaysInMonth(d.year, d.month) ==> r == Date(d.year, d.month, d.day + 1)
    ensures d.day == DaysInMonth(d.year, d.month) && d.month < 12 ==> r == Date(d.year, d.month + 1, 1)
    ensures d.day == DaysInMonth(d.year, d.month) && d.month == 12 ==> r == Date(d.year + 1, 1, 1)
  {
    MakeDate(d.year, d.month - 1, d.day + 1)
  }

  /** The previous calendar day, as `setDate(getDate() - 1)` produces it. */
  function PrevDay(d: Date): (r: Date)
    requires Valid(d)
    ensures Valid(r)
    ensures 1 < d.day ==> r == Date(d.year, d.month, d.day - 1)
    ensures d.day == 1 && 1 < d.month ==> r == Date(d.year, d.month - 1, DaysInMonth(d.year, d.month - 1))
    ensures d.day == 1 && d.month == 1 ==> r == Date(d.year - 1, 12, 31)
  {
    var r := MakeDate(d.year, d.month - 1, d.day - 1);
    assert d.day == 1 && d.month == 1 ==> r == RollDays(d.year - 1, 12, 31);
    r
  }

  /** Stepping back after stepping forward returns the same day. */
  lemma PrevAfterNext(d: Date)
    requires Valid(d)
    ensures PrevDay(NextDay(d)) == d
  {
  }

  /** Stepping forward after stepping back returns the same day. */
  lemma NextAfterPrev(d: Date)
    requires Valid(d)
    ensures NextDay(PrevDay(d)) == d
  {
  }

  /** The next day is strictly later and nothing lies strictly between. */
  lemma NextDayIsSuccessor(d: Date, e: Date)
    requires Valid(d) && Valid(e)
    ensures DateLe(d, NextDay(d)) && NextDay(d) != d
    ensures DateLe(d, e) && e != d ==> DateLe(NextDay(d), e)
  {
  }

  // ---------------------------------------------------------------------------
  // Monday-first grid offset
  // ---------------------------------------------------------------------------

  /** Blank cells before the first of the month in a Monday-first grid, from
      `getDay()` (Sunday 0 .. Saturday 6) as `(w + 6) % 7`. */
  function MondayOffset(weekday: int): (o: int)
    requires 0 <= weekday <= 6
    ensures 0 <= o <= 6
    ensures o == (if weekday == 0 then 6 else weekday - 1)
    ensures weekday == 1 ==> o == 0
    ensures weekday == 0 ==> o == 6
  {
    (weekday + 6) % 7
  }

  /** The offset is a bijection of the week. */
  lemma MondayOffsetInjective(v: int, w: int)
    requires 0 <= v <= 6 && 0 <= w <= 6
    ensures MondayOffset(v) == MondayOffset(w) <==> v == w
  {
  }

  // ---------------------------------------------------------------------------
  // formatDateKey / parseDateKey
  // ---------------------------------------------------------------------------

  function YearText(d: Date): string {
    IntToString(d.year)
  }

  function MonthText(d: Date): string
    requires Valid(d)
  {
    Pad2(NatToString(d.month))
  }

  function DayText(d: Date): string
    requires Valid(d)
  {
    Pad2(NatToString(d.day))
  }

  lemma {:induction false} Pow10Mono(a: nat, b: nat)
    requires a <= b
    ensures Pow10(a) <= Pow10(b)
    decreases b
  {
    if a < b {
      Pow10Mono(a, b - 1);
    }
  }

  /** A year from 1000 to 9999 is written with exactly four digits. */
  lemma FourDigitYear(y: nat)
    requires 1000 <= y <= 9999
    ensures |NatToString(y)| == 4
  {
    var r := NatToString(y);
    assert Pow10(3) == 1000 && Pow10(4) == 10000;
    if |r| < 4 {
      Pow10Mono(|r|, 3);
    } else if |r| > 4 {
      Pow10Mono(4, |r| - 1);
    }
  }

  /** Month and day are written with exactly two digits, zero-padded. */
  lemma TwoDigitFields(d: Date)
    requires Valid(d)
    ensures |MonthText(d)| == 2 && AllDigits(MonthText(d)) && DigitsValue(MonthText(d)) == d.month
    ensures |DayText(d)| == 2 && AllDigits(DayText(d)) && DigitsValue(DayText(d)) == d.day
  {
    Pad2Number(d.month);
    Pad2Number(d.day);
  }

  /** Everything after the year: '-', the month, '-', the day. */
  function KeyTail(d: Date): string
    requires Valid(d)
  {
    "-" + (MonthText(d) + ("-" + DayText(d)))
  }

  /** Where the three fields of a key of the usual widths sit. */
  lemma KeyLayout(y: string, m: string, d: string)
    requires |y| == 4 && |m| == 2 && |d| == 2
    ensures var k := y + ("-" + (m + ("-" + d)));
            |k| == 10 && k[..4] == y && k[4] == '-' && k[5..7] == m && k[7] == '-' && k[8..] == d
  {
  }

  /** `formatDateKey`: year, zero-padded month and zero-padded day joined by '-'.
      A four-digit year gives a ten-character key whose three fields spell the date. */
  function FormatDateKey(d: Date): (k: string)
    requires Valid(d)
    ensures 1000 <= d.year <= 9999 ==>
              |k| == 10 && k[4] == '-' && k[7] == '-'
              && AllDigits(k[..4]) && AllDigits(k[5..7]) && AllDigits(k[8..])
              && DigitsValue(k[..4]) == d.year && DigitsValue(k[5..7]) == d.month && DigitsValue(k[8..]) == d.day
  {
    TwoDigitFields(d);
    if 1000 <= d.year <= 9999 then
      FourDigitYear(d.year);
      KeyLayout(YearText(d), MonthText(d), DayText(d));
      YearText(d) + KeyTail(d)
    else
      YearText(d) + KeyTail(d)
  }

  /** `parseInt(s, 10)`: optional leading white space, an optional sign, then the
      longest run of decimal digits; `None` stands for `NaN`. */
  function ParseInt(s: string): (r: Option<int>)
    ensures AllDigits(s) && 1 <= |s| ==> r == Some(DigitsValue(s))
    ensures |s| == 0 ==> r.None?
  {
    var t := TrimStart(s);
    if |t| > 0 && (t[0] == '+' || t[0] == '-') then
      match ParseIntPrefix(t[1..])
      case None => None
      case Some(n) => var v: int := n; Some(if t[0] == '-' then -v else v)
    else
      match ParseIntPrefix(t)
      case None => None
      case Some(n) => Some(n)
  }

  /** `x || 1` on a parsed number: `NaN` and 0 are falsy. */
  function OrOne(v: Option<int>): (r: int)
    ensures v.Some? && v.value != 0 ==> r == v.value
    ensures v.None? || v.value == 0 ==> r == 1
  {
    if v.Some? && v.value != 0 then v.value else 1
  }

  /** `parseDateKey`: split on '-', parse each field, default a missing or zero
      month or day to 1, and build the date with the `Date` constructor's rules.
      `None` is the invalid date produced when the year does not parse. */
  function ParseDateKey(key: string): (r: Option<Date>)
    ensures r.Some? ==> Valid(r.value)
    ensures r.None? <==> ParseInt(Split(key, '-')[0]).None?
  {
    var parts := Split(key, '-');
    var y := ParseInt(parts[0]);
    var m := if |parts| > 1 then ParseInt(parts[1]) else None;
    var d := if |parts| > 2 then ParseInt(parts[2]) else None;
    match y
    case None => None
    case Some(yv) => Some(NewDate(yv, OrOne(m) - 1, OrOne(d)))
  }

  /** The key's pieces when split on '-', for a non-negative year. */
  lemma KeySplit(d: Date)
    requires Valid(d) && d.year >= 0
    ensures Split(FormatDateKey(d), '-') == [YearText(d), MonthText(d), DayText(d)]
  {
    TwoDigitFields(d);
    var parts := [YearText(d), MonthText(d), DayText(d)];
    assert forall i :: 0 <= i < |parts| ==> AllDigits(parts[i]);
    assert forall i :: 0 <= i < |parts| ==> '-' !in parts[i];
    assert parts[1..][1..] == [DayText(d)];
    assert Join(parts[1..], '-') == MonthText(d) + "-" + DayText(d);
    Regroup(YearText(d), "-", MonthText(d), "-", DayText(d));
    assert Join(parts, '-') == FormatDateKey(d);
    SplitJoin(parts, '-');
  }

  /** Parsing a formatted key gives back the date, for every year from 100 on
      (years 0..99 would be read back as 1900..1999). */
  lemma ParseFormat(d: Date)
    requires Valid(d) && d.year >= 100
    ensures ParseDateKey(FormatDateKey(d)) == Some(d)
  {
    KeySplit(d);
    TwoDigitFields(d);
    var parts := Split(FormatDateKey(d), '-');
    assert ParseInt(parts[0]) == Some(d.year);
    assert ParseInt(parts[1]) == Some(d.month);
    assert ParseInt(parts[2]) == Some(d.day);
    MakeDateOfValid(d);
  }

  /** The round trip fails for a two-digit year: the key of year 99 reads back as 1999. */
  lemma ParseFormatTwoDigitYear()
    ensures ParseDateKey(FormatDateKey(Date(99, 1, 1))) == Some(Date(1999, 1, 1))
  {
    var d := Date(99, 1, 1);
    KeySplit(d);
    TwoDigitFields(d);
    var parts := Split(FormatDateKey(d), '-');
    assert ParseInt(parts[0]) == Some(99);
    assert ParseInt(parts[1]) == Some(1);
    assert ParseInt(parts[2]) == Some(1);
    FirstOfMonth(99, 0);
  }

  // ---------------------------------------------------------------------------
  // Key order is date order
  // ---------------------------------------------------------------------------

  lemma Regroup(a: string, b: string, c: string, d: string, e: string)
    ensures a + b + (c + d + e) == a + (b + (c + (d + e)))
  {
  }

  /** Within one year, comparing the month-and-day tails compares month, then day. */
  lemma TailOrder(a: Date, b: Date)
    requires Valid(a) && Valid(b)
    ensures LexLe(KeyTail(a), KeyTail(b)) <==> a.month < b.month || (a.month == b.month && a.day <= b.day)
  {
    TwoDigitFields(a);
    TwoDigitFields(b);
    var ma, da, mb, db := MonthText(a), DayText(a), MonthText(b), DayText(b);
    LexConcat("-", ma + ("-" + da), "-", mb + ("-" + db));
    LexConcat(ma, "-" + da, mb, "-" + db);
    LexConcat("-", da, "-", db);
    FixedWidthOrder(ma, mb);
    FixedWidthOrder(da, db);
    if ma == mb {
      assert a.month == b.month;
    }
    if a.month == b.month {
      assert ma == mb;
    }
  }

  /** For four-digit years, comparing keys as strings compares the dates. */
  lemma KeyOrder(a: Date, b: Date)
    requires Valid(a) && Valid(b)
    requires 1000 <= a.year <= 9999 && 1000 <= b.year <= 9999
    ensures LexLe(FormatDateKey(a), FormatDateKey(b)) <==> DateLe(a, b)
  {
    FourDigitYear(a.year);
    FourDigitYear(b.year);
    var ya, yb := YearText(a), YearText(b);
    LexConcat(ya, KeyTail(a), yb, KeyTail(b));
    FixedWidthOrder(ya, yb);
    TailOrder(a, b);
    if ya == yb {
      assert a.year == b.year;
    }
    if a.year == b.year {
      assert ya == yb;
    }
  }

  /** A key lies between the keys of `new Date(y, m, 1)` and `new Date(y, m + 1, 0)`
      exactly when its date falls in that month of the year the constructor reads. */
  lemma MonthRange(y: int, monthIndex: int, d: Date)
    requires 1000 <= FullYear(y) <= 9999 && 0 <= monthIndex <= 11
    requires Valid(d) && 1000 <= d.year <= 9999
    ensures var first := NewDate(y, monthIndex, 1);
            var last := NewDate(y, monthIndex + 1, 0);
            LexLe(FormatDateKey(first), FormatDateKey(d)) && LexLe(FormatDateKey(d), FormatDateKey(last))
            <==> d.year == FullYear(y) && d.month == monthIndex + 1
  {
    FirstOfMonth(y, monthIndex);
    LastOfMonth(y, monthIndex);
    KeyOrder(NewDate(y, monthIndex, 1), d);
    KeyOrder(d, NewDate(y, monthIndex + 1, 0));
  }
}

=== FILE: downloads.dfy ===
/** The downloads page: a fixed list of machines to fetch and the filter
    behind its search box and two drop-downs. */
module Downloads {
  import opened Text
  import opened Seqs

  datatype Download = Download(name: string, platform: string, os: string, link: string)

  /** The page's list. */
  const Machines: seq<Download> := [
    Download("Injection", "DockerLabs", "Linux",
             "https://mega.nz/file/rZlAERjY#152uP-zS7pTC0hbPaZB7aO6_puij633u4pW-jpMuctk"),
    Download("ICA_1", "VulnHub", "Linux", "https://www.vulnhub.com/entry/ica-1,748")
  ]

  /** The filter for one machine: the lower-cased name contains the
      lower-cased search text, and each drop-down is empty or equal. */
  predicate Keep(m: Download, name: string, platform: string, os: string) {
    Contains(Lower(m.name), Lower(name))
    && (platform == "" || m.platform == platform)
    && (os == "" || m.os == os)
  }

  function KeepFor(name: string, platform: string, os: string): Download -> bool {
    (m: Download) => Keep(m, name, platform, os)
  }

  /** `filterMachines`: the machines the filter keeps, in list order, each
      as often as the list holds it. */
  function FilterMachines(list: seq<Download>, name: string, platform: string, os: string): (r: seq<Download>)
    ensures IsSubsequence(r, list)
    ensures forall m :: m in r <==> m in list && Keep(m, name, platform, os)
    ensures forall m :: multiset(r)[m] == if Keep(m, name, platform, os) then multiset(list)[m] else 0
  {
    FilterCounts(list, KeepFor(name, platform, os));
    Filter(list, KeepFor(name, platform, os))
  }

  /** The empty text occurs in every name. */
  lemma EmptyOccurs(s: string)
    ensures Contains(s, "")
  {
    assert OccursAt(s, "", 0);
  }

  /** With every field empty the whole list is shown. */
  lemma {:induction false} NoFilterKeepsAll(list: seq<Download>)
    ensures FilterMachines(list, "", "", "") == list
  {
    forall i | 0 <= i < |list| ensures KeepFor("", "", "")(list[i]) {
      EmptyOccurs(Lower(list[i].name));
    }
    FilterAll(list, KeepFor("", "", ""));
  }

  /** The name search ignores case on both sides. */
  lemma NameIgnoresCase()
    ensures FilterMachines(Machines, "ICA", "", "") == [Machines[1]]
  {
    SearchIca();
    KeepSecond(Machines, KeepFor("ICA", "", ""));
  }

  /** Of two machines, a filter keeping only the second returns it alone. */
  lemma KeepSecond(list: seq<Download>, p: Download -> bool)
    requires |list| == 2 && !p(list[0]) && p(list[1])
    ensures Filter(list, p) == [list[1]]
  {
    assert list == [list[0]] + [list[1]];
    FilterAppend([list[0]], [list[1]], p);
  }

  /** `ICA` is found in `ICA_1` and not in `Injection`. */
  lemma SearchIca()
    ensures !Keep(Machines[0], "ICA", "", "") && Keep(Machines[1], "ICA", "", "")
  {
    LowerIca();
    assert OccursAt(Lower("ICA_1"), "ica", 0);
    NoFoldedPair("Injection", "ica", 'i', 'I', 'c', 'C');
  }

  lemma LowerIca()
    ensures Lower("ICA") == "ica" && Lower("ICA_1") == "ica_1"
  {
    assert LowerChar('I') == 'i' && LowerChar('C') == 'c' && LowerChar('A') == 'a';
  }

  /** The drop-downs compare exactly: a platform typed in another case matches nothing. */
  lemma PlatformIsExact()
    ensures FilterMachines(Machines, "", "dockerlabs", "") == []
  {
    var m0, m1 := Machines[0], Machines[1];
    assert m0.platform != "dockerlabs" && m1.platform != "dockerlabs";
    FilterNone(Machines, KeepFor("", "dockerlabs", ""));
  }

  /** Whatever its case, the search text finds the same machines. */
  lemma SearchCaseIrrelevant(list: seq<Download>, name: string, platform: string, os: string)
    ensures FilterMachines(list, name, platform, os) == FilterMachines(list, Lower(name), platform, os)
  {
    LowerIdempotent(name);
    FilterCongruent(list, KeepFor(name, platform, os), KeepFor(Lower(name), platform, os));
  }

  /** A chosen platform keeps exactly the machines whose platform is that
      text, character for character. */
  lemma PlatformMatchIsEquality(list: seq<Download>, platform: string)
    requires platform != ""
    ensures forall m :: m in FilterMachines(list, "", platform, "") <==> m in list && m.platform == platform
  {
    forall m | m in list ensures Keep(m, "", platform, "") <==> m.platform == platform {
      EmptyOccurs(Lower(m.name));
    }
  }

  /** Adding a drop-down choice or typing more only narrows the result. */
  lemma NarrowingFilters(list: seq<Download>, name: string, more: string, platform: string, os: string)
    ensures forall m :: m in FilterMachines(list, name + more, platform, os) ==> m in FilterMachines(list, name, platform, os)
    ensures forall m :: m in FilterMachines(list, name, platform, os) ==> m in FilterMachines(list, name, "", "")
  {
    forall m | m in FilterMachines(list, name + more, platform, os)
      ensures m in FilterMachines(list, name, platform, os)
    {
      var ln, lnm := Lower(name), Lower(name + more);
      assert lnm[0..|name|] == ln;
      ContainsInner(Lower(m.name), lnm, 0, |name|);
    }
  }
}

=== FILE: notes.dfy ===
/** Per-machine notes: the `m:ss` / `mm:ss` timestamp check, the validation
    an entry goes through before it is sent, the search box and the list
    update after a deletion. */
module Notes {
  import opened Wrappers
  import opened Text
  import opened Seqs

  /** A note as the page keeps it; ids are compared as the strings the
      delete buttons carry. */
  datatype Note = Note(id: string, name: string, content: string, timestamp: string)

  /** What `addNote` hands to the gateway. */
  datatype NoteData = NoteData(name: string, content: string, timestamp: string)

  // ---------------------------------------------------------------------------
  // Timestamps
  // ---------------------------------------------------------------------------

  /** The regular expression class `[0-5]`. */
  predicate IsTensDigit(c: char) {
    '0' <= c <= '5'
  }

  /** `^([0-5]?[0-9]):([0-5][0-9])$`: one or two minute digits (a leading one
      at most 5), a colon, two second digits (the first at most 5). */
  predicate MatchesTimestamp(s: string) {
    (|s| == 4 && IsDigit(s[0]) && s[1] == ':' && IsTensDigit(s[2]) && IsDigit(s[3]))
    || (|s| == 5 && IsTensDigit(s[0]) && IsDigit(s[1]) && s[2] == ':' && IsTensDigit(s[3]) && IsDigit(s[4]))
  }

  /** `validateTimestamp`: the input itself when it matches, otherwise null. */
  function ValidateTimestamp(s: string): (r: Option<string>)
    ensures r.Some? <==> MatchesTimestamp(s)
    ensures r.Some? ==> r.value == s
  {
    if MatchesTimestamp(s) then Some(s) else None
  }

  /** The stored timestamp: the trimmed input when it validates, else `00:00`. */
  function StoredTimestamp(raw: string): (r: string)
    ensures MatchesTimestamp(r)
    ensures MatchesTimestamp(Trim(raw)) ==> r == Trim(raw)
    ensures !MatchesTimestamp(Trim(raw)) ==> r == "00:00"
  {
    ValidateTimestamp(Trim(raw)).GetOr("00:00")
  }

  /** A clock reading rendered the two ways the pattern admits: minutes
      without padding (`7:05`) or padded to two digits (`07:05`). */
  function Clock(minutes: nat, seconds: nat, padMinutes: bool): string
    requires minutes < 60 && seconds < 60
  {
    (if padMinutes then Pad2(NatToString(minutes)) else NatToString(minutes)) + ":" + Pad2(NatToString(seconds))
  }

  /** The two digits of a number below 100. */
  lemma TwoDigits(n: nat)
    requires n < 100
    ensures Pad2(NatToString(n)) == [DigitChar(n / 10), DigitChar(n % 10)]
  {
    if n >= 10 {
      assert NatToString(n) == NatToString(n / 10) + [DigitChar(n % 10)];
    }
  }

  /** Every clock reading passes the check. */
  lemma ClockMatches(minutes: nat, seconds: nat, padMinutes: bool)
    requires minutes < 60 && seconds < 60
    ensures MatchesTimestamp(Clock(minutes, seconds, padMinutes))
  {
    TwoDigits(minutes);
    TwoDigits(seconds);
    var s := Clock(minutes, seconds, padMinutes);
    if !padMinutes && minutes >= 10 {
      assert NatToString(minutes) == NatToString(minutes / 10) + [DigitChar(minutes % 10)];
    }
    assert s[|s| - 3] == ':';
  }

  /** The minutes a matching timestamp reads as. */
  function MinutesOf(s: string): (m: nat)
    requires MatchesTimestamp(s)
    ensures m < 60
  {
    if |s| == 4 then DigitValue(s[0]) else 10 * DigitValue(s[0]) + DigitValue(s[1])
  }

  /** The seconds a matching timestamp reads as. */
  function SecondsOf(s: string): (sec: nat)
    requires MatchesTimestamp(s)
    ensures sec < 60
  {
    10 * DigitValue(s[|s| - 2]) + DigitValue(s[|s| - 1])
  }

  /** Two digit characters read as a number and padded back. */
  lemma TwoDigitString(a: char, b: char)
    requires IsDigit(a) && IsDigit(b)
    ensures Pad2(NatToString(10 * DigitValue(a) + DigitValue(b))) == [a, b]
  {
    var n := 10 * DigitValue(a) + DigitValue(b);
    assert n / 10 == DigitValue(a) && n % 10 == DigitValue(b);
    TwoDigits(n);
  }

  /** Everything the check accepts is a clock reading: its own minutes and
      seconds rendered back, padded exactly when it has two minute digits. */
  lemma MatchIsClock(s: string)
    requires MatchesTimestamp(s)
    ensures s == Clock(MinutesOf(s), SecondsOf(s), |s| == 5)
  {
    if |s| == 5 {
      LongClock(s);
    } else {
      ShortClock(s);
    }
  }

  lemma LongClock(s: string)
    requires MatchesTimestamp(s) && |s| == 5
    ensures s == Clock(MinutesOf(s), SecondsOf(s), true)
  {
    assert MinutesOf(s) == 10 * DigitValue(s[0]) + DigitValue(s[1]);
    TwoDigitString(s[0], s[1]);
    TwoDigitString(s[3], s[4]);
    LongLayout(s);
    JoinClock(MinutesOf(s), SecondsOf(s), true, [s[0], s[1]], [s[3], s[4]]);
  }

  lemma ShortClock(s: string)
    requires MatchesTimestamp(s) && |s| == 4
    ensures s == Clock(MinutesOf(s), SecondsOf(s), false)
  {
    assert NatToString(DigitValue(s[0])) == [s[0]];
    TwoDigitString(s[2], s[3]);
    ShortLayout(s);
    JoinClock(MinutesOf(s), SecondsOf(s), false, [s[0]], [s[2], s[3]]);
  }

  lemma LongLayout(s: string)
    requires |s| == 5 && s[2] == ':'
    ensures s == [s[0], s[1]] + ":" + [s[3], s[4]]
  {
  }

  lemma ShortLayout(s: string)
    requires |s| == 4 && s[1] == ':'
    ensures s == [s[0]] + ":" + [s[2], s[3]]
  {
  }

  /** A clock reading is its two rendered fields around a colon. */
  lemma JoinClock(minutes: nat, seconds: nat, padMinutes: bool, mm: string, ss: string)
    requires minutes < 60 && seconds < 60
    requires mm == (if padMinutes then Pad2(NatToString(minutes)) else NatToString(minutes))
    requires ss == Pad2(NatToString(seconds))
    ensures Clock(minutes, seconds, padMinutes) == mm + ":" + ss
  {
  }

  // ---------------------------------------------------------------------------
  // Adding a note
  // ---------------------------------------------------------------------------

  /** Where `addNote` stops: a missing form field or machine, no signed-in
      user, an empty name, an empty content, or a submission to the gateway. */
  datatype AddOutcome = MissingInputs | NotAuthenticated | NameRequired | ContentRequired | Submit(data: NoteData)

  /** `addNote` up to the gateway call, with the form's presence, the current
      machine and the user as flags and the three fields as typed. */
  function AddNote(formPresent: bool, machineSelected: bool, userPresent: bool,
                   name: string, content: string, timestamp: string): (o: AddOutcome)
    ensures o == MissingInputs <==> !formPresent || !machineSelected
    ensures o == NotAuthenticated <==> formPresent && machineSelected && !userPresent
    ensures o == NameRequired <==> formPresent && machineSelected && userPresent && AllSpace(name)
    ensures o == ContentRequired <==> formPresent && machineSelected && userPresent && !AllSpace(name)
                                      && AllSpace(content)
    ensures o.Submit? ==> o.data.name == Trim(name) && o.data.content == Trim(content)
                          && o.data.name != "" && o.data.content != ""
                          && o.data.timestamp == StoredTimestamp(timestamp)
  {
    TrimEmpty(name);
    TrimEmpty(content);
    if !formPresent || !machineSelected then MissingInputs
    else if !userPresent then NotAuthenticated
    else
      var data := NoteData(Trim(name), Trim(content), StoredTimestamp(timestamp));
      if data.name == "" then NameRequired
      else if data.content == "" then ContentRequired
      else Submit(data)
  }

  /** A submitted note always carries a timestamp the check accepts, and its
      name and content have no surrounding white space. */
  lemma SubmittedNoteIsClean(formPresent: bool, machineSelected: bool, userPresent: bool,
                             name: string, content: string, timestamp: string)
    requires formPresent && machineSelected && userPresent && !AllSpace(name) && !AllSpace(content)
    ensures AddNote(formPresent, machineSelected, userPresent, name, content, timestamp).Submit?
    ensures var d := AddNote(formPresent, machineSelected, userPresent, name, content, timestamp).data;
            MatchesTimestamp(d.timestamp) && Trim(d.name) == d.name && Trim(d.content) == d.content
  {
    TrimIdempotent(name);
    TrimIdempotent(content);
  }

  // ---------------------------------------------------------------------------
  // Searching
  // ---------------------------------------------------------------------------

  /** A note matches when its lower-cased name or content contains the lower-cased query. */
  function MatchesQuery(lowerQuery: string): Note -> bool {
    (n: Note) => Contains(Lower(n.name), lowerQuery) || Contains(Lower(n.content), lowerQuery)
  }

  /** `searchNotes`: every note for an empty query, otherwise the matching
      notes in their original order, each as often as the list holds it. */
  function SearchNotes(notes: seq<Note>, query: string): (r: seq<Note>)
    ensures query == "" ==> r == notes
    ensures IsSubsequence(r, notes)
    ensures forall n :: n in r <==> n in notes && MatchesQuery(Lower(query))(n)
    ensures forall n :: multiset(r)[n] == if MatchesQuery(Lower(query))(n) then multiset(notes)[n] else 0
  {
    FilterCounts(notes, MatchesQuery(Lower(query)));
    if query == "" then
      FilterAll(notes, MatchesQuery(Lower(query)));
      notes
    else Filter(notes, MatchesQuery(Lower(query)))
  }

  /** Typing more narrows the search: every note found for a query was
      already found for each of its prefixes. */
  lemma LongerQueryNarrows(notes: seq<Note>, query: string, more: string)
    ensures forall n :: n in SearchNotes(notes, query + more) ==> n in SearchNotes(notes, query)
  {
    forall n | n in SearchNotes(notes, query + more)
      ensures n in SearchNotes(notes, query)
    {
      if query != "" {
        var lq, lqm := Lower(query), Lower(query + more);
        assert lqm[0..|query|] == lq;
        if Contains(Lower(n.name), lqm) {
          ContainsInner(Lower(n.name), lqm, 0, |query|);
        } else {
          ContainsInner(Lower(n.content), lqm, 0, |query|);
        }
      }
    }
  }

  // ---------------------------------------------------------------------------
  // Deleting
  // ---------------------------------------------------------------------------

  function IdIsNot(noteId: string): Note -> bool {
    (n: Note) => n.id != noteId
  }

  /** `deleteNote`'s effect on the list: nothing unless the user confirms and
      the gateway reports success, then every note with the id goes and the
      rest keep their order and their number of copies. */
  function DeleteNote(notes: seq<Note>, noteId: string, confirmed: bool, gatewayOk: bool): (r: seq<Note>)
    ensures !confirmed || !gatewayOk ==> r == notes
    ensures IsSubsequence(r, notes)
    ensures confirmed && gatewayOk ==> forall n :: n in r <==> n in notes && n.id != noteId
    ensures confirmed && gatewayOk ==>
              forall n :: multiset(r)[n] == if n.id != noteId then multiset(notes)[n] else 0
  {
    FilterCounts(notes, IdIsNot(noteId));
    if confirmed && gatewayOk then Filter(notes, IdIsNot(noteId))
    else
      SubsequenceRefl(notes);
      notes
  }

  /** Deleting an id no note carries changes nothing. */
  lemma {:induction false} DeleteAbsentId(notes: seq<Note>, noteId: string)
    requires forall i :: 0 <= i < |notes| ==> notes[i].id != noteId
    ensures DeleteNote(notes, noteId, true, true) == notes
  {
    FilterAll(notes, IdIsNot(noteId));
  }

  /** Deleting the same note twice is deleting it once. */
  lemma {:induction false} DeleteIdempotent(notes: seq<Note>, noteId: string)
    ensures var once := DeleteNote(notes, noteId, true, true);
            DeleteNote(once, noteId, true, true) == once
  {
    var once := DeleteNote(notes, noteId, true, true);
    forall i | 0 <= i < |once| ensures once[i].id != noteId {
      assert once[i] in once;
    }
    DeleteAbsentId(once, noteId);
  }
}

=== FILE: percent.dfy ===
/** Percentages as the source computes them: `Math.round` of a ratio for the
    certification and trophy summaries, and `Math.min(ratio * 100, 100)` for
    progress bars. Ratios are exact here; floating-point rounding is not. */
module Percent {

  /** `Math.round((s / total) * 100)` for `0 <= s <= t`, `t > 0`, taken on the
      exact ratio rather than on doubles: the nearest integer, halves rounded
      up. Where the double product lands just below a half (23 of 40) the
      source rounds down instead. */
  function RoundPercent(s: nat, t: nat): (p: nat)
    requires 0 < t && s <= t
    ensures p <= 100
    ensures 2 * t * p <= 200 * s + t < 2 * t * (p + 1)
  {
    var p := (200 * s + t) / (2 * t);
    DivBounds(200 * s + t, 2 * t);
    assert 200 * s + t < 2 * t * 101 by {
      assert 200 * s <= 200 * t;
    }
    assert p <= 100 by {
      if p > 100 {
        MulLe(101, p, 2 * t);
      }
    }
    p
  }

  /** For fewer than 200 parts the rounded share reads 100 exactly when every
      part is counted: one part short is always below 99.5 per cent. */
  lemma RoundPercentFull(s: nat, t: nat)
    requires 0 < t < 200 && s <= t
    ensures RoundPercent(s, t) == 100 <==> s == t
  {
    var p := RoundPercent(s, t);
    if s == t {
      MulCancel(100, p + 1, 2 * t);
    } else {
      assert 200 * s + t < 2 * t * 100;
      MulCancel(p, 100, 2 * t);
    }
  }

  /** Euclidean division brackets the dividend. */
  lemma DivBounds(a: nat, b: nat)
    requires b > 0
    ensures b * (a / b) <= a < b * (a / b + 1)
  {
    assert a == b * (a / b) + a % b;
  }

  lemma MulCancel(x: int, y: int, k: nat)
    requires k * x < k * y
    ensures x < y
  {
    if x >= y {
      MulLe(y, x, k);
    }
  }

  lemma MulLe(x: int, y: int, k: nat)
    requires x <= y
    ensures k * x <= k * y
  {
    assert k * y - k * x == k * (y - x);
  }

  /** The ratio `current / target * 100` scaled back, its sign, and where it crosses 100. */
  lemma RatioBelow(current: nat, target: nat)
    requires target >= 1
    ensures (current as real) / (target as real) * 100.0 * (target as real) == 100.0 * (current as real)
    ensures (current as real) / (target as real) * 100.0 < 100.0 <==> current < target
    ensures 0.0 <= (current as real) / (target as real) * 100.0
  {
    var q := (current as real) / (target as real);
    assert q * (target as real) == current as real;
    if current < target {
      assert q < 1.0;
    } else {
      assert q >= 1.0;
    }
  }

  /** `Math.min((current / target) * 100, 100)`, exactly. */
  function CappedPercent(current: nat, target: nat): (pct: real)
    requires target >= 1
    ensures 0.0 <= pct <= 100.0
    ensures pct == 100.0 <==> current >= target
    ensures pct * (target as real) == 100.0 * (if current >= target then target else current) as real
  {
    var ratio := (current as real) / (target as real) * 100.0;
    RatioBelow(current, target);
    if ratio < 100.0 then ratio else 100.0
  }

  /** `whole > 0 ? (part / whole) * 100 : 0` for a part of a whole, exactly. */
  function Share(part: nat, whole: nat): (pct: real)
    requires part <= whole
    ensures 0.0 <= pct <= 100.0
    ensures pct * (whole as real) == 100.0 * (part as real)
    ensures whole == 0 ==> pct == 0.0
    ensures pct == 100.0 <==> 0 < whole && part == whole
    ensures pct == 0.0 <==> part == 0
    ensures 0 < whole ==> (pct < 50.0 <==> 2 * part < whole)
  {
    if whole == 0 then 0.0
    else
      var pct := CappedPercent(part, whole);
      ShareFacts(pct, part, whole);
      pct
  }

  lemma ShareFacts(pct: real, part: nat, whole: nat)
    requires 0 < whole && pct * (whole as real) == 100.0 * (part as real)
    ensures pct == 0.0 <==> part == 0
    ensures pct < 50.0 <==> 2 * part < whole
  {
    var w := whole as real;
    if pct != 0.0 {
      assert pct * w != 0.0;
    }
    if pct < 50.0 {
      MulStrict(pct, 50.0, w);
      assert 100.0 * (part as real) < 50.0 * w;
    } else {
      if 50.0 < pct {
        MulStrict(50.0, pct, w);
      }
      assert 100.0 * (part as real) >= 50.0 * w;
    }
  }

  lemma MulStrict(a: real, b: real, w: real)
    requires w > 0.0 && a < b
    ensures a * w < b * w
  {
    assert b * w - a * w == (b - a) * w;
  }
}

=== FILE: pomodoro.dfy ===
/** The Pomodoro timer: a focus session and two kinds of break, a counter of
    finished focus sessions, a running flag and the seconds left. The
    one-second interval is modelled as a `Tick` event that only fires while
    the timer runs. */
module Pomodoro {
  import opened Text

  datatype Session = Focus | ShortBreak | LongBreak

  /** Session lengths in seconds. */
  datatype Durations = Durations(focus: int, shortBreak: int, longBreak: int) {
    function Of(s: Session): int {
      match s
      case Focus => focus
      case ShortBreak => shortBreak
      case LongBreak => longBreak
    }
  }

  datatype Timer = Timer(timeLeft: int, running: bool, session: Session, count: nat, durations: Durations)

  /** The constructor: 25, 5 and 15 minutes, a stopped focus session, no count. */
  const Initial: Timer := Timer(25 * 60, false, Focus, 0, Durations(25 * 60, 5 * 60, 15 * 60))

  lemma InitialState()
    ensures Initial.session == Focus && Initial.timeLeft == 1500 && Initial.count == 0 && !Initial.running
    ensures Initial.durations.Of(Focus) == 1500 && Initial.durations.Of(ShortBreak) == 300
            && Initial.durations.Of(LongBreak) == 900
  {
  }

  /** `start`: nothing when already running, otherwise the interval begins. */
  function Start(t: Timer): (r: Timer)
    ensures t.running ==> r == t
    ensures r == t.(running := true)
  {
    if t.running then t else t.(running := true)
  }

  /** `pause`: nothing when stopped, otherwise the interval is cleared. */
  function Pause(t: Timer): (r: Timer)
    ensures !t.running ==> r == t
    ensures r == t.(running := false)
  {
    if !t.running then t else t.(running := false)
  }

  /** `reset`: stop and refill the current session; session and count stay. */
  function Reset(t: Timer): (r: Timer)
    ensures !r.running && r.timeLeft == t.durations.Of(t.session)
    ensures r.session == t.session && r.count == t.count && r.durations == t.durations
  {
    t.(running := false, timeLeft := t.durations.Of(t.session))
  }

  /** `sessionComplete`: a finished focus session raises the count and is
      followed by a long break on every fourth count and a short one
      otherwise; any break is followed by focus. The timer stops, full. */
  function Complete(t: Timer): (r: Timer)
    ensures !r.running && r.durations == t.durations
    ensures t.session == Focus ==> r.count == t.count + 1
                                   && (r.session == LongBreak <==> r.count % 4 == 0)
                                   && r.session != Focus
    ensures t.session != Focus ==> r.count == t.count && r.session == Focus
    ensures r.timeLeft == r.durations.Of(r.session)
  {
    var count := if t.session == Focus then t.count + 1 else t.count;
    var next := if t.session == Focus then (if count % 4 == 0 then LongBreak else ShortBreak) else Focus;
    Timer(t.durations.Of(next), false, next, count, t.durations)
  }

  /** One interval callback: one second off, and the session completes once
      the time is used up. A stopped timer has no interval. */
  function Tick(t: Timer): (r: Timer)
    ensures !t.running ==> r == t
    ensures t.running && t.timeLeft - 1 > 0 ==> r == t.(timeLeft := t.timeLeft - 1)
    ensures t.running && t.timeLeft - 1 <= 0 ==> r == Complete(t.(timeLeft := t.timeLeft - 1))
  {
    if !t.running then t
    else
      var u := t.(timeLeft := t.timeLeft - 1);
      if u.timeLeft <= 0 then Complete(u) else u
  }

  /** `setCustomTimes`: store the minutes as seconds; a stopped timer is refilled. */
  function SetCustomTimes(t: Timer, focusMinutes: int, shortMinutes: int, longMinutes: int): (r: Timer)
    ensures r.durations == Durations(focusMinutes * 60, shortMinutes * 60, longMinutes * 60)
    ensures r.running == t.running && r.session == t.session && r.count == t.count
    ensures t.running ==> r.timeLeft == t.timeLeft
    ensures !t.running ==> r.timeLeft == r.durations.Of(t.session)
  {
    var d := Durations(focusMinutes * 60, shortMinutes * 60, longMinutes * 60);
    if t.running then t.(durations := d) else t.(durations := d, timeLeft := d.Of(t.session))
  }

  // ---------------------------------------------------------------------------
  // The cycle
  // ---------------------------------------------------------------------------

  /** The session agrees with the count: a long break only right after a
      multiple of four focus sessions, a short break only otherwise. */
  predicate CycleInvariant(t: Timer) {
    (t.session == LongBreak ==> t.count > 0 && t.count % 4 == 0)
    && (t.session == ShortBreak ==> t.count % 4 != 0)
  }

  lemma InitialInvariant()
    ensures CycleInvariant(Initial)
  {
  }

  /** Every operation keeps the session in step with the count. */
  lemma OperationsKeepInvariant(t: Timer, f: int, s: int, l: int)
    requires CycleInvariant(t)
    ensures CycleInvariant(Start(t)) && CycleInvariant(Pause(t)) && CycleInvariant(Reset(t))
    ensures CycleInvariant(Complete(t)) && CycleInvariant(Tick(t)) && CycleInvariant(SetCustomTimes(t, f, s, l))
  {
  }

  /** `k` interval callbacks in a row. */
  function Ticks(t: Timer, k: nat): Timer
    decreases k
  {
    if k == 0 then t else Ticks(Tick(t), k - 1)
  }

  /** A running session with `n` seconds left (and nothing else happening)
      runs for exactly `n` ticks: after `n - 1` it still runs with one second
      left, and the `n`-th completes it. */
  lemma {:induction false} TicksToCompletion(t: Timer, n: nat)
    requires t.running && t.timeLeft == n && n >= 1
    ensures Ticks(t, n - 1) == t.(timeLeft := 1)
    ensures Ticks(t, n) == Complete(t.(timeLeft := 0))
    decreases n
  {
    if n > 1 {
      var u := Tick(t);
      assert u == t.(timeLeft := n - 1);
      TicksToCompletion(u, n - 1);
      assert Ticks(t, n - 1) == Ticks(u, n - 2);
      assert Ticks(t, n) == Ticks(u, n - 1);
    }
  }

  /** From the start, four focus sessions each followed by its break end on a long break. */
  lemma FourthBreakIsLong()
    ensures var t1 := Complete(Initial);
            var t2 := Complete(Complete(t1));
            var t3 := Complete(Complete(t2));
            var t4 := Complete(Complete(t3));
            t1.session == ShortBreak && t2.session == ShortBreak && t3.session == ShortBreak
            && t4.session == LongBreak && t4.count == 4
  {
  }

  // ---------------------------------------------------------------------------
  // The display
  // ---------------------------------------------------------------------------

  /** JavaScript's `%`: the remainder of the quotient truncated toward zero,
      so it takes the sign of the dividend. */
  function JsRem(a: int, b: int): (r: int)
    requires b > 0
    ensures a >= 0 ==> r == a % b
    ensures a < 0 ==> -b < r <= 0 && a == -(b * ((-a) / b)) + r
  {
    if a >= 0 then a % b
    else
      var q, m := (-a) / b, (-a) % b;
      assert -a == b * q + m;
      -m
  }

  /** `updateDisplay`'s text: `Math.floor(timeLeft / 60)` and `timeLeft % 60`,
      each padded to two characters with zeros. */
  function Display(timeLeft: int): string {
    Pad2(IntToString(timeLeft / 60)) + ":" + Pad2(IntToString(JsRem(timeLeft, 60)))
  }

  /** Below 100 minutes the display is `mm:ss`, and reading the two fields
      back gives the seconds left. */
  lemma DisplayRoundTrip(timeLeft: int)
    requires 0 <= timeLeft < 6000
    ensures var d := Display(timeLeft);
            |d| == 5 && d[2] == ':' && AllDigits(d[..2]) && AllDigits(d[3..])
            && DigitsValue(d[3..]) < 60
            && 60 * DigitsValue(d[..2]) + DigitsValue(d[3..]) == timeLeft
  {
    var m, s := timeLeft / 60, timeLeft % 60;
    assert JsRem(timeLeft, 60) == s;
    Pad2Number(m);
    Pad2Number(s);
    ColonFields(Pad2(NatToString(m)), Pad2(NatToString(s)));
  }

  /** Two two-character fields around a colon, and where they sit. */
  lemma ColonFields(a: string, b: string)
    requires |a| == 2 && |b| == 2
    ensures var d := a + ":" + b;
            |d| == 5 && d[2] == ':' && d[..2] == a && d[3..] == b
  {
  }

  datatype Colour = Danger | Warning | Primary

  /** The timer's colour: danger under a minute, warning under five. */
  function ColourOf(timeLeft: int): (c: Colour)
    ensures c == Danger <==> timeLeft < 60
    ensures c == Warning <==> 60 <= timeLeft < 300
    ensures c == Primary <==> timeLeft >= 300
  {
    if timeLeft < 60 then Danger else if timeLeft < 300 then Warning else Primary
  }

  /** As the seconds run down the colour only moves toward danger. */
  lemma ColourEscalates(a: int, b: int)
    requires b <= a
    ensures ColourOf(a) == Danger ==> ColourOf(b) == Danger
    ensures ColourOf(a) == Warning ==> ColourOf(b) != Primary
  {
  }
}

=== FILE: profile.dfy ===
/** The profile page's derived figures: the user's level as a step function
    of the solved count, the progress toward the next level, the count of
    machines still to solve, and the defaults used when data is missing. */
module Profile {
  import opened Wrappers
  import opened Percent
  import opened Store

  datatype Level = Noob | Hacker | ProHacker | EliteHacker | Guru | Omniscient {
    /** The label the page shows. */
    function Name(): string {
      match this
      case Noob => "Noob"
      case Hacker => "Hacker"
      case ProHacker => "Pro Hacker"
      case EliteHacker => "Elite Hacker"
      case Guru => "Guru"
      case Omniscient => "Omniscient"
    }

    /** Position in the ladder, lowest first. */
    function Rank(): nat {
      match this
      case Noob => 0
      case Hacker => 1
      case ProHacker => 2
      case EliteHacker => 3
      case Guru => 4
      case Omniscient => 5
    }

    /** The fewest solved machines that reach this level. */
    function Floor(): nat {
      match this
      case Noob => 0
      case Hacker => 10
      case ProHacker => 25
      case EliteHacker => 50
      case Guru => 100
      case Omniscient => 200
    }
  }

  /** `calculateUserLevel`: test the thresholds from the highest down and take
      the first one met. The result is the level whose band holds `solved`. */
  function LevelFor(solved: nat): (l: Level)
    ensures l.Floor() <= solved
    ensures forall m: Level :: m.Rank() > l.Rank() ==> solved < m.Floor()
  {
    if solved >= 200 then Omniscient
    else if solved >= 100 then Guru
    else if solved >= 50 then EliteHacker
    else if solved >= 25 then ProHacker
    else if solved >= 10 then Hacker
    else Noob
  }

  /** Floors rise strictly with rank, so at most one band holds a count. */
  lemma FloorsIncrease(a: Level, b: Level)
    requires a.Rank() < b.Rank()
    ensures a.Floor() < b.Floor()
  {
  }

  /** The level of a count is the only one whose band holds it. */
  lemma LevelUnique(solved: nat, l: Level)
    requires l.Floor() <= solved
    requires forall m: Level :: m.Rank() > l.Rank() ==> solved < m.Floor()
    ensures l == LevelFor(solved)
  {
    var k := LevelFor(solved);
    assert k.Rank() <= l.Rank();
    assert l.Rank() <= k.Rank();
  }

  /** Solving more never lowers the level. */
  lemma LevelMonotone(a: nat, b: nat)
    requires a <= b
    ensures LevelFor(a).Rank() <= LevelFor(b).Rank()
  {
    var la := LevelFor(a);
    assert la.Floor() <= b;
  }

  /** The threshold `getLevelProgress` aims at from each level; none past the top. */
  function NextThreshold(l: Level): (r: Option<nat>)
    ensures r.None? <==> l == Omniscient
    ensures r.Some? ==> exists m: Level :: m.Rank() == l.Rank() + 1 && m.Floor() == r.value
  {
    match l
    case Noob => assert Hacker.Rank() == 1; Some(10)
    case Hacker => assert ProHacker.Rank() == 2; Some(25)
    case ProHacker => assert EliteHacker.Rank() == 3; Some(50)
    case EliteHacker => assert Guru.Rank() == 4; Some(100)
    case Guru => assert Omniscient.Rank() == 5; Some(200)
    case Omniscient => None
  }

  /** `getLevelProgress`: 0 without stats, 100 at the top level, otherwise the
      solved count as a share of the next threshold, capped at 100. */
  function LevelProgress(stats: Option<UserStats>, level: Level): (p: real)
    ensures 0.0 <= p <= 100.0
    ensures stats.None? ==> p == 0.0
    ensures stats.Some? && level == Omniscient ==> p == 100.0
    ensures stats.Some? && level != Omniscient ==>
              p == CappedPercent(stats.value.solved, NextThreshold(level).value)
  {
    match stats
    case None => 0.0
    case Some(s) =>
      match NextThreshold(level)
      case None => 100.0
      case Some(next) => CappedPercent(s.solved, next)
  }

  /** While the level matches the count, progress below the top stays under 100. */
  lemma ProgressBelowTop(s: UserStats)
    requires LevelFor(s.solved) != Omniscient
    ensures LevelProgress(Some(s), LevelFor(s.solved)) < 100.0
  {
    var l := LevelFor(s.solved);
    var m: Level :| m.Rank() == l.Rank() + 1 && m.Floor() == NextThreshold(l).value;
  }

  /** Remaining machines on the overall chart, `Math.max(total - solved, 0)`. */
  function Remaining(total: int, solved: nat): (r: nat)
    ensures r + solved >= total
    ensures r == 0 <==> solved >= total
    ensures r > 0 ==> r + solved == total
  {
    if total - solved > 0 then total - solved else 0
  }

  /** The total on the overall chart, `res.totalCount || res.data.length || 0`:
      a failed call or a zero count falls through to the list length, then 0. */
  function TotalMachines(answer: Result<MachinePage>): (n: int)
    ensures answer.Err? ==> n == 0
    ensures answer.Ok? && answer.value.totalCount != 0 ==> n == answer.value.totalCount
    ensures answer.Ok? && answer.value.totalCount == 0 ==> n == |answer.value.data|
  {
    match answer
    case Err(_) => 0
    case Ok(page) => if page.totalCount != 0 then page.totalCount else |page.data|
  }

  /** The profile manager's state. */
  datatype ProfileState = ProfileState(
    stats: Option<UserStats>,
    level: Level,
    difficulty: Option<DifficultyCounts>,
    solvedMachines: seq<Machine>)

  /** The constructor: no stats yet, level Noob, no machines. */
  const Initial := ProfileState(None, Noob, None, [])

  /** `calculateUserLevel` on the state: nothing happens without stats. */
  function RecalculateLevel(p: ProfileState): (r: ProfileState)
    ensures r.stats == p.stats && r.difficulty == p.difficulty && r.solvedMachines == p.solvedMachines
    ensures p.stats.None? ==> r.level == p.level
    ensures p.stats.Some? ==> r.level == LevelFor(p.stats.value.solved)
  {
    match p.stats
    case None => p
    case Some(s) => p.(level := LevelFor(s.solved))
  }

  /** `loadUserProfile` with the gateway's three answers as parameters. With
      no user the figures default to zero and the level is left as it was;
      with a user a successful stats answer replaces the stats and recomputes
      the level, a failed one keeps both, a failed difficulty answer gives
      zeros and a failed machine list gives the empty list. */
  function LoadProfile(p: ProfileState, hasUser: bool, stats: Result<UserStats>,
                       difficulty: Result<DifficultyCounts>, machines: Result<seq<Machine>>): (r: ProfileState)
    ensures !hasUser ==> r == ProfileState(Some(UserStats(0, 0, 0)), p.level, Some(NoCounts), [])
    ensures hasUser && stats.Ok? ==> r.stats == Some(stats.value) && r.level == LevelFor(stats.value.solved)
    ensures hasUser && stats.Err? ==> r.stats == p.stats && r.level == p.level
    ensures hasUser ==> r.difficulty == Some(if difficulty.Ok? then difficulty.value else NoCounts)
    ensures hasUser ==> r.solvedMachines == (if machines.Ok? then machines.value else [])
  {
    if !hasUser then ProfileState(Some(UserStats(0, 0, 0)), p.level, Some(NoCounts), [])
    else
      var withStats := if stats.Ok? then RecalculateLevel(p.(stats := Some(stats.value))) else p;
      withStats.(difficulty := Some(if difficulty.Ok? then difficulty.value else NoCounts),
                 solvedMachines := if machines.Ok? then machines.value else [])
  }

  /** The no-user branch does not recompute the level: a level computed for
      an earlier user survives next to the zeroed stats. */
  lemma NoUserKeepsLevel(p: ProfileState, stats: Result<UserStats>,
                         difficulty: Result<DifficultyCounts>, machines: Result<seq<Machine>>)
    requires p.level == Guru
    ensures var r := LoadProfile(p, false, stats, difficulty, machines);
            r.stats == Some(UserStats(0, 0, 0)) && r.level == Guru && r.level != LevelFor(0)
  {
  }

  /** A zero count is Noob, so the no-user default and the level agree as long
      as the level was still Noob; progress from there is 0. */
  lemma DefaultProgress(p: ProfileState)
    requires p.level == Noob
    ensures var r := LoadProfile(p, false, Err(""), Err(""), Err(""));
            r.level == LevelFor(0) && LevelProgress(r.stats, r.level) == 0.0
  {
    RatioBelow(0, 10);
  }
}

=== FILE: roadmap.dfy ===
/** The certification roadmap: three mock certifications, the one the user
    picked, its completion figures, the three next steps for the current
    tier, and what ticking a machine's checkbox does to all of that. */
module Roadmap {
  import opened Wrappers
  import opened Seqs
  import opened Percent

  /** A preparation machine; the mock data never sets `completed`, which reads as false. */
  datatype RoadmapMachine = RoadmapMachine(id: int, name: string, completed: bool)

  datatype Certification = Certification(id: int, name: string, machinesRequired: nat, machines: seq<RoadmapMachine>)

  const Injection := RoadmapMachine(1, "Injection", false)

  /** `loadCertifications`: OSCP and eJPT list the one mock machine, CEH none. */
  const Certifications: seq<Certification> := [
    Certification(1, "OSCP (Offensive Security Certified Professional)", 40, [Injection]),
    Certification(2, "CEH (Certified Ethical Hacker)", 25, []),
    Certification(3, "eJPT (eLearnSecurity Junior Penetration Tester)", 15, [Injection])
  ]

  /** The manager's state: the list and the position of the selected entry. */
  datatype RoadmapState = RoadmapState(certs: seq<Certification>, selected: Option<nat>)

  predicate ValidState(r: RoadmapState) {
    r.selected.None? || r.selected.value < |r.certs|
  }

  function Selected(r: RoadmapState): (c: Option<Certification>)
    requires ValidState(r)
    ensures c.Some? <==> r.selected.Some?
  {
    if r.selected.Some? then Some(r.certs[r.selected.value]) else None
  }

  function HasId(certId: int): Certification -> bool {
    (c: Certification) => c.id == certId
  }

  /** `selectCertification(parseInt(value))`: the first certification with the
      id, or none; a value that does not parse (`NaN`) matches nothing. */
  function SelectCertification(r: RoadmapState, certId: Option<int>): (s: RoadmapState)
    ensures ValidState(s) && s.certs == r.certs
    ensures certId.None? ==> s.selected.None?
    ensures certId.Some? && s.selected.Some? ==>
              r.certs[s.selected.value].id == certId.value
              && forall j :: 0 <= j < s.selected.value ==> r.certs[j].id != certId.value
    ensures certId.Some? && s.selected.None? ==> forall j :: 0 <= j < |r.certs| ==> r.certs[j].id != certId.value
  {
    match certId
    case None => r.(selected := None)
    case Some(id) =>
      var k := FindIndex(r.certs, HasId(id));
      r.(selected := if k >= 0 then Some(k) else None)
  }

  /** Picking the CEH entry of the mock list selects a certification with no machines. */
  lemma SelectCeh()
    ensures var s := SelectCertification(RoadmapState(Certifications, None), Some(2));
            Selected(s) == Some(Certifications[1]) && |Selected(s).value.machines| == 0
  {
  }

  // ---------------------------------------------------------------------------
  // Progress
  // ---------------------------------------------------------------------------

  datatype Progress = Progress(completed: nat, total: nat, remaining: int, percentage: real)

  function Done(): RoadmapMachine -> bool {
    (m: RoadmapMachine) => m.completed
  }

  /** `calculateProgress`: zeros without a selection; otherwise the completed
      machines, the total, their difference, and `completed / total * 100`
      (0 for an empty list). */
  function CalculateProgress(c: Option<Certification>): (p: Progress)
    ensures c.None? ==> p == Progress(0, 0, 0, 0.0)
    ensures c.Some? ==> p.total == |c.value.machines| && p.completed == |Filter(c.value.machines, Done())|
    ensures p.completed + p.remaining == p.total && p.completed <= p.total
    ensures p.percentage == Share(p.completed, p.total)
  {
    match c
    case None => Progress(0, 0, 0, 0.0)
    case Some(cert) =>
      var total := |cert.machines|;
      var completed := |Filter(cert.machines, Done())|;
      Progress(completed, total, total - completed, Share(completed, total))
  }

  // ---------------------------------------------------------------------------
  // Next steps
  // ---------------------------------------------------------------------------

  datatype Step = Step(order: nat, text: string)

  /** The four advice tiers, by completion percentage. */
  datatype Tier = NotStarted | FirstHalf | SecondHalf | Finished

  function TierOf(percentage: real): (t: Tier)
    ensures t == NotStarted <==> percentage == 0.0
    ensures t == FirstHalf <==> percentage != 0.0 && percentage < 50.0
    ensures t == SecondHalf <==> percentage >= 50.0 && percentage < 100.0
    ensures t == Finished <==> percentage != 0.0 && percentage >= 100.0
  {
    if percentage == 0.0 then NotStarted
    else if percentage < 50.0 then FirstHalf
    else if percentage < 100.0 then SecondHalf
    else Finished
  }

  function StepTexts(t: Tier): (texts: seq<string>)
    ensures |texts| == 3
  {
    match t
    case NotStarted => ["Comienza con las m\U{00E1}quinas f\U{00E1}ciles",
                        "Establece un horario de estudio consistente",
                        "\U{00DA}nete a la comunidad de estudio"]
    case FirstHalf => ["Contin\U{00FA}a con m\U{00E1}quinas de dificultad media",
                       "Practica las t\U{00E9}cnicas aprendidas",
                       "Revisa m\U{00E1}quinas anteriores"]
    case SecondHalf => ["Enf\U{00F3}cate en m\U{00E1}quinas dif\U{00ED}ciles",
                        "Realiza ejercicios de tiempo",
                        "Prepara el examen final"]
    case Finished => ["\U{00A1}Certificaci\U{00F3}n completada!",
                      "Prepara tu examen oficial",
                      "Comparte tu experiencia"]
  }

  /** `getNextSteps`: nothing without a selection, otherwise three steps
      numbered 1 to 3 taken from the tier of the current percentage. */
  function NextSteps(c: Option<Certification>): (steps: seq<Step>)
    ensures c.None? ==> steps == []
    ensures c.Some? ==> |steps| == 3
    ensures c.Some? ==> forall i :: 0 <= i < 3 ==>
              steps[i] == Step(i + 1, StepTexts(TierOf(CalculateProgress(c).percentage))[i])
  {
    if c.None? then []
    else
      var texts := StepTexts(TierOf(CalculateProgress(c).percentage));
      [Step(1, texts[0]), Step(2, texts[1]), Step(3, texts[2])]
  }

  /** The tier in terms of machine counts: not started until one is done (an
      empty list never starts), the first half while fewer than half are done,
      finished only with every machine done. */
  lemma TierByCounts(c: Certification)
    ensures var p := CalculateProgress(Some(c));
            (TierOf(p.percentage) == NotStarted <==> p.completed == 0)
            && (TierOf(p.percentage) == FirstHalf <==> 0 < p.completed && 2 * p.completed < p.total)
            && (TierOf(p.percentage) == Finished <==> 0 < p.total && p.completed == p.total)
  {
    var p := CalculateProgress(Some(c));
    var _ := Share(p.completed, p.total);
  }

  // ---------------------------------------------------------------------------
  // Ticking a machine
  // ---------------------------------------------------------------------------

  datatype Toggle = Toggle(state: RoadmapState, progress: Progress, notice: bool)

  /** `updateMachineProgress` as written: the checkbox only restyles its row
      and the progress is recomputed from the certification's machine data,
      which nothing updates; the completion notice fires iff that progress
      is 100 percent. */
  function UpdateMachineProgressAsWritten(r: RoadmapState, machineId: int, isCompleted: bool): (t: Toggle)
    requires ValidState(r)
    ensures t.state == r
    ensures t.progress == CalculateProgress(Selected(r))
    ensures t.notice <==> t.progress.percentage == 100.0
  {
    var p := CalculateProgress(Selected(r));
    Toggle(r, p, p.percentage == 100.0)
  }

  /** Whatever is ticked, the figures shown after the toggle are those from before. */
  lemma ToggleNeverMovesProgress(r: RoadmapState, machineId: int, isCompleted: bool)
    requires ValidState(r)
    ensures UpdateMachineProgressAsWritten(r, machineId, isCompleted).progress == CalculateProgress(Selected(r))
    ensures CalculateProgress(Selected(UpdateMachineProgressAsWritten(r, machineId, isCompleted).state))
            == CalculateProgress(Selected(r))
  {
  }

  /** Mark every machine with the id as completed or not. */
  function SetCompleted(ms: seq<RoadmapMachine>, machineId: int, isCompleted: bool): (r: seq<RoadmapMachine>)
    ensures |r| == |ms|
    ensures forall i :: 0 <= i < |ms| ==>
              r[i] == if ms[i].id == machineId then ms[i].(completed := isCompleted) else ms[i]
  {
    seq(|ms|, i requires 0 <= i < |ms| => if ms[i].id == machineId then ms[i].(completed := isCompleted) else ms[i])
  }

  /** The toggle as evidently intended: the selected certification's machine
      with the id takes the checkbox's state before progress is recomputed,
      so the figures and the completion notice follow the ticks. */
  function UpdateMachineProgress(r: RoadmapState, machineId: int, isCompleted: bool): (t: Toggle)
    requires ValidState(r)
    ensures ValidState(t.state) && t.state.selected == r.selected && |t.state.certs| == |r.certs|
    ensures r.selected.None? ==> t.state == r
    ensures r.selected.Some? ==>
              var k := r.selected.value;
              t.state.certs[k].machines == SetCompleted(r.certs[k].machines, machineId, isCompleted)
              && forall j :: 0 <= j < |r.certs| && j != k ==> t.state.certs[j] == r.certs[j]
    ensures t.progress == CalculateProgress(Selected(t.state))
    ensures t.notice <==> t.progress.percentage == 100.0
  {
    match r.selected
    case None =>
      var p := CalculateProgress(None);
      Toggle(r, p, p.percentage == 100.0)
    case Some(k) =>
      var c := r.certs[k];
      var s := r.(certs := r.certs[k := c.(machines := SetCompleted(c.machines, machineId, isCompleted))]);
      var p := CalculateProgress(Selected(s));
      Toggle(s, p, p.percentage == 100.0)
  }

  /** Ticking every machine of the selection (one at a time) finishes it. */
  lemma {:induction false} TickAllFinishes(ms: seq<RoadmapMachine>)
    requires forall i :: 0 <= i < |ms| ==> ms[i].completed
    ensures Filter(ms, Done()) == ms
  {
    FilterAll(ms, Done());
  }

  /** The one-machine OSCP roadmap: ticking its machine should complete the
      certification and raise the notice; as written the figures stay at 0
      and no notice fires. */
  lemma OscpTick()
    ensures var r := RoadmapState(Certifications, Some(0));
            var asWritten := UpdateMachineProgressAsWritten(r, 1, true);
            var intended := UpdateMachineProgress(r, 1, true);
            asWritten.progress.percentage == 0.0 && !asWritten.notice
            && intended.progress.percentage == 100.0 && intended.notice
  {
    var r := RoadmapState(Certifications, Some(0));
    assert Filter([Injection], Done()) == [];
    var intended := UpdateMachineProgress(r, 1, true);
    assert intended.state.certs[0].machines == [Injection.(completed := true)];
    assert Filter([Injection.(completed := true)], Done()) == [Injection.(completed := true)];
  }
}

=== FILE: seqs.dfy ===
/** Array operations the source takes from JavaScript: `filter`, `findIndex`
    followed by `splice(idx, 1)`, and the order-preserving sub-list relation
    they establish. */
module Seqs {

  /** `a` is obtained from `b` by deleting elements, keeping the order of the rest. */
  predicate IsSubsequence<T(==,!new)>(a: seq<T>, b: seq<T>)
    decreases |b|
  {
    |a| == 0 || (|b| > 0 && ((a[0] == b[0] && IsSubsequence(a[1..], b[1..])) || IsSubsequence(a, b[1..])))
  }

  /** `xs.filter(p)`: the elements satisfying `p`, in their original order. */
  function Filter<T(==,!new)>(xs: seq<T>, p: T -> bool): (r: seq<T>)
    ensures |r| <= |xs|
    ensures forall x :: x in r <==> x in xs && p(x)
    ensures IsSubsequence(r, xs)
    ensures multiset(r) <= multiset(xs)
  {
    if |xs| == 0 then []
    else
      assert xs == [xs[0]] + xs[1..];
      var rest := Filter(xs[1..], p);
      if p(xs[0]) then
        assert ([xs[0]] + rest)[1..] == rest;
        [xs[0]] + rest
      else
        assert rest == [] || IsSubsequence(rest, xs[1..]);
        rest
  }

  /** Filtering keeps every copy of a passing element and none of a failing
      one: duplicates are neither merged nor dropped. */
  lemma {:induction false} FilterCount<T(!new)>(xs: seq<T>, p: T -> bool, x: T)
    ensures multiset(Filter(xs, p))[x] == if p(x) then multiset(xs)[x] else 0
    decreases |xs|
  {
    if |xs| > 0 {
      assert xs == [xs[0]] + xs[1..];
      FilterCount(xs[1..], p, x);
    }
  }

  lemma FilterCounts<T(!new)>(xs: seq<T>, p: T -> bool)
    ensures forall x :: multiset(Filter(xs, p))[x] == if p(x) then multiset(xs)[x] else 0
  {
    forall x ensures multiset(Filter(xs, p))[x] == if p(x) then multiset(xs)[x] else 0 {
      FilterCount(xs, p, x);
    }
  }

  /** The negation of a test. */
  function Not<T>(p: T -> bool): T -> bool {
    (x: T) => !p(x)
  }

  /** Filtering by a test and by its negation splits a sequence: each element
      lands in exactly one of the two results. */
  lemma {:induction false} FilterSplit<T(!new)>(xs: seq<T>, p: T -> bool)
    ensures multiset(Filter(xs, p)) + multiset(Filter(xs, Not(p))) == multiset(xs)
    decreases |xs|
  {
    if |xs| > 0 {
      var tail := xs[1..];
      FilterSplit(tail, p);
      var a1, b1 := multiset(Filter(tail, p)), multiset(Filter(tail, Not(p)));
      var x := multiset{xs[0]};
      assert multiset(xs) == x + multiset(tail) by {
        assert xs == [xs[0]] + tail;
      }
      if p(xs[0]) {
        FilterKeepsHead(xs, p);
        FilterDropsHead(xs, Not(p));
        Regather(x, multiset{}, a1, b1, x);
      } else {
        FilterDropsHead(xs, p);
        FilterKeepsHead(xs, Not(p));
        Regather(multiset{}, x, a1, b1, x);
      }
    }
  }

  lemma FilterKeepsHead<T(!new)>(xs: seq<T>, p: T -> bool)
    requires |xs| > 0 && p(xs[0])
    ensures multiset(Filter(xs, p)) == multiset{xs[0]} + multiset(Filter(xs[1..], p))
  {
    var rest := Filter(xs[1..], p);
    assert Filter(xs, p) == [xs[0]] + rest;
    assert multiset([xs[0]] + rest) == multiset{xs[0]} + multiset(rest);
  }

  lemma FilterDropsHead<T(!new)>(xs: seq<T>, p: T -> bool)
    requires |xs| > 0 && !p(xs[0])
    ensures multiset(Filter(xs, p)) == multiset{} + multiset(Filter(xs[1..], p))
  {
  }

  /** Multiset sums regroup freely. */
  lemma Regather<T>(a: multiset<T>, b: multiset<T>, c: multiset<T>, d: multiset<T>, e: multiset<T>)
    requires a + b == e
    ensures (a + c) + (b + d) == e + (c + d)
  {
  }

  /** Filtering a concatenation filters each part. */
  lemma {:induction false} FilterAppend<T(!new)>(a: seq<T>, b: seq<T>, p: T -> bool)
    ensures Filter(a + b, p) == Filter(a, p) + Filter(b, p)
    decreases |a|
  {
    if |a| > 0 {
      assert (a + b)[0] == a[0] && (a + b)[1..] == a[1..] + b;
      FilterAppend(a[1..], b, p);
      if p(a[0]) {
        assert Filter(a, p) == [a[0]] + Filter(a[1..], p);
        assert Filter(a + b, p) == [a[0]] + Filter(a[1..] + b, p);
      }
    } else {
      assert a + b == b;
    }
  }

  /** A filter that keeps everything returns the list itself. */
  lemma {:induction false} FilterAll<T(!new)>(xs: seq<T>, p: T -> bool)
    requires forall x :: x in xs ==> p(x)
    ensures Filter(xs, p) == xs
    decreases |xs|
  {
    if |xs| > 0 {
      FilterAll(xs[1..], p);
    }
  }

  /** A filter that keeps nothing returns the empty list. */
  lemma {:induction false} FilterNone<T(!new)>(xs: seq<T>, p: T -> bool)
    requires forall x :: x in xs ==> !p(x)
    ensures Filter(xs, p) == []
    decreases |xs|
  {
    if |xs| > 0 {
      FilterNone(xs[1..], p);
    }
  }

  /** Filters by predicates that agree on the list's elements agree. */
  lemma {:induction false} FilterCongruent<T(!new)>(xs: seq<T>, p: T -> bool, q: T -> bool)
    requires forall x :: x in xs ==> p(x) == q(x)
    ensures Filter(xs, p) == Filter(xs, q)
    decreases |xs|
  {
    if |xs| > 0 {
      FilterCongruent(xs[1..], p, q);
    }
  }

  /** `xs.findIndex(p)`: the first index whose element satisfies `p`, or -1. */
  function FindIndex<T(!new)>(xs: seq<T>, p: T -> bool): (r: int)
    ensures -1 <= r < |xs|
    ensures r >= 0 ==> p(xs[r]) && forall j :: 0 <= j < r ==> !p(xs[j])
    ensures r == -1 ==> forall j :: 0 <= j < |xs| ==> !p(xs[j])
  {
    if |xs| == 0 then -1
    else if p(xs[0]) then 0
    else
      var k := FindIndex(xs[1..], p);
      if k == -1 then -1 else k + 1
  }

  /** Appending an element leaves an earlier first match where it was, and
      otherwise the new element is the first match exactly when it passes. */
  lemma FindIndexSnoc<T(!new)>(xs: seq<T>, x: T, p: T -> bool)
    ensures FindIndex(xs, p) >= 0 ==> FindIndex(xs + [x], p) == FindIndex(xs, p)
    ensures FindIndex(xs, p) == -1 ==> FindIndex(xs + [x], p) == if p(x) then |xs| else -1
  {
    var k, r := FindIndex(xs, p), FindIndex(xs + [x], p);
    if k >= 0 {
      assert (xs + [x])[k] == xs[k];
    } else if p(x) {
      assert (xs + [x])[|xs|] == x;
    }
  }

  /** `idx = xs.findIndex(p); if (idx >= 0) xs.splice(idx, 1)`: drop the first match, if any. */
  function RemoveFirst<T(!new)>(xs: seq<T>, p: T -> bool): (r: seq<T>)
    ensures FindIndex(xs, p) == -1 ==> r == xs
    ensures FindIndex(xs, p) >= 0 ==>
              var k := FindIndex(xs, p); |r| == |xs| - 1 && r == xs[..k] + xs[k + 1..]
  {
    var k := FindIndex(xs, p);
    if k >= 0 then xs[..k] + xs[k + 1..] else xs
  }

  /** The element removed is the first match. */
  lemma RemoveFirstAt<T(!new)>(xs: seq<T>, p: T -> bool, i: int)
    requires 0 <= i < |xs| && p(xs[i])
    requires forall j :: 0 <= j < i ==> !p(xs[j])
    ensures RemoveFirst(xs, p) == xs[..i] + xs[i + 1..]
  {
    var k := FindIndex(xs, p);
    assert k == i;
  }

  /** Removing the first match keeps every other element, in order. */
  lemma RemoveFirstSubsequence<T(!new)>(xs: seq<T>, p: T -> bool)
    ensures IsSubsequence(RemoveFirst(xs, p), xs)
    ensures multiset(RemoveFirst(xs, p)) <= multiset(xs)
  {
    var k := FindIndex(xs, p);
    if k >= 0 {
      SkipOneSubsequence(xs, k);
      assert xs == xs[..k] + [xs[k]] + xs[k + 1..];
    }
    SubsequenceRefl(xs);
  }

  lemma {:induction false} SubsequenceRefl<T(!new)>(xs: seq<T>)
    ensures IsSubsequence(xs, xs)
    decreases |xs|
  {
    if |xs| > 0 {
      SubsequenceRefl(xs[1..]);
    }
  }

  lemma {:induction false} SkipOneSubsequence<T(!new)>(xs: seq<T>, k: nat)
    requires k < |xs|
    ensures IsSubsequence(xs[..k] + xs[k + 1..], xs)
    decreases k
  {
    var r := xs[..k] + xs[k + 1..];
    if k == 0 {
      assert r == xs[1..];
      SubsequenceRefl(xs[1..]);
    } else {
      assert r[0] == xs[0];
      assert r[1..] == xs[1..][..k - 1] + xs[1..][k..];
      SkipOneSubsequence(xs[1..], k - 1);
    }
  }
}

=== FILE: store.dfy ===
/** The data gateway's local fallbacks and the aggregates derived from them.
    When the hosted backend is unreachable each gateway call falls back to a
    per-user status map (machine id to status) and a per-user calendar list kept
    in browser storage; both are in-memory values here. The backend itself is an
    oracle: its answer arrives as a parameter. */
module Store {
  import opened Wrappers
  import opened Text
  import opened Seqs
  import opened Percent

  // ---------------------------------------------------------------------------
  // Machines and the demo catalogue
  // ---------------------------------------------------------------------------

  datatype Machine = Machine(
    id: int,
    name: string,
    difficulty: string,
    os: string,
    certifications: seq<string>,
    video: string,
    image: string)

  /** The two demo machines served whenever the backend has none. */
  const DemoMachines: seq<Machine> := [
    Machine(1, "Injection", "Muy F\U{00E1}cil", "Linux", ["OSCP"], "NmDQvmCgkv8", ""),
    Machine(2, "ICA_1", "F\U{00E1}cil", "Linux", ["OSCP"], "", "")
  ]

  /** The machine with id `id`, the first one when several share it (`find`). */
  function FindMachine(ms: seq<Machine>, id: int): (r: Option<Machine>)
    ensures r.Some? ==> r.value in ms && r.value.id == id
    ensures r.None? <==> forall i :: 0 <= i < |ms| ==> ms[i].id != id
  {
    if |ms| == 0 then None
    else if ms[0].id == id then Some(ms[0])
    else FindMachine(ms[1..], id)
  }

  predicate DistinctIds(ms: seq<Machine>) {
    forall i, j :: 0 <= i < j < |ms| ==> ms[i].id != ms[j].id
  }

  // ---------------------------------------------------------------------------
  // Per-user status map
  // ---------------------------------------------------------------------------

  /** A user's progress on one machine. The map stores the status names
      'none', 'deseada' (wanted) and 'resuelta' (solved). */
  datatype Status = NoStatus | Wanted | Solved {
    function Name(): (s: string)
      ensures |s| > 0
    {
      match this
      case NoStatus => "none"
      case Wanted => "deseada"
      case Solved => "resuelta"
    }
  }

  /** The stored name determines the status. */
  lemma StatusNameInjective(a: Status, b: Status)
    ensures a.Name() == b.Name() <==> a == b
  {
  }

  type StatusMap = map<int, Status>

  /** The storage of every user: one status map per user id. */
  type StatusStore = map<string, StatusMap>

  function UserMap(st: StatusStore, user: string): StatusMap {
    if user in st then st[user] else map[]
  }

  /** Fallback of `getUserMachineStatus`: the stored status, `None` when the
      machine has no entry. A stored 'none' is a non-empty string and is returned. */
  function ReadStatus(st: StatusStore, user: string, machineId: int): (r: Option<Status>)
    ensures r.Some? <==> machineId in UserMap(st, user)
    ensures r.Some? ==> r.value == UserMap(st, user)[machineId]
  {
    var m := UserMap(st, user);
    if machineId in m then Some(m[machineId]) else None
  }

  /** Fallback of `updateUserMachineStatus`: overwrite the machine's entry in
      the user's map, whatever it held. */
  function WriteStatus(st: StatusStore, user: string, machineId: int, s: Status): (r: StatusStore)
    ensures user in r && machineId in r[user] && r[user][machineId] == s
    ensures forall u :: u in st && u != user ==> u in r && r[u] == st[u]
    ensures forall u :: u in r ==> u in st || u == user
    ensures forall k :: k in UserMap(st, user) && k != machineId ==>
              k in r[user] && r[user][k] == UserMap(st, user)[k]
    ensures r[user].Keys == UserMap(st, user).Keys + {machineId}
  {
    st[user := UserMap(st, user)[machineId := s]]
  }

  /** A read after a write returns the written status, 'none' included. */
  lemma ReadAfterWrite(st: StatusStore, user: string, machineId: int, s: Status)
    ensures ReadStatus(WriteStatus(st, user, machineId, s), user, machineId) == Some(s)
  {
  }

  /** A write leaves every other machine and every other user as it was. */
  lemma WriteFrame(st: StatusStore, user: string, machineId: int, s: Status, u: string, k: int)
    requires u != user || k != machineId
    ensures ReadStatus(WriteStatus(st, user, machineId, s), u, k) == ReadStatus(st, u, k)
  {
  }

  // ---------------------------------------------------------------------------
  // Solved / wanted counts
  // ---------------------------------------------------------------------------

  /** The machines whose stored status is `s`. */
  function WithStatus(m: StatusMap, s: Status): (ids: set<int>)
    ensures ids <= m.Keys
    ensures forall k :: k in ids <==> k in m && m[k] == s
  {
    set k | k in m.Keys && m[k] == s
  }

  /** The machines marked solved: the ids of the 'resuelta' entries. */
  function SolvedIds(m: StatusMap): set<int> {
    WithStatus(m, Solved)
  }

  datatype UserStats = UserStats(solved: nat, wanted: nat, total: nat)

  lemma {:induction false} SubsetCard(a: set<int>, b: set<int>)
    requires a <= b
    ensures |a| <= |b|
  {
    assert b == a + (b - a);
  }

  /** Fallback of `getUserStats`: count the 'resuelta' and the 'deseada' values.
      'none' entries count toward neither, so the sum never exceeds the map size. */
  function Stats(m: StatusMap): (r: UserStats)
    ensures r.solved == |WithStatus(m, Solved)| && r.wanted == |WithStatus(m, Wanted)|
    ensures r.total == r.solved + r.wanted
    ensures r.total + |WithStatus(m, NoStatus)| == |m|
  {
    var s, w, n := WithStatus(m, Solved), WithStatus(m, Wanted), WithStatus(m, NoStatus);
    assert m.Keys == s + w + n;
    assert s * w == {} && (s + w) * n == {};
    UserStats(|s|, |w|, |s| + |w|)
  }

  /** How one write moves a status count: the overwritten entry leaves its
      status's count, the new status gains one. */
  lemma CountAfterWrite(m: StatusMap, id: int, s: Status, v: Status)
    ensures |WithStatus(m[id := s], v)|
            == |WithStatus(m, v)| - (if id in m && m[id] == v then 1 else 0) + (if s == v then 1 else 0)
  {
    var rest := WithStatus(m, v) - {id};
    RemoveCount(WithStatus(m, v), id);
    WriteSplit(m, id, s, v);
    if s == v {
      AddCount(rest, id);
    }
  }

  /** After the write, the machines with status `v` are the old ones other
      than `id`, plus `id` when `v` was written. */
  lemma WriteSplit(m: StatusMap, id: int, s: Status, v: Status)
    ensures WithStatus(m[id := s], v) == (WithStatus(m, v) - {id}) + (if s == v then {id} else {})
  {
  }

  lemma RemoveCount(a: set<int>, x: int)
    ensures |a - {x}| == |a| - (if x in a then 1 else 0)
  {
    if x in a {
      assert a == (a - {x}) + {x};
    } else {
      assert a - {x} == a;
    }
  }

  lemma AddCount(a: set<int>, x: int)
    requires x !in a
    ensures |a + {x}| == |a| + 1
  {
  }

  /** Marking an unsolved machine solved raises the solved count by exactly one. */
  lemma SolvingCountsOnce(m: StatusMap, id: int)
    requires id !in m || m[id] != Solved
    ensures Stats(m[id := Solved]).solved == Stats(m).solved + 1
    ensures Stats(m[id := Solved]).wanted == Stats(m).wanted - (if id in m && m[id] == Wanted then 1 else 0)
  {
    CountAfterWrite(m, id, Solved, Solved);
    CountAfterWrite(m, id, Solved, Wanted);
  }

  // ---------------------------------------------------------------------------
  // Difficulty bucketing
  // ---------------------------------------------------------------------------

  datatype Tier = Facil | Media | Dificil | Insane

  /** The four counters of `getSolvedByDifficulty`. */
  datatype DifficultyCounts = DifficultyCounts(facil: nat, media: nat, dificil: nat, insane: nat) {
    function Sum(): nat {
      facil + media + dificil + insane
    }

    function Of(t: Tier): nat {
      match t
      case Facil => facil
      case Media => media
      case Dificil => dificil
      case Insane => insane
    }

    function Bump(t: Tier): (r: DifficultyCounts)
      ensures r.Of(t) == Of(t) + 1
      ensures forall u :: u != t ==> r.Of(u) == Of(u)
    {
      match t
      case Facil => this.(facil := facil + 1)
      case Media => this.(media := media + 1)
      case Dificil => this.(dificil := dificil + 1)
      case Insane => this.(insane := insane + 1)
    }
  }

  const NoCounts := DifficultyCounts(0, 0, 0, 0)

  const FacilAccent: string := "f\U{00E1}cil"
  const DificilAccent: string := "dif\U{00ED}cil"

  predicate SaysFacil(d: string) {
    Contains(d, FacilAccent) || Contains(d, "facil")
  }

  predicate SaysDificil(d: string) {
    Contains(d, DificilAccent) || Contains(d, "dificil")
  }

  /** The bucket of a difficulty label: case-insensitive keyword search in the
      order fácil, media, difícil, insane; the first hit wins, no hit counts nowhere. */
  function TierOf(difficulty: string): (r: Option<Tier>)
    ensures r.None? <==> !SaysFacil(Lower(difficulty)) && !Contains(Lower(difficulty), "media")
                         && !SaysDificil(Lower(difficulty)) && !Contains(Lower(difficulty), "insane")
    ensures SaysFacil(Lower(difficulty)) ==> r == Some(Facil)
    ensures r == Some(Media) ==> !SaysFacil(Lower(difficulty))
    ensures r == Some(Dificil) ==> !SaysFacil(Lower(difficulty)) && !Contains(Lower(difficulty), "media")
    ensures r == Some(Insane) ==> Contains(Lower(difficulty), "insane")
  {
    var d := Lower(difficulty);
    if SaysFacil(d) then Some(Facil)
    else if Contains(d, "media") then Some(Media)
    else if SaysDificil(d) then Some(Dificil)
    else if Contains(d, "insane") then Some(Insane)
    else None
  }

  /** The machines of `ms` that land in bucket `t`. */
  function CountTier(ms: seq<Machine>, t: Tier): (n: nat)
    ensures n <= |ms|
  {
    if |ms| == 0 then 0
    else (if TierOf(ms[0].difficulty) == Some(t) then 1 else 0) + CountTier(ms[1..], t)
  }

  function CountUnbucketed(ms: seq<Machine>): nat {
    if |ms| == 0 then 0
    else (if TierOf(ms[0].difficulty).None? then 1 else 0) + CountUnbucketed(ms[1..])
  }

  /** One pass over the machines, bumping the counter of each one's bucket.
      Each machine counts in at most one bucket. */
  function Tally(ms: seq<Machine>): (c: DifficultyCounts)
    ensures forall t :: c.Of(t) == CountTier(ms, t)
    ensures c.Sum() + CountUnbucketed(ms) == |ms|
  {
    if |ms| == 0 then NoCounts
    else
      var rest := Tally(ms[1..]);
      match TierOf(ms[0].difficulty)
      case None => rest
      case Some(t) => rest.Bump(t)
  }

  /** Machines of a list with distinct ids, all drawn from `ids`, are at most `|ids|` many. */
  lemma {:induction false} DistinctIdsBound(ms: seq<Machine>, ids: set<int>)
    requires DistinctIds(ms)
    requires forall i :: 0 <= i < |ms| ==> ms[i].id in ids
    ensures |ms| <= |ids|
    decreases |ms|
  {
    if |ms| > 0 {
      DistinctIdsBound(ms[1..], ids - {ms[0].id});
    }
  }

  function IdIn(ids: set<int>): Machine -> bool {
    (x: Machine) => x.id in ids
  }

  /** The demo machines the status map marks solved (fallback of `getUserSolvedMachines`). */
  function SolvedDemoMachines(m: StatusMap): (r: seq<Machine>)
    ensures IsSubsequence(r, DemoMachines)
    ensures forall x :: x in r <==> x in DemoMachines && x.id in SolvedIds(m)
  {
    Filter(DemoMachines, IdIn(SolvedIds(m)))
  }

  /** A machine in front of machines with other ids keeps the ids distinct. */
  lemma ConsDistinct(x: Machine, rest: seq<Machine>)
    requires DistinctIds(rest)
    requires forall j :: 0 <= j < |rest| ==> rest[j].id != x.id
    ensures DistinctIds([x] + rest)
  {
    var r := [x] + rest;
    forall i, j | 0 <= i < j < |r| ensures r[i].id != r[j].id {
      assert r[j] == rest[j - 1];
      if i > 0 {
        assert r[i] == rest[i - 1];
      }
    }
  }

  lemma {:induction false} FilterKeepsDistinct(ms: seq<Machine>, p: Machine -> bool)
    requires DistinctIds(ms)
    ensures DistinctIds(Filter(ms, p))
    decreases |ms|
  {
    if |ms| > 0 {
      var tail := ms[1..];
      assert DistinctIds(tail) by {
        forall i, j | 0 <= i < j < |tail| ensures tail[i].id != tail[j].id {
          assert tail[i] == ms[i + 1] && tail[j] == ms[j + 1];
        }
      }
      FilterKeepsDistinct(tail, p);
      var rest := Filter(tail, p);
      if p(ms[0]) {
        forall j | 0 <= j < |rest| ensures rest[j].id != ms[0].id {
          assert rest[j] in tail;
          var k :| 0 <= k < |tail| && tail[k] == rest[j];
          assert ms[k + 1] == rest[j];
        }
        ConsDistinct(ms[0], rest);
      }
    }
  }

  /** Machines with distinct ids, filtered by membership of their id in a
      set, are no more than the set. */
  lemma FilteredBound(ms: seq<Machine>, ids: set<int>)
    requires DistinctIds(ms)
    ensures |Filter(ms, IdIn(ids))| <= |ids|
  {
    FilterKeepsDistinct(ms, IdIn(ids));
    var r := Filter(ms, IdIn(ids));
    forall i | 0 <= i < |r| ensures r[i].id in ids {
      assert r[i] in r;
    }
    DistinctIdsBound(r, ids);
  }

  lemma DemoDistinct()
    ensures DistinctIds(DemoMachines)
  {
  }

  /** At most one demo machine per solved id. */
  lemma SolvedDemoBound(m: StatusMap)
    ensures |SolvedDemoMachines(m)| <= |SolvedIds(m)|
  {
    DemoDistinct();
    FilteredBound(DemoMachines, SolvedIds(m));
  }

  /** Fallback of `getSolvedByDifficulty`: bucket the solved demo machines.
      The buckets never add up to more than the machines marked solved, and
      nothing solved gives all zeros. */
  function SolvedByDifficultyFallback(m: StatusMap): (c: DifficultyCounts)
    ensures c.Sum() <= |SolvedIds(m)|
    ensures forall t :: c.Of(t) == CountTier(SolvedDemoMachines(m), t)
    ensures |SolvedIds(m)| == 0 ==> c == NoCounts
  {
    SolvedDemoBound(m);
    Tally(SolvedDemoMachines(m))
  }

  /** Backend path of `getSolvedByDifficulty`: no solved ids gives zeros without
      a second query; otherwise the returned machines are bucketed. */
  function SolvedByDifficultyBackend(solvedIds: seq<int>, machines: seq<Machine>): (c: DifficultyCounts)
    ensures |solvedIds| == 0 ==> c == NoCounts
    ensures |solvedIds| > 0 ==> c.Sum() <= |machines| && forall t :: c.Of(t) == CountTier(machines, t)
  {
    if |solvedIds| == 0 then NoCounts else Tally(machines)
  }

  // ---------------------------------------------------------------------------
  // Certification progress
  // ---------------------------------------------------------------------------

  /** One row of `getCertificationProgress`. */
  datatype CertRow = CertRow(name: string, total: nat, solved: nat, pct: nat)

  /** Certification `c` occurs among the pairs. */
  predicate HasName(occ: seq<(string, bool)>, c: string) {
    exists j :: 0 <= j < |occ| && occ[j].0 == c
  }

  /** Some machine of `ms` lists certification `c`. */
  predicate Lists(ms: seq<Machine>, c: string) {
    exists i :: 0 <= i < |ms| && c in ms[i].certifications
  }

  lemma HasNameAppend(a: seq<(string, bool)>, b: seq<(string, bool)>)
    ensures forall c :: HasName(a + b, c) <==> HasName(a, c) || HasName(b, c)
  {
    forall c | HasName(a + b, c) ensures HasName(a, c) || HasName(b, c) {
      var j :| 0 <= j < |a + b| && (a + b)[j].0 == c;
      if j >= |a| {
        assert b[j - |a|].0 == c;
      }
    }
    forall c | HasName(a, c) ensures HasName(a + b, c) {
      var j :| 0 <= j < |a| && a[j].0 == c;
      assert (a + b)[j].0 == c;
    }
    forall c | HasName(b, c) ensures HasName(a + b, c) {
      var j :| 0 <= j < |b| && b[j].0 == c;
      assert (a + b)[|a| + j].0 == c;
    }
  }

  lemma HasNameSingle(occ: seq<(string, bool)>)
    requires |occ| == 1
    ensures forall c :: HasName(occ, c) <==> c == occ[0].0
  {
    assert HasName(occ, occ[0].0);
  }

  lemma ListsCons(ms: seq<Machine>)
    requires |ms| > 0
    ensures forall c :: Lists(ms, c) <==> c in ms[0].certifications || Lists(ms[1..], c)
  {
    forall c | Lists(ms, c) ensures c in ms[0].certifications || Lists(ms[1..], c) {
      var i :| 0 <= i < |ms| && c in ms[i].certifications;
      if i > 0 {
        assert c in ms[1..][i - 1].certifications;
      }
    }
    forall c | Lists(ms[1..], c) ensures Lists(ms, c) {
      var i :| 0 <= i < |ms[1..]| && c in ms[1..][i].certifications;
      assert c in ms[i + 1].certifications;
    }
  }

  /** The pairs contributed by one machine. */
  function MachineOccurrences(m: Machine, solved: set<int>): (occ: seq<(string, bool)>)
    ensures |occ| == |m.certifications|
    ensures forall k :: 0 <= k < |occ| ==> occ[k] == (m.certifications[k], m.id in solved)
    ensures forall c :: HasName(occ, c) <==> c in m.certifications
  {
    var occ := seq(|m.certifications|, k requires 0 <= k < |m.certifications| => (m.certifications[k], m.id in solved));
    assert forall c :: c in m.certifications ==> HasName(occ, c) by {
      forall c | c in m.certifications ensures HasName(occ, c) {
        var k :| 0 <= k < |m.certifications| && m.certifications[k] == c;
        assert occ[k].0 == c;
      }
    }
    occ
  }

  /** Every (certification, machine solved?) pair, machine by machine. A
      certification listed twice on one machine counts twice. */
  function CertOccurrences(ms: seq<Machine>, solved: set<int>): (occ: seq<(string, bool)>)
    ensures forall c :: HasName(occ, c) <==> Lists(ms, c)
  {
    if |ms| == 0 then []
    else
      var head := MachineOccurrences(ms[0], solved);
      var rest := CertOccurrences(ms[1..], solved);
      HasNameAppend(head, rest);
      ListsCons(ms);
      head + rest
  }

  /** Occurrences of certification `c`, and of `c` on a solved machine. */
  function CountCert(occ: seq<(string, bool)>, c: string): (n: nat)
    ensures n <= |occ|
    ensures n >= 1 <==> HasName(occ, c)
  {
    if |occ| == 0 then 0
    else
      HasNameAppend([occ[0]], occ[1..]);
      assert [occ[0]] + occ[1..] == occ;
      assert HasName([occ[0]], c) <==> occ[0].0 == c;
      (if occ[0].0 == c then 1 else 0) + CountCert(occ[1..], c)
  }

  function CountSolvedCert(occ: seq<(string, bool)>, c: string): (n: nat)
    ensures n <= CountCert(occ, c)
  {
    if |occ| == 0 then 0
    else (if occ[0].0 == c && occ[0].1 then 1 else 0) + CountSolvedCert(occ[1..], c)
  }

  /** How many times the machines list certification `c`, duplicates included. */
  function Listings(ms: seq<Machine>, c: string): nat {
    if |ms| == 0 then 0 else multiset(ms[0].certifications)[c] + Listings(ms[1..], c)
  }

  /** How many of those listings are on a machine whose id is solved. */
  function SolvedListings(ms: seq<Machine>, solved: set<int>, c: string): nat {
    if |ms| == 0 then 0
    else (if ms[0].id in solved then multiset(ms[0].certifications)[c] else 0) + SolvedListings(ms[1..], solved, c)
  }

  lemma {:induction false} CountCertAppend(a: seq<(string, bool)>, b: seq<(string, bool)>, c: string)
    ensures CountCert(a + b, c) == CountCert(a, c) + CountCert(b, c)
    ensures CountSolvedCert(a + b, c) == CountSolvedCert(a, c) + CountSolvedCert(b, c)
    decreases |a|
  {
    if |a| > 0 {
      assert (a + b)[1..] == a[1..] + b;
      CountCertAppend(a[1..], b, c);
    } else {
      assert a + b == b;
    }
  }

  /** Pairs naming `cs` in order, all with the same flag, count as `cs` lists `c`. */
  lemma {:induction false} CountOfNames(occ: seq<(string, bool)>, cs: seq<string>, flag: bool, c: string)
    requires |occ| == |cs| && forall k :: 0 <= k < |occ| ==> occ[k] == (cs[k], flag)
    ensures CountCert(occ, c) == multiset(cs)[c]
    ensures CountSolvedCert(occ, c) == if flag then multiset(cs)[c] else 0
    decreases |cs|
  {
    if |cs| > 0 {
      CountOfNames(occ[1..], cs[1..], flag, c);
      assert cs == [cs[0]] + cs[1..];
      assert multiset(cs) == multiset{cs[0]} + multiset(cs[1..]);
    }
  }

  /** The occurrence counts are the listings of `c` on all machines and on
      the solved ones. */
  lemma {:induction false} OccurrenceCounts(ms: seq<Machine>, solved: set<int>, c: string)
    ensures CountCert(CertOccurrences(ms, solved), c) == Listings(ms, c)
    ensures CountSolvedCert(CertOccurrences(ms, solved), c) == SolvedListings(ms, solved, c)
    decreases |ms|
  {
    if |ms| > 0 {
      var head := MachineOccurrences(ms[0], solved);
      OccurrenceCounts(ms[1..], solved, c);
      CountCertAppend(head, CertOccurrences(ms[1..], solved), c);
      CountOfNames(head, ms[0].certifications, ms[0].id in solved, c);
    }
  }

  /** The pair is about certification `c`. */
  function NameIs(c: string): ((string, bool)) -> bool {
    (e: (string, bool)) => e.0 == c
  }

  /** A name occurs exactly when it has a first occurrence. */
  lemma HasNameFirst(occ: seq<(string, bool)>, c: string)
    ensures HasName(occ, c) <==> FindIndex(occ, NameIs(c)) >= 0
  {
    if HasName(occ, c) {
      var j :| 0 <= j < |occ| && occ[j].0 == c;
      assert NameIs(c)(occ[j]);
    }
  }

  /** Every name occurs among the pairs, and a name listed before another
      first occurs before it. */
  predicate InFirstOrder(occ: seq<(string, bool)>, names: seq<string>) {
    forall i, j :: 0 <= i < j < |names| ==>
      0 <= FindIndex(occ, NameIs(names[i])) < FindIndex(occ, NameIs(names[j]))
  }

  /** The distinct names, each at the position of its first appearance
      (the insertion order of a JavaScript `Map`). */
  function FirstAppearances(occ: seq<(string, bool)>): (names: seq<string>)
    ensures forall i, j :: 0 <= i < j < |names| ==> names[i] != names[j]
    ensures forall c :: c in names <==> HasName(occ, c)
    ensures InFirstOrder(occ, names)
  {
    if |occ| == 0 then []
    else
      var init, last := occ[..|occ| - 1], occ[|occ| - 1..];
      var prefix := FirstAppearances(init);
      var c := occ[|occ| - 1].0;
      HasNameAppend(init, last);
      assert init + last == occ;
      HasNameSingle(last);
      FirstOrderStep(init, last, prefix);
      if c in prefix then prefix else prefix + [c]
  }

  /** Appending a pair keeps the first occurrences of the names so far, and a
      name not among them first occurs at the new pair, after all of them. */
  lemma FirstOrderStep(init: seq<(string, bool)>, last: seq<(string, bool)>, prefix: seq<string>)
    requires |last| == 1
    requires forall c :: c in prefix ==> HasName(init, c)
    requires InFirstOrder(init, prefix)
    requires last[0].0 !in prefix ==> !HasName(init, last[0].0)
    ensures InFirstOrder(init + last, if last[0].0 in prefix then prefix else prefix + [last[0].0])
  {
    var e := last[0];
    assert last == [e];
    var occ := init + last;
    forall i | 0 <= i < |prefix|
      ensures 0 <= FindIndex(occ, NameIs(prefix[i])) == FindIndex(init, NameIs(prefix[i])) < |init|
    {
      assert prefix[i] in prefix;
      HasNameFirst(init, prefix[i]);
      FindIndexSnoc(init, e, NameIs(prefix[i]));
    }
    if e.0 !in prefix {
      HasNameFirst(init, e.0);
      FindIndexSnoc(init, e, NameIs(e.0));
      var names := prefix + [e.0];
      assert FindIndex(occ, NameIs(names[|prefix|])) == |init|;
    }
  }

  /** Some row is about certification `c`. */
  predicate RowFor(rows: seq<CertRow>, c: string) {
    exists i :: 0 <= i < |rows| && rows[i].name == c
  }

  /** A row's percentage is its solved share of its total, rounded half up. */
  predicate RowConsistent(r: CertRow) {
    1 <= r.total && r.solved <= r.total && r.pct <= 100
    && 2 * r.total * r.pct <= 200 * r.solved + r.total
    && 200 * r.solved + r.total < 2 * r.total * (r.pct + 1)
  }

  /** The row for certification `c`: its occurrences, its solved ones and the share. */
  function CertRowOf(occ: seq<(string, bool)>, c: string): (r: CertRow)
    requires HasName(occ, c)
    ensures r.name == c && RowConsistent(r)
    ensures r.total == CountCert(occ, c) && r.solved == CountSolvedCert(occ, c)
  {
    var t := CountCert(occ, c);
    var s := CountSolvedCert(occ, c);
    CertRow(c, t, s, RoundPercent(s, t))
  }

  /** Fallback (and backend) aggregation of `getCertificationProgress`: one row per
      certification in first-appearance order, with its machine total, its solved
      count and the rounded percentage. */
  function CertificationProgress(ms: seq<Machine>, solved: set<int>): (rows: seq<CertRow>)
    ensures forall i, j :: 0 <= i < j < |rows| ==> rows[i].name != rows[j].name
    ensures forall c :: RowFor(rows, c) <==> Lists(ms, c)
    ensures forall i :: 0 <= i < |rows| ==> RowConsistent(rows[i])
    ensures forall i :: 0 <= i < |rows| ==>
              rows[i].total == Listings(ms, rows[i].name) && rows[i].solved == SolvedListings(ms, solved, rows[i].name)
  {
    var occ := CertOccurrences(ms, solved);
    var names := FirstAppearances(occ);
    var rows := RowsOf(occ, names);
    forall i | 0 <= i < |rows|
      ensures rows[i].total == Listings(ms, rows[i].name) && rows[i].solved == SolvedListings(ms, solved, rows[i].name)
    {
      OccurrenceCounts(ms, solved, names[i]);
    }
    assert forall c :: RowFor(rows, c) <==> c in names by {
      forall c | c in names ensures RowFor(rows, c) {
        var i :| 0 <= i < |names| && names[i] == c;
        assert rows[i].name == c;
      }
    }
    rows
  }

  /** One row per name, in the order of `names`. */
  function RowsOf(occ: seq<(string, bool)>, names: seq<string>): (rows: seq<CertRow>)
    requires forall c :: c in names ==> HasName(occ, c)
    ensures |rows| == |names|
    ensures forall i :: 0 <= i < |rows| ==> rows[i] == CertRowOf(occ, names[i])
  {
    seq(|names|, i requires 0 <= i < |names| => CertRowOf(occ, names[i]))
  }

  lemma {:induction false} AllSolvedListings(ms: seq<Machine>, solved: set<int>, c: string)
    requires forall i :: 0 <= i < |ms| ==> ms[i].id in solved
    ensures SolvedListings(ms, solved, c) == Listings(ms, c)
    decreases |ms|
  {
    if |ms| > 0 {
      AllSolvedListings(ms[1..], solved, c);
    }
  }

  /** A consistent row whose solved count is its total shows 100%. */
  lemma FullRow(r: CertRow)
    requires RowConsistent(r) && r.solved == r.total
    ensures r.pct == 100
  {
    var t := r.total;
    assert 2 * t * r.pct <= 2 * t * 100 + t;
    assert 2 * t * 100 + t < 2 * t * (r.pct + 1);
    if r.pct < 100 {
      MulLe(r.pct + 1, 100, 2 * t);
    }
  }

  /** With every machine solved, every certification row is complete: its
      solved count is its total and it shows 100%. */
  lemma AllSolvedComplete(ms: seq<Machine>, solved: set<int>)
    requires forall i :: 0 <= i < |ms| ==> ms[i].id in solved
    ensures forall r :: r in CertificationProgress(ms, solved) ==> r.solved == r.total && r.pct == 100
  {
    var rows := CertificationProgress(ms, solved);
    forall r | r in rows ensures r.solved == r.total && r.pct == 100 {
      AllSolvedListings(ms, solved, r.name);
      FullRow(r);
    }
  }

  /** The demo catalogue lists OSCP on both machines: with machine 1 solved the
      single row is OSCP, 1 of 2, 50%. */
  lemma DemoCertificationProgress(solved: set<int>)
    requires 1 in solved && 2 !in solved
    ensures CertificationProgress(DemoMachines, solved) == [CertRow("OSCP", 2, 1, 50)]
  {
    DemoOccurrences(solved);
    var occ := [("OSCP", true), ("OSCP", false)];
    SameNameTwice("OSCP", true, false);
    assert RoundPercent(1, 2) == 50;
    assert RowsOf(occ, ["OSCP"]) == [CertRowOf(occ, "OSCP")];
  }

  /** With machine 1 solved and machine 2 not, the demo catalogue yields two
      OSCP occurrences, the first solved. */
  lemma DemoOccurrences(solved: set<int>)
    requires 1 in solved && 2 !in solved
    ensures CertOccurrences(DemoMachines, solved) == [("OSCP", true), ("OSCP", false)]
  {
    var d0, d1 := DemoMachines[0], DemoMachines[1];
    assert d0.id == 1 && d0.certifications == ["OSCP"];
    assert d1.id == 2 && d1.certifications == ["OSCP"];
    assert MachineOccurrences(d0, solved) == [("OSCP", true)];
    assert MachineOccurrences(d1, solved) == [("OSCP", false)];
    assert DemoMachines[1..] == [d1] && DemoMachines[1..][1..] == [];
    assert CertOccurrences(DemoMachines[1..], solved) == [("OSCP", false)];
  }

  /** One certification named twice: a single name, two occurrences, and as
      many solved as the two flags say. */
  lemma SameNameTwice(c: string, a: bool, b: bool)
    ensures FirstAppearances([(c, a), (c, b)]) == [c]
    ensures CountCert([(c, a), (c, b)], c) == 2
    ensures CountSolvedCert([(c, a), (c, b)], c) == (if a then 1 else 0) + (if b then 1 else 0)
  {
    var occ := [(c, a), (c, b)];
    assert occ[..1] == [(c, a)] && occ[..1][..0] == [];
    assert FirstAppearances(occ[..1]) == [c];
    assert occ[1..] == [(c, b)] && occ[1..][1..] == [];
  }

  // ---------------------------------------------------------------------------
  // Pagination range of getMachines
  // ---------------------------------------------------------------------------

  /** Rows `from..to` (inclusive) requested for page `page` of `pageSize` rows. */
  datatype RowRange = RowRange(from: int, to: int)

  function PageRange(page: int, pageSize: int): (r: RowRange)
    ensures r.to - r.from + 1 == pageSize
    ensures page >= 1 && pageSize >= 0 ==> r.from >= 0
  {
    var from := (page - 1) * pageSize;
    RowRange(from, from + pageSize - 1)
  }

  /** Consecutive pages are contiguous: page p + 1 starts right after page p ends. */
  lemma PagesContiguous(page: int, pageSize: int)
    ensures PageRange(page + 1, pageSize).from == PageRange(page, pageSize).to + 1
  {
  }

  /** For a positive page size every row index falls on exactly one page. */
  lemma RowOnOnePage(row: nat, pageSize: int, page: int)
    requires pageSize >= 1
    ensures PageRange(page, pageSize).from <= row <= PageRange(page, pageSize).to
            <==> page == row / pageSize + 1
  {
    var q := row / pageSize;
    DivBounds(row, pageSize);
    var r := PageRange(page, pageSize);
    assert r.from == pageSize * (page - 1);
    assert r.to == pageSize * page - 1;
    if page <= q {
      MulLe(page, q, pageSize);
    } else if page >= q + 2 {
      MulLe(q + 1, page - 1, pageSize);
    }
  }

  // ---------------------------------------------------------------------------
  // The demo-data decision of getMachines
  // ---------------------------------------------------------------------------

  /** What the backend query produced. */
  datatype Backend =
    | Rows(data: seq<Machine>, count: int)
    | Failure(message: string, code: string)

  datatype MachinePage = MachinePage(data: seq<Machine>, totalCount: int)

  /** The text inspected on failure: the message, else the code. */
  function FailureText(message: string, code: string): string {
    if message != "" then message else code
  }

  /** An error that reads like a missing table: it mentions the PostgreSQL code
      42P01, or (in any case) 'relation' or 'table'. */
  predicate LooksLikeMissingTable(text: string) {
    Contains(text, "42P01") || Contains(Lower(text), "relation") || Contains(Lower(text), "table")
  }

  /** `getMachines` after the query: an empty result or a missing-table error
      serves the demo list with its own length as the total; any other error fails. */
  function GetMachines(b: Backend): (r: Result<MachinePage>)
    ensures r.Ok? <==> b.Rows? || LooksLikeMissingTable(FailureText(b.message, b.code))
    ensures (b.Rows? && |b.data| == 0) || (b.Failure? && r.Ok?) ==>
              r == Ok(MachinePage(DemoMachines, |DemoMachines|))
    ensures b.Rows? && |b.data| > 0 ==> r == Ok(MachinePage(b.data, b.count))
    ensures r.Err? ==> r.message == b.message
  {
    match b
    case Rows(data, count) =>
      if |data| == 0 then Ok(MachinePage(DemoMachines, |DemoMachines|)) else Ok(MachinePage(data, count))
    case Failure(message, code) =>
      if LooksLikeMissingTable(FailureText(message, code)) then Ok(MachinePage(DemoMachines, |DemoMachines|))
      else Err(message)
  }

  /** The error `getMachines` raises itself when no backend client exists. */
  const ClientUnavailable: string := "Supabase client no disponible"

  lemma ClientUnavailablePairs(t: string)
    requires t == "Supabase client no disponible"
    ensures forall i :: 0 <= i < |t| - 1 && (t[i] == 't' || t[i] == 'T') ==> t[i + 1] != 'a' && t[i + 1] != 'A'
  {
  }

  lemma ClientUnavailableNoCode(t: string)
    requires t == "Supabase client no disponible"
    ensures !Contains(t, "42P01")
  {
    assert '4' !in t;
    NoStart(t, "42P01");
  }

  lemma ClientUnavailableNoTable(t: string)
    requires t == "Supabase client no disponible"
    ensures !Contains(Lower(t), "table")
  {
    ClientUnavailablePairs(t);
    NoFoldedPair(t, "table", 't', 'T', 'a', 'A');
  }

  lemma ClientUnavailableNoRelation(t: string)
    requires t == "Supabase client no disponible"
    ensures !Contains(Lower(t), "relation")
  {
    NoFoldedStart(t, "relation", 'r', 'R');
  }

  /** The missing-client error does not look like a missing table, so it is
      reported as a failure rather than served demo data. */
  lemma ClientUnavailableFails(t: string)
    requires t == ClientUnavailable
    ensures GetMachines(Failure(t, "")).Err?
  {
    ClientUnavailableNoCode(t);
    ClientUnavailableNoTable(t);
    ClientUnavailableNoRelation(t);
  }

  /** PostgREST's missing-relation error is served demo data. */
  lemma MissingRelationServesDemo(message: string)
    requires Contains(message, "42P01")
    ensures GetMachines(Failure(message, "")) == Ok(MachinePage(DemoMachines, 2))
  {
  }

  // ---------------------------------------------------------------------------
  // Calendar list fallback
  // ---------------------------------------------------------------------------

  /** One stored calendar entry: id, machine id, `YYYY-MM-DD` date. */
  datatype CalendarRow = CalendarRow(id: string, machineId: int, date: string)

  /** A calendar entry as the gateway returns it, with its machine attached when known. */
  datatype Entry = Entry(row: CalendarRow, machine: Option<Machine>)

  /** Fallback of `scheduleMachine`: append one entry with a fresh id (the id
      generator is a parameter). */
  function ScheduleFallback(list: seq<CalendarRow>, freshId: string, machineId: int, date: string): (r: seq<CalendarRow>)
    ensures |r| == |list| + 1
    ensures r[..|list|] == list
    ensures r[|list|] == CalendarRow(freshId, machineId, date)
  {
    list + [CalendarRow(freshId, machineId, date)]
  }

  predicate InRange(start: string, end: string, e: CalendarRow) {
    LexLe(start, e.date) && LexLe(e.date, end)
  }

  /** An entry with the demo machine of its machine id attached, or none when
      no demo machine has that id. */
  function Attach(e: CalendarRow): (r: Entry)
    ensures r.row == e
    ensures r.machine == FindMachine(DemoMachines, e.machineId)
    ensures r.machine.Some? <==> exists i :: 0 <= i < |DemoMachines| && DemoMachines[i].id == e.machineId
    ensures r.machine.Some? ==> r.machine.value in DemoMachines && r.machine.value.id == e.machineId
    ensures e.machineId == 1 ==> r.machine == Some(DemoMachines[0])
    ensures e.machineId == 2 ==> r.machine == Some(DemoMachines[1])
    ensures e.machineId != 1 && e.machineId != 2 ==> r.machine.None?
  {
    Entry(e, FindMachine(DemoMachines, e.machineId))
  }

  function Rows(es: seq<Entry>): (r: seq<CalendarRow>)
    ensures |r| == |es| && forall i :: 0 <= i < |es| ==> r[i] == es[i].row
  {
    seq(|es|, i requires 0 <= i < |es| => es[i].row)
  }

  /** Fallback of `getScheduledMachines`: the entries whose date string lies in
      [start, end], in stored order, each with its demo machine attached. */
  function RangeFallback(list: seq<CalendarRow>, start: string, end: string): (r: seq<Entry>)
    ensures Rows(r) == Filter(list, (e: CalendarRow) => InRange(start, end, e))
    ensures forall i :: 0 <= i < |r| ==> r[i].machine == FindMachine(DemoMachines, r[i].row.machineId)
  {
    var kept := Filter(list, (e: CalendarRow) => InRange(start, end, e));
    var r := seq(|kept|, i requires 0 <= i < |kept| => Attach(kept[i]));
    assert Rows(r) == kept;
    r
  }

  /** Scheduling then reading a range adds the new entry to the range exactly
      when its date falls inside it. */
  lemma RangeAfterSchedule(list: seq<CalendarRow>, freshId: string, machineId: int, date: string, start: string, end: string)
    ensures Rows(RangeFallback(ScheduleFallback(list, freshId, machineId, date), start, end))
            == Rows(RangeFallback(list, start, end))
               + (if LexLe(start, date) && LexLe(date, end) then [CalendarRow(freshId, machineId, date)] else [])
  {
    var e := CalendarRow(freshId, machineId, date);
    FilterAppend(list, [e], (x: CalendarRow) => InRange(start, end, x));
  }

  /** Entry `i` is the first one carrying the id. */
  predicate FirstWithId(list: seq<CalendarRow>, entryId: string, i: int) {
    0 <= i < |list| && list[i].id == entryId && forall j :: 0 <= j < i ==> list[j].id != entryId
  }

  function RowIdIs(entryId: string): CalendarRow -> bool {
    (e: CalendarRow) => e.id == entryId
  }

  /** Fallback of `deleteScheduledEntry`: remove the first entry with that id, if
      any; success is reported either way. */
  function DeleteFallback(list: seq<CalendarRow>, entryId: string): (r: (seq<CalendarRow>, Result<()>))
    ensures r.1 == Ok(())
    ensures (forall i :: 0 <= i < |list| ==> list[i].id != entryId) ==> r.0 == list
    ensures (exists i :: 0 <= i < |list| && list[i].id == entryId) ==> |r.0| == |list| - 1
    ensures forall i :: FirstWithId(list, entryId, i) ==> r.0 == list[..i] + list[i + 1..]
    ensures IsSubsequence(r.0, list)
  {
    var p := RowIdIs(entryId);
    RemoveFirstSubsequence(list, p);
    forall i | FirstWithId(list, entryId, i)
      ensures RemoveFirst(list, p) == list[..i] + list[i + 1..]
    {
      assert forall j :: 0 <= j < i ==> !p(list[j]);
      RemoveFirstAt(list, p, i);
    }
    (RemoveFirst(list, p), Ok(()))
  }

  /** Deleting the entry just scheduled under a fresh id gives the list back. */
  lemma DeleteAfterSchedule(list: seq<CalendarRow>, freshId: string, machineId: int, date: string)
    requires forall i :: 0 <= i < |list| ==> list[i].id != freshId
    ensures DeleteFallback(ScheduleFallback(list, freshId, machineId, date), freshId).0 == list
  {
    var l := ScheduleFallback(list, freshId, machineId, date);
    assert l[|list|].id == freshId;
    assert forall j :: 0 <= j < |list| ==> l[j].id != freshId;
    assert l[..|list|] + l[|list| + 1..] == list;
  }

  /** Deleting leaves every other entry, and removes one entry with the id
      exactly when the list has one: the list is the result with that entry put back. */
  lemma DeleteRestores(list: seq<CalendarRow>, entryId: string)
    requires exists i :: 0 <= i < |list| && list[i].id == entryId
    ensures exists i :: 0 <= i < |list| && list[i].id == entryId
                        && list == DeleteFallback(list, entryId).0[..i] + [list[i]] + DeleteFallback(list, entryId).0[i..]
  {
    var k := FindIndex(list, RowIdIs(entryId));
    var r := DeleteFallback(list, entryId).0;
    assert RowIdIs(entryId)(list[k]);
    assert r == list[..k] + list[k + 1..];
    assert r[..k] == list[..k] && r[k..] == list[k + 1..];
    assert list == list[..k] + [list[k]] + list[k + 1..];
  }

  /** Only the first entry with the id goes; a second one with the same id stays. */
  lemma DeleteRemovesFirstOnly(a: CalendarRow, b: CalendarRow)
    requires a.id == b.id
    ensures DeleteFallback([a, b], a.id).0 == [b]
  {
  }
}

=== FILE: text.dfy ===
/** String primitives the source relies on from JavaScript's runtime:
    `String(n)`, `parseInt(s, 10)`, `padStart(2, '0')`, `toLowerCase`,
    `includes`, `trim`, `split`, `join` and the `<=` order on strings. */
module Text {

  import opened Wrappers

  // ---------------------------------------------------------------------------
  // Digits and decimal numbers
  // ---------------------------------------------------------------------------

  /** ASCII decimal digit, the class `\d` of JavaScript regular expressions. */
  predicate IsDigit(c: char) {
    '0' <= c <= '9'
  }

  predicate AllDigits(s: string) {
    forall i :: 0 <= i < |s| ==> IsDigit(s[i])
  }

  function DigitValue(c: char): (v: nat)
    requires IsDigit(c)
    ensures v < 10
  {
    c as int - '0' as int
  }

  function DigitChar(d: nat): (c: char)
    requires d < 10
    ensures IsDigit(c) && DigitValue(c) == d
  {
    (d + '0' as int) as char
  }

  function Pow10(k: nat): (p: nat)
    ensures p >= 1
  {
    if k == 0 then 1 else 10 * Pow10(k - 1)
  }

  /** Value of a digit string read left to right, as `parseInt(s, 10)` reads it. */
  function DigitsValue(s: string): nat
    requires AllDigits(s)
  {
    if |s| == 0 then 0 else 10 * DigitsValue(s[..|s| - 1]) + DigitValue(s[|s| - 1])
  }

  /** Decimal rendering of a natural number, as `String(n)` produces it:
      no leading zero, and reading it back gives `n`. */
  function NatToString(n: nat): (r: string)
    ensures 1 <= |r|
    ensures AllDigits(r)
    ensures DigitsValue(r) == n
    ensures r[0] == '0' ==> n == 0
    ensures n < Pow10(|r|)
    ensures 1 < |r| ==> Pow10(|r| - 1) <= n
  {
    if n < 10 then [DigitChar(n)]
    else
      var prefix := NatToString(n / 10);
      var r := prefix + [DigitChar(n % 10)];
      assert r[..|r| - 1] == prefix;
      assert n / 10 < Pow10(|prefix|);
      assert n < 10 * Pow10(|prefix|);
      r
  }

  /** Decimal rendering of an integer, with a leading '-' for negatives. */
  function IntToString(i: int): (r: string)
    ensures i >= 0 ==> r == NatToString(i)
    ensures i < 0 ==> r == "-" + NatToString(-i)
  {
    if i < 0 then "-" + NatToString(-i) else NatToString(i)
  }

  /** A leading zero does not change the value of a digit string. */
  lemma {:induction false} LeadingZero(s: string)
    requires AllDigits(s)
    ensures AllDigits("0" + s)
    ensures DigitsValue("0" + s) == DigitsValue(s)
    decreases |s|
  {
    var t := "0" + s;
    if |s| > 0 {
      assert t[..|t| - 1] == "0" + s[..|s| - 1];
      LeadingZero(s[..|s| - 1]);
    }
  }

  /** Reading a digit string front first: the first digit weighs `10^(|s|-1)`. */
  lemma {:induction false} FrontDigit(s: string)
    requires AllDigits(s) && 1 <= |s|
    ensures DigitsValue(s) == DigitValue(s[0]) * Pow10(|s| - 1) + DigitsValue(s[1..])
    decreases |s|
  {
    if |s| > 1 {
      var init, rest := s[..|s| - 1], s[1..];
      var first, last := DigitValue(s[0]), DigitValue(s[|s| - 1]);
      FrontDigit(init);
      assert init[1..] == rest[..|rest| - 1];
      assert init[0] == s[0];
      assert rest[|rest| - 1] == s[|s| - 1];
      assert DigitsValue(s) == 10 * DigitsValue(init) + last;
      assert DigitsValue(rest) == 10 * DigitsValue(init[1..]) + last;
      ShiftDigit(DigitsValue(init), first, Pow10(|s| - 2), DigitsValue(init[1..]), last);
    } else {
      assert s[1..] == [];
    }
  }

  /** Appending a digit on the right multiplies every weight by ten. */
  lemma ShiftDigit(v: int, first: int, p: int, tail: int, last: int)
    requires v == first * p + tail
    ensures 10 * v + last == first * (10 * p) + (10 * tail + last)
  {
  }

  /** A digit string of length `k` is below `10^k`. */
  lemma {:induction false} DigitsBound(s: string)
    requires AllDigits(s)
    ensures DigitsValue(s) < Pow10(|s|)
    decreases |s|
  {
    if |s| > 0 {
      DigitsBound(s[..|s| - 1]);
    }
  }

  // ---------------------------------------------------------------------------
  // parseInt and padStart
  // ---------------------------------------------------------------------------

  /** The longest prefix of `s` made of digits. */
  function LeadingDigits(s: string): (p: string)
    ensures |p| <= |s| && p == s[..|p|]
    ensures AllDigits(p)
    ensures |p| < |s| ==> !IsDigit(s[|p|])
    ensures AllDigits(s) ==> p == s
  {
    if |s| == 0 || !IsDigit(s[0]) then ""
    else [s[0]] + LeadingDigits(s[1..])
  }

  /** `parseInt(s, 10)` for the strings the source feeds it (no leading blank
      or sign): the value of the leading digits, `None` for `NaN`. */
  function ParseIntPrefix(s: string): (r: Option<nat>)
    ensures r.None? <==> (|s| == 0 || !IsDigit(s[0]))
    ensures AllDigits(s) && 1 <= |s| ==> r == Some(DigitsValue(s))
  {
    var p := LeadingDigits(s);
    if |p| == 0 then None else Some(DigitsValue(p))
  }

  /** The leading digits stop where the first non-digit starts. */
  lemma {:induction false} LeadingDigitsConcat(d: string, rest: string)
    requires AllDigits(d)
    requires |rest| == 0 || !IsDigit(rest[0])
    ensures LeadingDigits(d + rest) == d
    decreases |d|
  {
    if |d| > 0 {
      assert (d + rest)[1..] == d[1..] + rest;
      LeadingDigitsConcat(d[1..], rest);
    } else {
      assert d + rest == rest;
    }
  }

  /** `parseInt` of a number's digits followed by text reads the number back. */
  lemma LeadingDigitsOf(d: string, rest: string)
    requires AllDigits(d) && 1 <= |d|
    requires |rest| == 0 || !IsDigit(rest[0])
    ensures ParseIntPrefix(d + rest) == Some(DigitsValue(d))
  {
    LeadingDigitsConcat(d, rest);
  }

  /** `s.padStart(2, '0')`. */
  function Pad2(s: string): (r: string)
    ensures |s| >= 2 ==> r == s
    ensures |s| < 2 ==> |r| == 2 && r[2 - |s|..] == s && forall i :: 0 <= i < 2 - |s| ==> r[i] == '0'
    ensures AllDigits(s) ==> AllDigits(r) && DigitsValue(r) == DigitsValue(s)
  {
    if |s| == 0 then "00"
    else if |s| == 1 then
      (if IsDigit(s[0]) then LeadingZero(s); "0" + s else "0" + s)
    else s
  }

  /** Two-digit zero-padded rendering of a number below 100. */
  lemma Pad2Number(n: nat)
    requires n < 100
    ensures |Pad2(NatToString(n))| == 2
    ensures AllDigits(Pad2(NatToString(n)))
    ensures DigitsValue(Pad2(NatToString(n))) == n
  {
  }

  // ---------------------------------------------------------------------------
  // Case folding, containment, trimming
  // ---------------------------------------------------------------------------

  predicate IsUpper(c: char) {
    ('A' <= c <= 'Z') || ('\U{00C0}' <= c <= '\U{00DE}' && c != '\U{00D7}')
  }

  /** `toLowerCase` on one character: ASCII and Latin-1 capitals move 32 code points down. */
  function LowerChar(c: char): (r: char)
    ensures !IsUpper(r)
  {
    if IsUpper(c) then (c as int + 32) as char else c
  }

  function Lower(s: string): (r: string)
    ensures |r| == |s|
    ensures forall i :: 0 <= i < |s| ==> r[i] == LowerChar(s[i])
  {
    if |s| == 0 then "" else [LowerChar(s[0])] + Lower(s[1..])
  }

  /** Lower-casing twice is lower-casing once. */
  lemma LowerIdempotent(s: string)
    ensures Lower(Lower(s)) == Lower(s)
  {
  }

  predicate IsPrefix(p: string, s: string) {
    |p| <= |s| && s[..|p|] == p
  }

  /** `sub` occurs in `s` starting at offset `i`. */
  predicate OccursAt(s: string, sub: string, i: int) {
    0 <= i <= |s| - |sub| && s[i..i + |sub|] == sub
  }

  /** `s.includes(sub)`: `sub` occurs in `s` at some offset (the empty string occurs everywhere). */
  function Contains(s: string, sub: string): (r: bool)
    ensures r <==> exists i :: OccursAt(s, sub, i)
    decreases |s|
  {
    if IsPrefix(sub, s) then
      assert OccursAt(s, sub, 0);
      true
    else if |s| == 0 then
      assert forall i :: !OccursAt(s, sub, i);
      false
    else
      OccursShift(s, sub);
      Contains(s[1..], sub)
  }

  /** Occurrences in `s` past offset 0 are the occurrences in `s[1..]`, one place later. */
  lemma OccursShift(s: string, sub: string)
    requires |s| > 0
    ensures forall i :: 1 <= i && OccursAt(s, sub, i) ==> OccursAt(s[1..], sub, i - 1)
    ensures forall j :: OccursAt(s[1..], sub, j) ==> OccursAt(s, sub, j + 1)
  {
    forall i | 1 <= i && OccursAt(s, sub, i) ensures OccursAt(s[1..], sub, i - 1) {
      assert s[1..][i - 1..i - 1 + |sub|] == s[i..i + |sub|];
    }
    forall j | OccursAt(s[1..], sub, j) ensures OccursAt(s, sub, j + 1) {
      assert s[j + 1..j + 1 + |sub|] == s[1..][j..j + |sub|];
    }
  }

  /** A string containing `sub` contains every piece of it. */
  lemma ContainsInner(s: string, sub: string, i: nat, j: nat)
    requires i <= j <= |sub|
    requires Contains(s, sub)
    ensures Contains(s, sub[i..j])
  {
    var k :| OccursAt(s, sub, k);
    forall t | 0 <= t < j - i ensures s[k + i..k + j][t] == sub[i..j][t] {
      assert s[k + i + t] == s[k..k + |sub|][i + t];
    }
    assert s[k + i..k + j] == sub[i..j];
    assert OccursAt(s, sub[i..j], k + i);
  }

  /** A string in which the first character of `sub` never appears does not contain `sub`. */
  lemma NoStart(t: string, sub: string)
    requires |sub| >= 1 && sub[0] !in t
    ensures !Contains(t, sub)
  {
    forall i ensures !OccursAt(t, sub, i) {
      if 0 <= i <= |t| - |sub| {
        assert t[i..i + |sub|][0] == t[i] != sub[0];
      }
    }
  }

  /** A lower-cased string cannot contain `sub` when no character of the
      original folds to `sub`'s first character. */
  lemma NoFoldedStart(t: string, sub: string, lo: char, up: char)
    requires |sub| >= 1 && lo !in t && up !in t
    requires forall c :: LowerChar(c) == sub[0] ==> c == lo || c == up
    ensures !Contains(Lower(t), sub)
  {
    forall i ensures !OccursAt(Lower(t), sub, i) {
      if 0 <= i < |t| {
        assert t[i] != lo && t[i] != up;
        assert Lower(t)[i] != sub[0];
      }
    }
  }

  /** A lower-cased string cannot contain `sub` when no character folding to
      `sub[0]` is followed by one folding to `sub[1]`. */
  lemma NoFoldedPair(t: string, sub: string, lo0: char, up0: char, lo1: char, up1: char)
    requires |sub| >= 2
    requires forall c :: LowerChar(c) == sub[0] ==> c == lo0 || c == up0
    requires forall c :: LowerChar(c) == sub[1] ==> c == lo1 || c == up1
    requires forall i :: 0 <= i < |t| - 1 && (t[i] == lo0 || t[i] == up0) ==> t[i + 1] != lo1 && t[i + 1] != up1
    ensures !Contains(Lower(t), sub)
  {
    forall i ensures !OccursAt(Lower(t), sub, i) {
      if 0 <= i < |t| - 1 {
        assert Lower(t)[i] != sub[0] || Lower(t)[i + 1] != sub[1];
      }
    }
  }

  /** JavaScript's white space and line terminators, the characters `trim` removes. */
  predicate IsSpace(c: char) {
    c == ' ' || c == '\t' || c == '\n' || c == '\r' || c == '\U{000B}' || c == '\U{000C}'
    || c == '\U{00A0}' || c == '\U{1680}' || ('\U{2000}' <= c <= '\U{200A}')
    || c == '\U{2028}' || c == '\U{2029}' || c == '\U{202F}' || c == '\U{205F}'
    || c == '\U{3000}' || c == '\U{FEFF}'
  }

  predicate AllSpace(s: string) {
    forall i :: 0 <= i < |s| ==> IsSpace(s[i])
  }

  function TrimStart(s: string): (r: string)
    ensures |r| <= |s| && r == s[|s| - |r|..]
    ensures AllSpace(s[..|s| - |r|])
    ensures |r| > 0 ==> !IsSpace(r[0])
  {
    if |s| > 0 && IsSpace(s[0]) then TrimStart(s[1..]) else s
  }

  function TrimEnd(s: string): (r: string)
    ensures |r| <= |s| && r == s[..|r|]
    ensures AllSpace(s[|r|..])
    ensures |r| > 0 ==> !IsSpace(r[|r| - 1])
  {
    if |s| > 0 && IsSpace(s[|s| - 1]) then
      var r := TrimEnd(s[..|s| - 1]);
      assert s[|r|..] == s[..|s| - 1][|r|..] + [s[|s| - 1]];
      r
    else s
  }

  /** `s.trim()`. */
  function Trim(s: string): (r: string)
    ensures |r| <= |s|
    ensures |r| > 0 ==> !IsSpace(r[0]) && !IsSpace(r[|r| - 1])
  {
    TrimEnd(TrimStart(s))
  }

  /** A string trims to nothing exactly when it is all white space. */
  lemma TrimEmpty(s: string)
    ensures Trim(s) == "" <==> AllSpace(s)
  {
    var t := TrimStart(s);
    if Trim(s) == "" {
      assert AllSpace(t[0..]);
      assert |t| == 0 by {
        if |t| > 0 {
          assert false;
        }
      }
      assert s[..|s| - |t|] == s;
    }
  }

  /** A string that starts and ends with a non-space character trims to itself. */
  lemma TrimUnpadded(s: string)
    requires |s| > 0 && !IsSpace(s[0]) && !IsSpace(s[|s| - 1])
    ensures Trim(s) == s
  {
    assert TrimStart(s) == s;
  }

  /** Trimming is idempotent. */
  lemma TrimIdempotent(s: string)
    ensures Trim(Trim(s)) == Trim(s)
  {
  }

  // ---------------------------------------------------------------------------
  // split / join
  // ---------------------------------------------------------------------------

  /** `s.split(sep)` for a one-character separator: always at least one piece. */
  function Split(s: string, sep: char): (parts: seq<string>)
    ensures |parts| >= 1
    ensures forall i :: 0 <= i < |parts| ==> sep !in parts[i]
    decreases |s|
  {
    if |s| == 0 then [""]
    else
      var rest := Split(s[1..], sep);
      if s[0] == sep then [""] + rest
      else [[s[0]] + rest[0]] + rest[1..]
  }

  /** `parts.join(sep)` for a one-character separator. */
  function Join(parts: seq<string>, sep: char): string {
    if |parts| == 0 then ""
    else if |parts| == 1 then parts[0]
    else parts[0] + [sep] + Join(parts[1..], sep)
  }

  lemma {:induction false} SplitNoSep(a: string, sep: char)
    requires sep !in a
    ensures Split(a, sep) == [a]
    decreases |a|
  {
    if |a| > 0 {
      SplitNoSep(a[1..], sep);
      assert [a[0]] + a[1..] == a;
    }
  }

  lemma {:induction false} SplitAtSep(a: string, t: string, sep: char)
    requires sep !in a
    ensures Split(a + [sep] + t, sep) == [a] + Split(t, sep)
    decreases |a|
  {
    var s := a + [sep] + t;
    if |a| == 0 {
      assert s[1..] == t;
    } else {
      assert s[1..] == a[1..] + [sep] + t;
      SplitAtSep(a[1..], t, sep);
      assert [a[0]] + a[1..] == a;
    }
  }

  /** Splitting a join recovers the pieces when no piece holds the separator. */
  lemma {:induction false} SplitJoin(parts: seq<string>, sep: char)
    requires |parts| >= 1
    requires forall i :: 0 <= i < |parts| ==> sep !in parts[i]
    ensures Split(Join(parts, sep), sep) == parts
    decreases |parts|
  {
    if |parts| == 1 {
      SplitNoSep(parts[0], sep);
    } else {
      SplitAtSep(parts[0], Join(parts[1..], sep), sep);
      SplitJoin(parts[1..], sep);
      assert [parts[0]] + parts[1..] == parts;
    }
  }

  // ---------------------------------------------------------------------------
  // String order
  // ---------------------------------------------------------------------------

  /** JavaScript's `a <= b` on strings: lexicographic by code point, a prefix first. */
  predicate LexLe(a: string, b: string)
    decreases |a|
  {
    if |a| == 0 then true
    else if |b| == 0 then false
    else if a[0] != b[0] then a[0] < b[0]
    else LexLe(a[1..], b[1..])
  }

  lemma {:induction false} LexLeRefl(a: string)
    ensures LexLe(a, a)
    decreases |a|
  {
    if |a| > 0 {
      LexLeRefl(a[1..]);
    }
  }

  lemma {:induction false} LexLeTotal(a: string, b: string)
    ensures LexLe(a, b) || LexLe(b, a)
    decreases |a|
  {
    if |a| > 0 && |b| > 0 && a[0] == b[0] {
      LexLeTotal(a[1..], b[1..]);
    }
  }

  lemma {:induction false} LexLeAntisym(a: string, b: string)
    requires LexLe(a, b) && LexLe(b, a)
    ensures a == b
    decreases |a|
  {
    if |a| > 0 {
      LexLeAntisym(a[1..], b[1..]);
      assert a == [a[0]] + a[1..];
      assert b == [b[0]] + b[1..];
    }
  }

  lemma {:induction false} LexLeTrans(a: string, b: string, c: string)
    requires LexLe(a, b) && LexLe(b, c)
    ensures LexLe(a, c)
    decreases |a|
  {
    if |a| > 0 && a[0] == b[0] && b[0] == c[0] {
      LexLeTrans(a[1..], b[1..], c[1..]);
    }
  }

  /** Comparing two concatenations whose first parts have the same length:
      the first parts decide unless they are equal. */
  lemma {:induction false} LexConcat(a: string, b: string, c: string, d: string)
    requires |a| == |c|
    ensures LexLe(a + b, c + d) == (if a == c then LexLe(b, d) else LexLe(a, c))
    decreases |a|
  {
    if |a| == 0 {
      assert a + b == b;
      assert c + d == d;
    } else {
      assert (a + b)[1..] == a[1..] + b;
      assert (c + d)[1..] == c[1..] + d;
      LexConcat(a[1..], b, c[1..], d);
      if a[0] == c[0] && a[1..] == c[1..] {
        assert a == [a[0]] + a[1..];
        assert c == [c[0]] + c[1..];
      }
    }
  }

  /** A larger leading digit outweighs everything after it. */
  lemma FrontDominates(ds: nat, dt: nat, p: nat, x: nat, y: nat)
    requires ds < dt && x < p
    ensures ds * p + x < dt * p + y
  {
    var k := dt - ds;
    assert dt * p == ds * p + k * p;
    assert k * p == p + (k - 1) * p;
    assert (k - 1) * p >= 0;
  }

  /** For digit strings of one width, string order is numeric order. */
  lemma {:induction false} FixedWidthOrder(s: string, t: string)
    requires AllDigits(s) && AllDigits(t) && |s| == |t|
    ensures LexLe(s, t) <==> DigitsValue(s) <= DigitsValue(t)
    decreases |s|
  {
    if |s| > 0 {
      FrontDigit(s);
      FrontDigit(t);
      var p := Pow10(|s| - 1);
      var ds, dt := DigitValue(s[0]), DigitValue(t[0]);
      if s[0] == t[0] {
        FixedWidthOrder(s[1..], t[1..]);
      } else if ds < dt {
        DigitsBound(s[1..]);
        FrontDominates(ds, dt, p, DigitsValue(s[1..]), DigitsValue(t[1..]));
      } else {
        DigitsBound(t[1..]);
        FrontDominates(dt, ds, p, DigitsValue(t[1..]), DigitsValue(s[1..]));
      }
    }
  }

}

=== FILE: trophies.dfy ===
/** The trophy catalogue and the set of trophy ids a user holds. Every trophy
    in the catalogue counts solved machines; the set of held ids is only ever
    added to. */
module Trophies {
  import opened Wrappers
  import opened Text
  import opened Seqs
  import opened Store
  import opened Percent

  datatype Trophy = Trophy(id: string, name: string, requirement: nat, rarity: string)

  /** `loadTrophies`: seven machine-count trophies, easiest first. */
  function Catalogue(): (c: seq<Trophy>)
    ensures |c| == 7
    ensures forall i :: 0 <= i < |c| ==> c[i].requirement >= 1
  {
    [ Trophy("first_blood", "Primera Sangre", 1, "common"),
      Trophy("apprentice", "Aprendiz", 5, "common"),
      Trophy("journeyman", "Viajero", 10, "uncommon"),
      Trophy("pro_hacker", "Pro Hacker", 50, "epic"),
      Trophy("elite", "\U{00C9}lite", 100, "legendary"),
      Trophy("guru", "Gur\U{00FA}", 200, "mythic"),
      Trophy("God", "God Hacking", 500, "GOD") ]
  }

  predicate IdsDistinct(ts: seq<Trophy>) {
    forall i, j :: 0 <= i < j < |ts| ==> ts[i].id != ts[j].id
  }

  predicate Ascending(ts: seq<Trophy>) {
    forall i, j :: 0 <= i < j < |ts| ==> ts[i].requirement < ts[j].requirement
  }

  /** No two catalogue trophies share an id. */
  lemma CatalogueIdsDistinct()
    ensures IdsDistinct(Catalogue())
  {
  }

  /** Each catalogue trophy asks for strictly more machines than the one before. */
  lemma CatalogueAscending()
    ensures Ascending(Catalogue())
  {
    var c := Catalogue();
    forall i | 0 < i < |c| ensures c[i - 1].requirement < c[i].requirement {
    }
    AdjacentAscending(c);
  }

  /** Ascending neighbours make an ascending sequence. */
  lemma {:induction false} AdjacentAscending(ts: seq<Trophy>)
    requires forall i :: 0 < i < |ts| ==> ts[i - 1].requirement < ts[i].requirement
    ensures Ascending(ts)
    decreases |ts|
  {
    if |ts| > 1 {
      var init := ts[..|ts| - 1];
      AdjacentAscending(init);
      forall i | 0 <= i < |ts| - 1 ensures ts[i].requirement < ts[|ts| - 1].requirement {
        if i < |ts| - 2 {
          assert init[i].requirement < init[|ts| - 2].requirement;
        }
      }
    }
  }

  /** The ids of the trophies of `ts` whose requirement `solved` meets. */
  function EarnedIn(ts: seq<Trophy>, solved: nat): set<string> {
    set t | t in ts && solved >= t.requirement :: t.id
  }

  function EarnedIds(solved: nat): set<string> {
    EarnedIn(Catalogue(), solved)
  }

  lemma EarnedInCons(ts: seq<Trophy>, solved: nat)
    requires |ts| > 0
    ensures EarnedIn(ts, solved) == (if solved >= ts[0].requirement then {ts[0].id} else {}) + EarnedIn(ts[1..], solved)
  {
    assert ts == [ts[0]] + ts[1..];
  }

  /** The `forEach` of `calculateUnlockedTrophies` over `ts`: add each earned id. */
  function UnlockFrom(held: set<string>, solved: nat, ts: seq<Trophy>): (r: set<string>)
    ensures r == held + EarnedIn(ts, solved)
    decreases |ts|
  {
    if |ts| == 0 then held
    else
      EarnedInCons(ts, solved);
      UnlockFrom(if solved >= ts[0].requirement then held + {ts[0].id} else held, solved, ts[1..])
  }

  /** `calculateUnlockedTrophies`: without stats nothing changes; with stats
      (a missing solved count reads as 0) every earned id is added and none
      is taken away. */
  function Unlock(held: set<string>, stats: Option<nat>): (r: set<string>)
    ensures held <= r
    ensures stats.None? ==> r == held
    ensures stats.Some? ==> r == held + EarnedIds(stats.value)
  {
    match stats
    case None => held
    case Some(solved) => UnlockFrom(held, solved, Catalogue())
  }

  /** Unlocking twice with the same stats adds nothing the second time. */
  lemma UnlockIdempotent(held: set<string>, stats: Option<nat>)
    ensures Unlock(Unlock(held, stats), stats) == Unlock(held, stats)
  {
  }

  /** More solved machines never unlock fewer trophies. */
  lemma EarnedMonotone(a: nat, b: nat)
    requires a <= b
    ensures EarnedIds(a) <= EarnedIds(b)
  {
  }

  // ---------------------------------------------------------------------------
  // New-trophy detection
  // ---------------------------------------------------------------------------

  datatype Check = Check(found: seq<Trophy>, held: set<string>)

  /** Not held before the check, and earned by `solved`. */
  function IsNew(held: set<string>, solved: nat): Trophy -> bool {
    (t: Trophy) => t.id !in held && solved >= t.requirement
  }

  /** The loop of `checkForNewTrophies` over `ts`: skip held ids, add and
      report the earned ones. The held set it tests grows as it goes. */
  function CheckFrom(held: set<string>, solved: nat, ts: seq<Trophy>): (r: Check)
    decreases |ts|
  {
    if |ts| == 0 then Check([], held)
    else if ts[0].id in held || solved < ts[0].requirement then CheckFrom(held, solved, ts[1..])
    else
      var rest := CheckFrom(held + {ts[0].id}, solved, ts[1..]);
      Check([ts[0]] + rest.found, rest.held)
  }

  function IdsOf(ts: seq<Trophy>): (ids: set<string>)
    ensures forall id :: id in ids <==> exists i :: 0 <= i < |ts| && ts[i].id == id
  {
    set i | 0 <= i < |ts| :: ts[i].id
  }

  lemma IdsOfCons(t: Trophy, f: seq<Trophy>)
    ensures IdsOf([t] + f) == {t.id} + IdsOf(f)
  {
    var g := [t] + f;
    forall id ensures id in IdsOf(g) <==> id == t.id || id in IdsOf(f) {
      if id == t.id {
        assert g[0].id == id;
      }
      if id in IdsOf(g) {
        var i :| 0 <= i < |g| && g[i].id == id;
        if i > 0 {
          assert g[i] == f[i - 1];
        }
      }
      if id in IdsOf(f) {
        var i :| 0 <= i < |f| && f[i].id == id;
        assert g[i + 1] == f[i];
      }
    }
  }

  /** The loop adds to the held set exactly the ids it reports. */
  lemma {:induction false} CheckHeld(held: set<string>, solved: nat, ts: seq<Trophy>)
    ensures CheckFrom(held, solved, ts).held == held + IdsOf(CheckFrom(held, solved, ts).found)
    decreases |ts|
  {
    if |ts| > 0 {
      if ts[0].id in held || solved < ts[0].requirement {
        CheckHeld(held, solved, ts[1..]);
      } else {
        var rest := CheckFrom(held + {ts[0].id}, solved, ts[1..]);
        CheckHeld(held + {ts[0].id}, solved, ts[1..]);
        IdsOfCons(ts[0], rest.found);
      }
    }
  }

  /** With distinct ids, adding an id mid-loop never hides a later trophy:
      the loop reports exactly the filter of the list by "new". */
  lemma {:induction false} CheckFound(held: set<string>, solved: nat, ts: seq<Trophy>)
    requires IdsDistinct(ts)
    ensures CheckFrom(held, solved, ts).found == Filter(ts, IsNew(held, solved))
    decreases |ts|
  {
    if |ts| > 0 {
      var tail := ts[1..];
      assert IdsDistinct(tail) by {
        assert forall i :: 0 <= i < |tail| ==> tail[i] == ts[i + 1];
      }
      if ts[0].id in held || solved < ts[0].requirement {
        CheckFound(held, solved, tail);
      } else {
        var held' := held + {ts[0].id};
        CheckFound(held', solved, tail);
        forall t | t in tail ensures IsNew(held', solved)(t) == IsNew(held, solved)(t) {
          var i :| 0 <= i < |tail| && tail[i] == t;
          assert ts[i + 1] == t;
        }
        FilterCongruent(tail, IsNew(held', solved), IsNew(held, solved));
      }
    }
  }

  /** `checkForNewTrophies`: the catalogue trophies not held before and earned
      now, in catalogue order, all of them added to the held set. */
  function CheckForNew(held: set<string>, solved: nat): (r: Check)
    ensures r.found == Filter(Catalogue(), IsNew(held, solved))
    ensures r.held == held + IdsOf(r.found)
    ensures forall t :: t in r.found <==> t in Catalogue() && IsNew(held, solved)(t)
  {
    CatalogueIdsDistinct();
    CheckFound(held, solved, Catalogue());
    CheckHeld(held, solved, Catalogue());
    CheckFrom(held, solved, Catalogue())
  }

  /** The loop's final held set is the old one plus every id `solved` earns. */
  lemma {:induction false} CheckHeldEarned(held: set<string>, solved: nat, ts: seq<Trophy>)
    ensures CheckFrom(held, solved, ts).held == held + EarnedIn(ts, solved)
    decreases |ts|
  {
    if |ts| > 0 {
      EarnedInCons(ts, solved);
      if ts[0].id in held || solved < ts[0].requirement {
        CheckHeldEarned(held, solved, ts[1..]);
      } else {
        CheckHeldEarned(held + {ts[0].id}, solved, ts[1..]);
      }
    }
  }

  /** The check leaves the same held set as a full unlock with those stats. */
  lemma CheckAgreesWithUnlock(held: set<string>, solved: nat)
    ensures CheckForNew(held, solved).held == Unlock(held, Some(solved))
  {
    CheckHeldEarned(held, solved, Catalogue());
  }

  /** Once every earned id is held, the loop finds nothing. */
  lemma NothingNewOnceHeld(held: set<string>, solved: nat, ts: seq<Trophy>)
    requires IdsDistinct(ts)
    requires EarnedIn(ts, solved) <= held
    ensures CheckFrom(held, solved, ts).found == []
  {
    CheckFound(held, solved, ts);
    forall t | t in ts ensures !IsNew(held, solved)(t) {
      if solved >= t.requirement {
        assert t.id in EarnedIn(ts, solved);
      }
    }
    FilterNone(ts, IsNew(held, solved));
  }

  /** A second check with unchanged stats finds nothing new. */
  lemma CheckTwiceFindsNothing(held: set<string>, solved: nat)
    ensures CheckForNew(CheckForNew(held, solved).held, solved).found == []
  {
    CheckHeldEarned(held, solved, Catalogue());
    CatalogueIdsDistinct();
    NothingNewOnceHeld(CheckForNew(held, solved).held, solved, Catalogue());
  }

  // ---------------------------------------------------------------------------
  // Per-trophy progress, the achieved/locked split, labels
  // ---------------------------------------------------------------------------

  datatype Progress = Progress(percentage: real, text: string)

  /** `calculateTrophyProgress`. */
  function TrophyProgress(held: set<string>, stats: Option<nat>, t: Trophy): (p: Progress)
    requires t.requirement >= 1
    ensures t.id in held ==> p == Progress(100.0, "Completado")
    ensures t.id !in held && stats.None? ==> p == Progress(0.0, "Progreso no disponible")
    ensures t.id !in held && stats.Some? ==>
              p.text == NatToString(stats.value) + "/" + NatToString(t.requirement)
              && p.percentage == CappedPercent(stats.value, t.requirement)
    ensures 0.0 <= p.percentage <= 100.0
  {
    if t.id in held then Progress(100.0, "Completado")
    else if stats.None? then Progress(0.0, "Progreso no disponible")
    else Progress(CappedPercent(stats.value, t.requirement), NatToString(stats.value) + "/" + NatToString(t.requirement))
  }

  /** After unlocking, a catalogue trophy shows as complete exactly when the
      stats meet its requirement or it was already held. */
  lemma ProgressAfterUnlock(held: set<string>, solved: nat, t: Trophy)
    requires t in Catalogue()
    ensures TrophyProgress(Unlock(held, Some(solved)), Some(solved), t).percentage == 100.0
            <==> t.id in held || solved >= t.requirement
  {
    if t.id !in held && solved < t.requirement {
      CatalogueIdsDistinct();
      forall u | u in Catalogue() && solved >= u.requirement ensures u.id != t.id {
        var i :| 0 <= i < |Catalogue()| && Catalogue()[i] == u;
        var j :| 0 <= j < |Catalogue()| && Catalogue()[j] == t;
      }
      assert t.id !in EarnedIds(solved);
    }
  }

  function IsHeld(held: set<string>): Trophy -> bool {
    (t: Trophy) => t.id in held
  }

  /** `renderTrophies`: the trophies held and the trophies still locked. */
  function Achieved(held: set<string>): seq<Trophy> {
    Filter(Catalogue(), IsHeld(held))
  }

  function Locked(held: set<string>): seq<Trophy> {
    Filter(Catalogue(), Not(IsHeld(held)))
  }

  /** Achieved and locked split the catalogue: together they hold each trophy
      exactly once, and no trophy is in both. */
  lemma AchievedLockedPartition(held: set<string>)
    ensures multiset(Achieved(held)) + multiset(Locked(held)) == multiset(Catalogue())
    ensures |Achieved(held)| + |Locked(held)| == 7
    ensures forall t :: t in Achieved(held) ==> t !in Locked(held)
  {
    FilterSplit(Catalogue(), IsHeld(held));
    assert |multiset(Achieved(held)) + multiset(Locked(held))| == |multiset(Catalogue())|;
  }

  /** The summary's completion figure, `Math.round(achieved / total * 100)`. */
  function CompletionPercent(held: set<string>): (p: nat)
    ensures p <= 100
    ensures p == 100 <==> |Achieved(held)| == 7
  {
    AchievedLockedPartition(held);
    RoundPercentFull(|Achieved(held)|, 7);
    RoundPercent(|Achieved(held)|, 7)
  }

  const RarityNames: map<string, string> := map[
    "common" := "Com\U{00FA}n",
    "uncommon" := "Poco Com\U{00FA}n",
    "rare" := "Rara",
    "epic" := "\U{00C9}pica",
    "legendary" := "Legendaria",
    "mythic" := "M\U{00ED}tica",
    "god" := "GOD"
  ]

  /** `getRarityName`: the display name of a known rarity key, otherwise the
      key itself. The lookup is case-sensitive. */
  function RarityName(rarity: string): (r: string)
    ensures rarity in RarityNames ==> r == RarityNames[rarity]
    ensures rarity !in RarityNames ==> r == rarity
  {
    if rarity in RarityNames && RarityNames[rarity] != "" then RarityNames[rarity] else rarity
  }

  /** Every label in the table is non-empty. */
  lemma LabelsNonEmpty()
    ensures forall k :: k in RarityNames ==> RarityNames[k] != ""
  {
  }

  /** A rarity is shown as the empty text only when the key itself is empty. */
  lemma RarityNameEmpty(rarity: string)
    ensures RarityName(rarity) == "" <==> rarity == ""
  {
    LabelsNonEmpty();
  }

  /** Every rarity the catalogue uses has a non-empty label; the top tier's key
      `GOD` is not the map's `god`, so it is shown unchanged. */
  lemma CatalogueRarityNames()
    ensures forall t :: t in Catalogue() ==> RarityName(t.rarity) != ""
    ensures "GOD" !in RarityNames && RarityName("GOD") == "GOD"
  {
    var c := Catalogue();
    forall t | t in c ensures RarityName(t.rarity) != "" {
      var i :| 0 <= i < |c| && c[i] == t;
      assert |c[i].rarity| >= 3;
      RarityNameEmpty(t.rarity);
    }
    assert "GOD" != "god";
  }

  /** `getRequirementDescription` for a machine-count trophy. */
  function RequirementDescription(requirement: nat): (r: string)
    ensures |r| > 17
    ensures r[..9] == "Resolver "
    ensures ParseIntPrefix(r[9..]) == Some(requirement)
    ensures r[|r| - 1] == 's' <==> requirement > 1
    ensures 9 + |NatToString(requirement)| <= |r|
    ensures r[9 + |NatToString(requirement)|..] == " m\U{00E1}quina" + (if requirement > 1 then "s" else "")
  {
    var digits := NatToString(requirement);
    var noun := " m\U{00E1}quina" + (if requirement > 1 then "s" else "");
    var r := "Resolver " + (digits + noun);
    assert r[9..] == digits + noun;
    assert r[9 + |digits|..] == noun;
    LeadingDigitsOf(digits, noun);
    r
  }
}

=== FILE: ui.dfy ===
/** The interface manager's decisions: reading a YouTube `t=` parameter,
    recognising a bare video id, choosing a machine's image, the pager, the
    page resets, and what the wanted and solved checkboxes write. */
module Ui {
  import opened Wrappers
  import opened Text
  import opened Store

  // ---------------------------------------------------------------------------
  // YouTube start times and ids
  // ---------------------------------------------------------------------------

  /** One optional group `(\d+)u` at the front of `s`, the unit letter matched
      without regard to case: its number and what follows it, or 0 and `s`
      untouched when the digits are missing or not followed by the unit. */
  function UnitGroup(s: string, unit: char): (r: (nat, string))
    ensures |r.1| <= |s|
  {
    var d := LeadingDigits(s);
    if 0 < |d| < |s| && LowerChar(s[|d|]) == unit then (DigitsValue(d), s[|d| + 1..]) else (0, s)
  }

  /** `parseYouTubeTime`: 0 for an empty value, the number itself for an
      all-digit value, and otherwise `h * 3600 + m * 60 + s` from the
      optional `h`, `m` and `s` groups matched at the front. */
  function ParseYouTubeTime(t: string): (seconds: nat)
    ensures t == "" ==> seconds == 0
    ensures |t| > 0 && AllDigits(t) ==> seconds == DigitsValue(t)
    ensures !AllDigits(t) ==> seconds == GroupsTotal(t)
  {
    if t == "" then 0
    else if AllDigits(t) then DigitsValue(t)
    else GroupsTotal(t)
  }

  /** The `h`, `m` and `s` groups read in turn, each from what the previous left. */
  function GroupsTotal(t: string): nat {
    var (h, r1) := UnitGroup(t, 'h');
    var (m, r2) := UnitGroup(r1, 'm');
    var (s, _) := UnitGroup(r2, 's');
    h * 3600 + m * 60 + s
  }

  /** A group reads back the number written in front of its unit letter. */
  lemma UnitGroupOf(n: nat, unit: char, rest: string)
    requires !IsDigit(unit) && LowerChar(unit) == unit
    ensures UnitGroup(NatToString(n) + [unit] + rest, unit) == (n, rest)
  {
    var d := NatToString(n);
    var s := d + [unit] + rest;
    assert s == d + ([unit] + rest);
    LeadingDigitsConcat(d, [unit] + rest);
    assert s[|d| + 1..] == rest;
  }

  /** The text `<h>h<m>m<s>s`. */
  function HmsText(h: nat, m: nat, s: nat): string {
    NatToString(h) + "h" + (NatToString(m) + "m" + (NatToString(s) + "s"))
  }

  /** Written out in full, hours, minutes and seconds read back to their total. */
  lemma HmsRoundTrip(h: nat, m: nat, s: nat)
    ensures ParseYouTubeTime(HmsText(h, m, s)) == h * 3600 + m * 60 + s
  {
    var rs := NatToString(s) + "s";
    var rm := NatToString(m) + "m" + rs;
    var t := NatToString(h) + "h" + rm;
    assert t[|NatToString(h)|] == 'h';
    assert rs == NatToString(s) + "s" + "";
    UnitGroupOf(h, 'h', rm);
    UnitGroupOf(m, 'm', rs);
    UnitGroupOf(s, 's', "");
  }

  /** A group whose unit letter is not the one after the digits matches nothing. */
  lemma UnitGroupSkips(n: nat, other: char, unit: char, rest: string)
    requires !IsDigit(other) && LowerChar(other) != unit
    ensures UnitGroup(NatToString(n) + [other] + rest, unit) == (0, NatToString(n) + [other] + rest)
  {
    var d := NatToString(n);
    assert d + [other] + rest == d + ([other] + rest);
    LeadingDigitsConcat(d, [other] + rest);
  }

  /** The hours may be left out: minutes and seconds read back to their total. */
  lemma MinutesSecondsRoundTrip(m: nat, s: nat)
    ensures ParseYouTubeTime(NatToString(m) + "m" + NatToString(s) + "s") == m * 60 + s
  {
    var rs := NatToString(s) + "s";
    var t := NatToString(m) + "m" + NatToString(s) + "s";
    assert t == NatToString(m) + ['m'] + rs;
    assert rs == NatToString(s) + ['s'] + "";
    assert !IsDigit(t[|NatToString(m)|]);
    UnitGroupSkips(m, 'm', 'h', rs);
    UnitGroupOf(m, 'm', rs);
    UnitGroupOf(s, 's', "");
    assert UnitGroup(t, 'h') == (0, t);
    assert UnitGroup(t, 'm') == (m, rs);
    assert UnitGroup(rs, 's') == (s, "");
  }

  /** Seconds alone read back to themselves. */
  lemma SecondsRoundTrip(s: nat)
    ensures ParseYouTubeTime(NatToString(s) + "s") == s
  {
    var t := NatToString(s) + "s";
    assert t == NatToString(s) + ['s'] + "";
    assert t[|NatToString(s)|] == 's';
    UnitGroupSkips(s, 's', 'h', "");
    UnitGroupSkips(s, 's', 'm', "");
    UnitGroupOf(s, 's', "");
  }

  /** A value that does not start with a digit gives 0. */
  lemma NoLeadingDigitIsZero(t: string)
    requires |t| > 0 && !IsDigit(t[0])
    ensures ParseYouTubeTime(t) == 0
  {
    assert !AllDigits(t);
    assert LeadingDigits(t) == "";
  }

  /** The regular expression class `[a-zA-Z0-9_-]`. */
  predicate IsIdChar(c: char) {
    ('a' <= c <= 'z') || ('A' <= c <= 'Z') || IsDigit(c) || c == '_' || c == '-'
  }

  /** A bare video id: six or more id characters, not containing `http`. */
  predicate IsRawVideoId(v: string) {
    |v| >= 6 && (forall i :: 0 <= i < |v| ==> IsIdChar(v[i])) && !Contains(v, "http")
  }

  datatype VideoRef = VideoRef(id: string, start: nat)

  /** `parseYouTube`: null for an empty value, the value itself with start 0
      for a bare id, and otherwise whatever the URL branch finds, which comes
      in as `urlBranch`. */
  function ParseYouTube(val: string, urlBranch: Option<VideoRef>): (r: Option<VideoRef>)
    ensures val == "" ==> r.None?
    ensures IsRawVideoId(val) ==> r == Some(VideoRef(val, 0))
    ensures val != "" && !IsRawVideoId(val) ==> r == urlBranch
  {
    if val == "" then None
    else if IsRawVideoId(val) then Some(VideoRef(val, 0))
    else urlBranch
  }

  /** A value with a `:` or `/` in it (every URL) is never taken for a bare id. */
  lemma UrlIsNotRawId(val: string, i: nat)
    requires i < |val| && (val[i] == ':' || val[i] == '/')
    ensures !IsRawVideoId(val)
  {
    assert !IsIdChar(val[i]);
  }

  const Placeholder := "assets/machine-placeholder.svg"

  function Thumbnail(id: string): string {
    "https://img.youtube.com/vi/" + id + "/hqdefault.jpg"
  }

  /** `getMachineImage`: the machine's own image, else the thumbnail of the
      video id, else the placeholder. Never empty. */
  function GetMachineImage(m: Machine, urlBranch: Option<VideoRef>): (r: string)
    ensures r != ""
    ensures m.image != "" ==> r == m.image
    ensures m.image == "" && IsRawVideoId(m.video) ==> r == Thumbnail(m.video)
    ensures m.image == "" && m.video == "" ==> r == Placeholder
  {
    if m.image != "" then m.image
    else
      var yt := ParseYouTube(m.video, urlBranch);
      if yt.Some? && yt.value.id != "" then Thumbnail(yt.value.id) else Placeholder
  }

  /** The demo catalogue: Injection shows its video's thumbnail, ICA_1 the placeholder. */
  lemma DemoImages(urlBranch: Option<VideoRef>)
    ensures GetMachineImage(DemoMachines[0], urlBranch) == Thumbnail("NmDQvmCgkv8")
    ensures GetMachineImage(DemoMachines[1], urlBranch) == Placeholder
  {
    DemoMedia();
    DemoIdIsRaw();
  }

  lemma DemoMedia()
    ensures DemoMachines[0].image == "" && DemoMachines[0].video == "NmDQvmCgkv8"
    ensures DemoMachines[1].image == "" && DemoMachines[1].video == ""
  {
  }

  lemma DemoIdIsRaw()
    ensures IsRawVideoId("NmDQvmCgkv8")
  {
    var v := "NmDQvmCgkv8";
    assert forall i :: 0 <= i < |v| ==> v[i] != 'h' && IsIdChar(v[i]);
    RawWithoutH(v);
  }

  /** Six or more id characters with no `h` among them make a bare id. */
  lemma RawWithoutH(v: string)
    requires |v| >= 6 && forall i :: 0 <= i < |v| ==> v[i] != 'h' && IsIdChar(v[i])
    ensures IsRawVideoId(v)
  {
    assert 'h' !in v;
    NoStart(v, "http");
  }

  // ---------------------------------------------------------------------------
  // Pager
  // ---------------------------------------------------------------------------

  const PageSize := 12

  /** `Math.ceil(n / 12)`: the least whole number of pages that holds `n` rows. */
  function TotalPages(n: int): (pages: int)
    ensures PageSize * (pages - 1) < n <= PageSize * pages
  {
    if n >= 0 then (n + PageSize - 1) / PageSize else -((-n) / PageSize)
  }

  datatype Pager = Pager(totalPages: int, prevDisabled: bool, nextDisabled: bool)

  /** `updatePagination`: the page count and which buttons are disabled. */
  function UpdatePagination(currentPage: int, totalCount: int): (p: Pager)
    ensures p.totalPages == TotalPages(totalCount)
    ensures p.prevDisabled <==> currentPage <= 1
    ensures p.nextDisabled <==> currentPage >= p.totalPages
  {
    var total := TotalPages(totalCount);
    Pager(total, currentPage <= 1, currentPage >= total)
  }

  /** "Next" is enabled exactly when rows remain past the current page. */
  lemma NextEnabledIffMoreRows(currentPage: int, totalCount: int)
    ensures !UpdatePagination(currentPage, totalCount).nextDisabled <==> PageSize * currentPage < totalCount
  {
    var t := TotalPages(totalCount);
    if currentPage < t {
      assert PageSize * currentPage <= PageSize * (t - 1);
    } else {
      assert PageSize * t <= PageSize * currentPage;
    }
  }

  /** The filters as the page keeps them. */
  type Filters = map<string, string>

  datatype Browse = Browse(currentPage: int, filters: Filters)

  /** The constructor's first page. */
  const InitialBrowse := Browse(1, map[])

  datatype BrowseEvent =
    | ChangePage(direction: int)
    | FilterChange(difficulty: string, os: string, techniques: string, tags: string, search: string)
    | ClearFilters
    | PerformSearch(term: string)

  /** The page and filters after one event: the arrows move the page by their
      direction; a new filter set, clearing, and a search go back to page 1. */
  function Apply(b: Browse, e: BrowseEvent): (r: Browse)
    ensures e.ChangePage? ==> r == b.(currentPage := b.currentPage + e.direction)
    ensures !e.ChangePage? ==> r.currentPage == 1
    ensures e.ClearFilters? ==> r.filters == map[]
    ensures e.PerformSearch? ==> r.filters == b.filters["search" := e.term]
    ensures e.FilterChange? ==> r.filters.Keys == {"difficulty", "os", "techniques", "tags", "search"}
                                && r.filters["search"] == e.search
  {
    match e
    case ChangePage(d) => b.(currentPage := b.currentPage + d)
    case FilterChange(difficulty, os, techniques, tags, search) =>
      Browse(1, map["difficulty" := difficulty, "os" := os, "techniques" := techniques,
                    "tags" := tags, "search" := search])
    case ClearFilters => Browse(1, map[])
    case PerformSearch(term) => Browse(1, b.filters["search" := term])
  }

  /** Clicking an arrow only while its button is enabled keeps the page
      between 1 and the page count. */
  lemma EnabledArrowsStayInRange(b: Browse, totalCount: int, direction: int)
    requires 1 <= b.currentPage <= TotalPages(totalCount) || b.currentPage == 1
    requires direction == 1 || direction == -1
    requires var p := UpdatePagination(b.currentPage, totalCount);
             (direction == -1 ==> !p.prevDisabled) && (direction == 1 ==> !p.nextDisabled)
    ensures var r := Apply(b, ChangePage(direction));
            1 <= r.currentPage <= TotalPages(totalCount)
  {
  }

  /** Forward then back returns to the same page and filters. */
  lemma ForwardBack(b: Browse)
    ensures Apply(Apply(b, ChangePage(1)), ChangePage(-1)) == b
  {
  }

  // ---------------------------------------------------------------------------
  // Status checkboxes
  // ---------------------------------------------------------------------------

  /** The wanted and solved checkboxes of one card. */
  datatype Boxes = Boxes(wantedChecked: bool, solvedChecked: bool, solvedDisabled: bool)

  /** `initCheckboxStates` for one card: with a stored status, wanted is
      ticked iff it is `deseada`, solved iff `resuelta`, and a solved machine
      has its box locked; with none the boxes stay as drawn. */
  function InitBoxes(drawn: Boxes, stored: Option<Status>): (r: Boxes)
    ensures stored.None? ==> r == drawn
    ensures stored.Some? ==> (r.wantedChecked <==> stored.value == Wanted)
                             && (r.solvedChecked <==> stored.value == Solved)
                             && r.solvedDisabled == (drawn.solvedDisabled || stored.value == Solved)
  {
    match stored
    case None => drawn
    case Some(s) => Boxes(s == Wanted, s == Solved, drawn.solvedDisabled || s == Solved)
  }

  /** After a wanted or solved click: the store and the clicked box. */
  datatype Click = Click(store: StatusStore, checked: bool, disabled: bool)

  /** `handleWantedChange`: nothing without a user; otherwise `deseada` when
      ticked and `none` when not, whatever the machine's current status,
      and the box flips back if the write fails. */
  function WantedChange(st: StatusStore, user: Option<string>, machineId: int, isWanted: bool, writeOk: bool): (c: Click)
    ensures user.None? ==> c == Click(st, isWanted, false)
    ensures user.Some? && writeOk ==>
              c == Click(WriteStatus(st, user.value, machineId, if isWanted then Wanted else NoStatus), isWanted, false)
    ensures user.Some? && !writeOk ==> c == Click(st, !isWanted, false)
  {
    match user
    case None => Click(st, isWanted, false)
    case Some(u) =>
      var status := if isWanted then Wanted else NoStatus;
      if writeOk then Click(WriteStatus(st, u, machineId, status), isWanted, false)
      else Click(st, !isWanted, false)
  }

  /** `handleSolvedChange`: nothing without a user; an untick is refused and
      the box re-ticked; a declined confirmation unticks it; otherwise
      `resuelta` is written and the box locked, or unticked if the write fails. */
  function SolvedChange(st: StatusStore, user: Option<string>, machineId: int, isSolved: bool,
                        confirmed: bool, writeOk: bool): (c: Click)
    ensures c.store == st || (user.Some? && c.store == WriteStatus(st, user.value, machineId, Solved))
    ensures c.store != st ==> isSolved && confirmed && writeOk
    ensures user.Some? && !isSolved ==> c == Click(st, true, false)
    ensures user.Some? && isSolved && !confirmed ==> c == Click(st, false, false)
    ensures user.Some? && isSolved && confirmed ==>
              (writeOk ==> c == Click(WriteStatus(st, user.value, machineId, Solved), true, true))
              && (!writeOk ==> c == Click(st, false, false))
  {
    match user
    case None => Click(st, isSolved, false)
    case Some(u) =>
      if !isSolved then Click(st, true, false)
      else if !confirmed then Click(st, false, false)
      else if writeOk then Click(WriteStatus(st, u, machineId, Solved), true, true)
      else Click(st, false, false)
  }

  /** The solved handler never takes a machine away from `resuelta`. */
  lemma SolvedHandlerKeepsSolved(st: StatusStore, user: Option<string>, machineId: int, isSolved: bool,
                                 confirmed: bool, writeOk: bool, u: string, k: int)
    requires ReadStatus(st, u, k) == Some(Solved)
    ensures ReadStatus(SolvedChange(st, user, machineId, isSolved, confirmed, writeOk).store, u, k) == Some(Solved)
  {
    var c := SolvedChange(st, user, machineId, isSolved, confirmed, writeOk);
    if c.store != st {
      if u == user.value && k == machineId {
        ReadAfterWrite(st, u, k, Solved);
      } else {
        WriteFrame(st, user.value, machineId, Solved, u, k);
      }
    }
  }

  /** The wanted handler does not look at the current status: unticking it on
      a solved machine stores `none`, so the solved mark is only protected by
      the solved checkbox itself. */
  lemma WantedOverridesSolved(st: StatusStore, u: string, machineId: int)
    requires ReadStatus(st, u, machineId) == Some(Solved)
    ensures ReadStatus(WantedChange(st, Some(u), machineId, false, true).store, u, machineId) == Some(NoStatus)
  {
    ReadAfterWrite(st, u, machineId, NoStatus);
  }

  /** A successful click leaves the boxes as a fresh page would draw them from
      the store: the clicked box agrees with the stored status. */
  lemma ClickAgreesWithReload(st: StatusStore, u: string, machineId: int, tick: bool, drawn: Boxes)
    ensures var c := WantedChange(st, Some(u), machineId, tick, true);
            InitBoxes(drawn, ReadStatus(c.store, u, machineId)).wantedChecked == c.checked
    ensures var c := SolvedChange(st, Some(u), machineId, true, true, true);
            var b := InitBoxes(drawn, ReadStatus(c.store, u, machineId));
            b.solvedChecked == c.checked && b.solvedDisabled && c.disabled
  {
    ReadAfterWrite(st, u, machineId, if tick then Wanted else NoStatus);
    ReadAfterWrite(st, u, machineId, Solved);
  }
}

=== FILE: wrappers.dfy ===
/** Failure-compatible result types shared by every module of the model.
    The source returns `{success, data, error}` objects or `null`; here those
    become `Option` and `Result` values. */
module Wrappers {

  /** A value that may be absent: the source's `null` / `undefined`. */
  datatype Option<+T> = None | Some(value: T) {

    /** The wrapped value, or `default` when absent (the source's `x || default`). */
    function GetOr(default: T): T {
      match this
      case Some(v) => v
      case None => default
    }
  }

  /** The gateway's uniform `{success: true, data}` / `{success: false, error}` shape. */
  datatype Result<+R> = Ok(value: R) | Err(message: string) {

    predicate IsOk() {
      Ok?
    }
  }
}
